=== FILE: README.md ===
# japandict core, modelled in Dafny

japandict is a Japanese–English dictionary. It ships as four parts, each modelled here with what it promises proved:

- An offline packer (`jmdict-codegen`) turns a JMdict word list into a packed blob. The blob is one NUL-terminated string pool with an offset table, plus one buffer of entry records with its own offset table.
- A decoder (`japandict-core/src/dictionary.rs`) materialises one entry from that blob.
- A search engine (`japandict-core/src/search.rs`) answers a query. It builds three inverted indices once: English glosses, kanji forms and kana forms. It classifies the query as kanji, kana or English, collects candidates from the matching index (or scans the head of the dictionary when there are none), scores every candidate on a fixed feature table, ranks them with a deterministic comparator, and keeps the first fifty.
- A terminal interface (`japandict-tui`) edits the query readline-style, re-runs the search after every edit, scrolls the result list, and renders each result as one line.

Modules, leaves first:

| module | file | models |
|---|---|---|
| `Wrappers` | wrappers.dfy | `Option` |
| `Bytes` | bytes.dfy | bytes, the `as u8` / `as u32` casts, little-endian u32 fields |
| `Text` | text.dfy | UTF-8 length, lowercase, trim, split, join, whitespace words |
| `Dictionary` | dictionary.dfy | the blob, `read_string`, `get_word_entry` |
| `Query` | query.dfy | `detect_query_type`, `normalize_query`, `simple_edit_distance` |
| `Scoring` | evaluate.dfy | `Features`, `score_features`, `detect_simple_form`, `evaluate_entry` |
| `SearchIndex` | index.dfy | the three index builders, `find_indexed_entries` |
| `Search` | search.dfy | `search_dictionary`: collection, ranking, the cut to fifty |
| `PackLayout` | pack_layout.dfy | the byte layout the packer writes, and the decode round trip |
| `Packer` | packer.dfy | string interning, common-first ordering, the word loop, packing |
| `Tui` | tui.dfy | `App`, `handle_input`, `search`, `format_entry` |

How the parts are shaped:

- Functions and lemmas model the code that computes values. Methods with loop invariants model the loops, and each such method is proved equal to its specification function: `read_string`, the four index loops of `get_word_entry`, the scans of `evaluate_entry`, the index builders, candidate gathering, the evaluation and fallback loops of `search_dictionary`, the packer's word loop and byte packing, and `format_entry`.
- The packer's string pool (a map and a list updated by `get_or_insert`) is the class `Packer.Interner`.
- The interface state is the class `Tui.App`.

The packer and the decoder work on bytes, while search and the interface work on strings. `WordEntry<S>` is generic over the string type for that reason.

The central proofs:

- Every record the packer writes decodes to the entry built from its word (`Packer.Pack`, `PackLayout.PackedRoundTrip`).
- Every index list holds exactly the ids of the entries filed under its key, in order (`SearchIndex.EnglishIndexLists`, `SearchIndex.FormIndexLists`).
- The candidate list is the 1000 smallest ids of a set characterised by the index keys (`SearchIndex.FindIndexedEntries`).
- The ranking is a stable sort by a strict weak order, and the answer is its first fifty entries (`Search.AnswerProperties`, `Search.RankStable`).
- Each match flag of an entry holds exactly when its matching rule holds (`Scoring.EvaluateKanji`, `Scoring.EvaluateKana`, `Scoring.EvaluateEnglish`).
- The key table of the interface and the line edits behave as readline does (`Tui.QuitKeys`, `Tui.InsertThenDelete`, `Tui.KillsSplit`).

Where the system's design description and its code differ, the model follows the code:

- Only the English index is sorted and deduplicated. The kanji and kana lists keep one id per occurrence, in id order (`search.rs:90-116`).
- "Longer than one character" in the English index keys, the early exit of the edit distance, and the second tie-breaker all measure UTF-8 bytes (`str::len`), not characters.
- The kana edit-distance signal keeps the first distance of at most 2 met in the kana forms, not the smallest one.
- Part of speech is taken from the first sense that has a non-empty list, not always from the first sense (`main.rs:193-199`).
- The search scores with the simple-form rule and the edit distance as written: the adjective suffix is the garbled one, and the distance counts in a wrapping `u8`. The corrected versions, and the inputs on which the two differ, are under "## Findings".

## Model

| member | source | states |
|---|---|---|
| Bytes.AsU8 | jmdict-codegen/src/main.rs:229-232 | a count below 256 survives the `as u8` cast unchanged |
| Bytes.AsU32 | jmdict-codegen/src/main.rs:214 | an offset below 2^32 survives the `as u32` cast unchanged |
| Bytes.LeRoundTrip | japandict-core/src/dictionary.rs:26 | `from_le_bytes` on four bytes written by `to_le_bytes`, wherever they sit in a buffer, gives back the value written |
| Dictionary.StringAt | japandict-core/src/dictionary.rs:13-20 | the string at an offset is a slice of the pool without NUL bytes, ending at the first NUL or at the end of the pool |
| Dictionary.ReadString | japandict-core/src/dictionary.rs:13-20 | the scanning loop returns exactly that string |
| Dictionary.DecodeEntry | japandict-core/src/dictionary.rs:22-71 | the four lists have the lengths in header bytes 4–7; common iff byte 8 is non-zero; the id is the string in slot (sum of the four category counts) + the little-endian id index |
| Dictionary.DecodeLayout | japandict-core/src/dictionary.rs:33-65 | the decoded strings, kanji then kana then English then part of speech, are those named by the record's 4-byte indices in order, one per index |
| Dictionary.ReadStrings | japandict-core/src/dictionary.rs:40-44 | one index loop yields the strings its indices name and moves the cursor 4 bytes per index |
| Dictionary.GetWordEntry | japandict-core/src/dictionary.rs:22-71 | the cursor-walking decoder returns `DecodeEntry` |
| Text.CharUtf8Len | japandict-core/src/search.rs:224 | a character takes 1 to 4 bytes, and 1 exactly when it is ASCII |
| Text.Utf8Len | japandict-core/src/search.rs:224 | the byte length lies between the character count and four times it |
| Text.Lower | japandict-core/src/search.rs:205 | no upper-case ASCII letter remains; other characters are unchanged; whitespace stays whitespace |
| Text.ToLower | japandict-core/src/search.rs:205 | lowercasing keeps the length and lowercases every character |
| Text.ToLowerIdempotent | japandict-core/src/search.rs:205 | lowercasing twice is lowercasing once |
| Text.TrimStartBy | japandict-core/src/search.rs:329 | the result is a suffix; everything dropped matches the predicate; the result does not start with a match |
| Text.TrimEndBy | japandict-core/src/search.rs:329 | the result is a prefix; everything dropped matches the predicate; the result does not end with a match |
| Text.TrimBy | japandict-core/src/search.rs:329 | `trim_matches`: a contiguous slice whose ends do not match, with only matching characters outside it |
| Text.TrimIdempotent | japandict-core/src/search.rs:329 | trimming a trimmed string changes nothing |
| Text.BlankIffAllWhitespace | japandict-core/src/search.rs:454 | `trim().is_empty()` holds exactly when every character is whitespace |
| Text.Join | japandict-tui/src/main.rs:357 | a join starts with the first part and ends with the last |
| Text.JoinLength | japandict-tui/src/main.rs:357 | a join is as long as its parts plus one separator between each pair of neighbours |
| Text.Split | japandict-core/src/search.rs:299 | splitting always gives at least one part |
| Text.SplitNoSeparator | japandict-core/src/search.rs:299 | no part contains the separator |
| Text.SplitJoin | japandict-core/src/search.rs:299 | joining the parts with the separator gives back the string |
| Text.LeadingWord | japandict-core/src/search.rs:71 | the leading word is the longest prefix without whitespace |
| Text.SplitWhitespace | japandict-core/src/search.rs:327 | the words are non-empty and whitespace-free; together they are the string's non-whitespace characters in order; the first word of a string that starts with a non-space is its leading word |
| Text.SplitWhitespaceSkip | japandict-core/src/search.rs:327 | leading whitespace gives no word |
| Text.SplitWhitespaceWord | japandict-core/src/search.rs:327 | a whitespace-free word followed by whitespace is one word, and splitting goes on after the whitespace |
| Text.SplitWhitespaceSingle | japandict-core/src/search.rs:327 | a non-empty string without whitespace is one word |
| Text.FirstWord | japandict-core/src/search.rs:71 | the first word is empty exactly when the string has no words |
| Query.HasKanji | japandict-core/src/search.rs:182-185 | true iff some character is in U+4E00..U+9FAF |
| Query.HasKana | japandict-core/src/search.rs:187-190 | true iff some character is hiragana or katakana |
| Query.DetectQueryType | japandict-core/src/search.rs:181-201 | Kanji iff some kanji; Kana iff no kanji and some kana; English iff neither |
| Query.NormalizeQuery | japandict-core/src/search.rs:203-206 | the result has no whitespace at either end and no upper-case ASCII letter, and is empty exactly for a blank query |
| Query.NormalizeIdempotent | japandict-core/src/search.rs:203-206 | normalising a normalised query changes nothing |
| Query.Mismatches | japandict-core/src/search.rs:235-239 | the count of differing positions is at most the number of positions compared |
| Query.MismatchesNone | japandict-core/src/search.rs:235-239 | no mismatch iff the strings agree at every compared position |
| Query.MismatchesSymmetric | japandict-core/src/search.rs:235-239 | the count does not depend on argument order |
| Query.EditDistance | japandict-core/src/search.rs:221-242 | the distance is at most 3, and is 3 for different strings whose UTF-8 lengths differ by more than 2 |
| Query.EditDistanceZero | japandict-core/src/search.rs:221-242 | distance 0 iff the strings are equal |
| Query.EditDistanceSymmetric | japandict-core/src/search.rs:221-242 | the distance is symmetric |
| Query.KanaOneLonger | japandict-core/src/search.rs:224 | two kana strings one character apart in length are 3 bytes apart, so they are at distance 3 |
| Query.SimpleEditDistance | japandict-core/src/search.rs:221-242 | the counting loop with the argument swap and the `u8` counter returns `EditDistanceAsWritten` |
| Query.EditDistanceAsWritten | japandict-core/src/search.rs:221-242 | the distance the code computes, with the `u8` counter, is capped at 3; it is 0 on equal strings and 3 when the byte lengths differ by more than 2 |
| Query.EditDistanceAsWrittenSymmetric | japandict-core/src/search.rs:221-242 | the distance the code computes does not depend on the order of its arguments |
| Query.EditDistanceAgree | japandict-core/src/search.rs:234-241 | below 256 characters the wrapping counter agrees with the exact count |
| Query.EditDistanceWraps | japandict-core/src/search.rs:234-241 | two different 256-character kana strings get distance 0 from the wrapping counter and 3 from the exact one |
| Scoring.ScoreMonotone | japandict-core/src/search.rs:140-172 | gaining any signal, or a smaller edit distance, never lowers the score (the first-gloss bonus outweighs the general gloss bonus it drops) |
| Scoring.FirstExactEnglishWins | japandict-core/src/search.rs:140-172 | an exact first-gloss English match outscores any entry with neither a first-gloss hit nor an exact English match |
| Scoring.AdjectiveIsSimple | japandict-core/src/search.rs:210-212 | with the intended suffix, every adj-i entry with a kanji form ending in い is a simple form |
| Scoring.ShorterIsSimple | japandict-core/src/search.rs:208-219 | an entry with the shorter-lemma signal is a simple form, under both suffix readings |
| Scoring.SimpleFormMissesAdjective | japandict-core/src/search.rs:210-212 | the adjective rule with the suffix as written rejects 面白い (adj-i); with hiragana い it accepts it |
| Scoring.ScanKanjiExact | japandict-core/src/search.rs:253-261 | the kanji loop reports an exact form iff some kanji form lowercases to the query |
| Scoring.ScanKanjiHit | japandict-core/src/search.rs:253-261 | the kanji loop reports an exact or prefix match iff some kanji form starts with the query |
| Scoring.ScanKanaHit | japandict-core/src/search.rs:274-289 | the kana loop reports a signal iff some kana form is near the query: it starts with the query, or its distance as written (wrapping `u8` counter) is 1 or 2 |
| Scoring.ScanKanaDistance | japandict-core/src/search.rs:284-288 | the recorded distance is at most 2 |
| Scoring.Clauses | japandict-core/src/search.rs:296-299 | a gloss has at least one `;` clause |
| Scoring.GlossMatches | japandict-core/src/search.rs:295-302 | one match list per gloss, each with at least one clause |
| Scoring.MatchClauseIff | japandict-core/src/search.rs:301-370 | the clause rules report a match iff the trimmed clause is the query or "to " and the query, or some whitespace word of it, stripped of non-letters, is the query |
| Scoring.ScanClausesHit | japandict-core/src/search.rs:301-370 | the clause loop sets gloss-hit iff some remaining clause matches; it sets first-gloss iff the first clause of the first gloss gives a stopping hit |
| Scoring.ScanGlossesHit | japandict-core/src/search.rs:295-371 | the gloss loop sets gloss-hit iff some clause of some gloss matches, and first-gloss iff the first clause of the first gloss gives a stopping hit |
| Scoring.ScanClausesExact | japandict-core/src/search.rs:301-370 | exact-English is only set by a clause that matched exactly |
| Scoring.ScanGlossesExact | japandict-core/src/search.rs:295-371 | the same over all glosses |
| Scoring.EvaluateKanji | japandict-core/src/search.rs:251-270 | a kanji query matches an entry iff some kanji form starts with the normalised query or some kana form equals it |
| Scoring.EvaluateKana | japandict-core/src/search.rs:272-290 | a kana query matches an entry iff some kana form is near the normalised query, with the distance as written |
| Scoring.EvaluateKanaShort | japandict-core/src/search.rs:272-290 | when the query and the kana forms are below 256 characters, a kana query matches iff some kana form starts with the query or lies within exact edit distance 2 of it |
| Scoring.EvaluateEnglish | japandict-core/src/search.rs:292-372 | an English query matches an entry iff some clause of some gloss matches it |
| Scoring.EvaluateEnglishClauses | japandict-core/src/search.rs:292-372 | an English query matches an entry iff some `;`-clause of some lowercased gloss equals the query or "to " and the query after trimming, or has a whitespace word that, stripped of non-letters, is the query |
| Scoring.EnglishHit | japandict-core/src/search.rs:292-372 | the English scan reports a gloss hit iff some clause matches |
| Scoring.EvaluateEnglishFlags | japandict-core/src/search.rs:292-372 | on a match, first-gloss iff the first clause of the first gloss hit; exact-English only from an exactly matching clause |
| Scoring.EvaluateQuality | japandict-core/src/search.rs:383-399 | a reported entry carries its own common flag, the shorter-lemma signal, the simple-form signal by the rule as written (`DetectSimpleFormAsWritten`), and the score of its features |
| Scoring.EvaluateDistance | japandict-core/src/search.rs:244-400 | a reported entry has edit distance at most 2 and is never flagged learner-friendly |
| Scoring.KanjiLoop | japandict-core/src/search.rs:253-261 | the loop with its early exit computes `ScanKanji` |
| Scoring.ReadingLoop | japandict-core/src/search.rs:264-269 | the loop reports an exact reading iff some kana form lowercases to the query |
| Scoring.KanaLoop | japandict-core/src/search.rs:274-289 | the loop, calling `SimpleEditDistance`, computes `ScanKana` |
| Scoring.ClauseLoop | japandict-core/src/search.rs:301-370 | the loop computes `ScanClauses` |
| Scoring.GlossLoop | japandict-core/src/search.rs:295-371 | the loop computes `ScanGlosses` |
| Scoring.EvaluateEntry | japandict-core/src/search.rs:244-400 | the method returns `Evaluate`: nothing without a match signal, else the entry, its features and their score |
| SearchIndex.PushAllLookup | japandict-core/src/search.rs:96-98 | filing an entry under a key list appends its id to each key's list once per occurrence |
| SearchIndex.PushAllKeys | japandict-core/src/search.rs:96-98 | afterwards the index has exactly the old keys and the filed ones |
| SearchIndex.PushAllAppend | japandict-core/src/search.rs:49-78 | filing under `a + b` is filing under `a`, then under `b` |
| SearchIndex.SortDedupSpec | japandict-core/src/search.rs:82-85 | sort-then-dedup gives a strictly ascending list with the same elements |
| SearchIndex.AscendingUnique | japandict-core/src/search.rs:82-85 | there is only one strictly ascending list with a given element set |
| SearchIndex.AscendingSize | japandict-core/src/search.rs:82-85 | a strictly ascending list has no duplicates |
| SearchIndex.LongWordsHas | japandict-core/src/search.rs:56-61 | exactly the words longer than one byte are kept |
| SearchIndex.FileStep | japandict-core/src/search.rs:92-99 | filing entry `n` turns the index of entries below `n` into the index of entries below `n + 1` |
| SearchIndex.BuildFiled | japandict-core/src/search.rs:92-101 | the list under a key is the ids filed for it, absent keys reading as empty |
| SearchIndex.BuildKeys | japandict-core/src/search.rs:92-101 | a key is present iff some entry below `n` has it |
| SearchIndex.FiledHas | japandict-core/src/search.rs:92-101 | an id is in a key's list iff that entry has the key |
| SearchIndex.FiledOrdered | japandict-core/src/search.rs:92-101 | a key's list is in id order |
| SearchIndex.BuildLookup | japandict-core/src/search.rs:92-101 | both together, for the built index |
| SearchIndex.FileUnder | japandict-core/src/search.rs:96-98 | the push loop computes `PushAll` |
| SearchIndex.FileGlosses | japandict-core/src/search.rs:49-78 | the gloss loop files the entry under every key of every gloss |
| SearchIndex.DedupLists | japandict-core/src/search.rs:82-85 | the clean-up loop sorts and deduplicates every list |
| SearchIndex.FileAll | japandict-core/src/search.rs:92-101 | the entry loop builds `Build` over all entries |
| SearchIndex.FileEntry | japandict-core/src/search.rs:93-99 | one step of it |
| SearchIndex.BuildEnglishIndex | japandict-core/src/search.rs:43-88 | the English index is the built index with every list sorted and deduplicated |
| SearchIndex.BuildFormIndex | japandict-core/src/search.rs:90-116 | the kanji and kana indices are the built indices, lists left as filed |
| SearchIndex.BuildIndices | japandict-core/src/search.rs:19-41 | the three indices are `IndicesOf(words)` |
| SearchIndex.EnglishIndexLists | japandict-core/src/search.rs:43-88 | each English list is strictly ascending and holds exactly the ids whose glosses yield the key |
| SearchIndex.FormIndexLists | japandict-core/src/search.rs:90-116 | each kanji or kana list is in id order and holds exactly the ids with that form; a key is present iff some entry has that form |
| SearchIndex.GlossKeysCover | japandict-core/src/search.rs:49-78 | a gloss is filed under its normalised text, each word longer than one byte, and each non-empty trimmed clause |
| SearchIndex.SmallestOfUnique | japandict-core/src/search.rs:447-449 | sort, dedup and truncate give one determined list for a given id set |
| SearchIndex.Gather | japandict-core/src/search.rs:424-433 | the key loop collects exactly the ids filed under matching keys |
| SearchIndex.FindIndexedEntries | japandict-core/src/search.rs:402-451 | the candidates are the 1000 smallest ids of the candidate set, ascending; none without indices |
| SearchIndex.IndicesBelow | japandict-core/src/search.rs:43-116 | every id in the built indices names an entry |
| SearchIndex.CandidatesBelow | japandict-core/src/search.rs:402-451 | so every candidate does |
| SearchIndex.CandidatesFromPrefixKeys | japandict-core/src/search.rs:424-443 | a kanji or kana candidate is filed under some key starting with the query |
| Search.StrLessIrreflexive | japandict-core/src/search.rs:507-510 | the string order is irreflexive |
| Search.StrLessTransitive | japandict-core/src/search.rs:507-510 | and transitive |
| Search.StrLessTotal | japandict-core/src/search.rs:507-510 | and total |
| Search.AheadAsymmetric | japandict-core/src/search.rs:487-512 | the comparator never puts two results each ahead of the other |
| Search.NotBehindTransitive | japandict-core/src/search.rs:487-512 | "not behind" is transitive, so the comparator is a strict weak order |
| Search.Place | japandict-core/src/search.rs:487-512 | one insertion step adds exactly the new result |
| Search.Rank | japandict-core/src/search.rs:487-512 | the sort is a permutation |
| Search.PlaceRanked | japandict-core/src/search.rs:487-512 | inserting into a ranked list keeps it ranked |
| Search.RankRanked | japandict-core/src/search.rs:487-512 | the sort output is ranked |
| Search.PlacePosSpec | japandict-core/src/search.rs:487-512 | insertion puts the result at its position and shifts the rest by one |
| Search.PlaceAfterTied | japandict-core/src/search.rs:487-512 | one insertion step puts the new result after every result it is tied with |
| Search.TiedWithPlace | japandict-core/src/search.rs:487-512 | inserting into a ranked list appends the new result to the results tied with any `t` when it is tied with `t`, and leaves them alone otherwise |
| Search.RankStable | japandict-core/src/search.rs:487-512 | `sort_by` is stable: for every `t`, the results tied with `t` leave the sort in the order they entered it |
| Search.TopEntries | japandict-core/src/search.rs:514-517 | at most fifty entries, those of the first ranked results |
| Search.Judge | japandict-core/src/search.rs:468-471 | one entry is evaluated |
| Search.EvaluateCandidates | japandict-core/src/search.rs:465-472 | the candidate loop keeps the matches in candidate order |
| Search.ScanEntries | japandict-core/src/search.rs:473-484 | the fallback loop returns `Scan` over the first min(entry count, 5000) entries, which stops once it holds 200 matches |
| Search.ScanFull | japandict-core/src/search.rs:479-481 | once 200 matches are held, looking further adds nothing |
| Search.SearchDictionary | japandict-core/src/search.rs:453-517 | a blank query returns nothing; any other query returns the first fifty ranked results of the candidates, or of the fallback scan |
| Search.CandidatesInRange | japandict-core/src/search.rs:465-472 | every candidate names an entry |
| Search.EvaluateAllFrom | japandict-core/src/search.rs:465-472 | every candidate result is the evaluation of a candidate |
| Search.EvaluateAllSize | japandict-core/src/search.rs:465-472 | there are no more candidate results than candidates |
| Search.ScanContents | japandict-core/src/search.rs:473-484 | at most 200 scan results, each from an entry looked at; below 200, every match looked at is in the results |
| Search.CollectedFrom | japandict-core/src/search.rs:465-484 | each collected result comes from a candidate, or from one of the first 5000 entries |
| Search.RankedFrom | japandict-core/src/search.rs:487-512 | the same holds after sorting |
| Search.AnswerProperties | japandict-core/src/search.rs:486-517 | the answer has at most fifty entries, taken from the ranked permutation of the collected results |
| Search.CollectedSize | japandict-core/src/search.rs:465-484 | at most as many results as candidates, or at most 200 from the scan |
| PackLayout.JoinedCategories | jmdict-codegen/src/main.rs:212 | writing the five pools in turn writes every string in slot order |
| PackLayout.PoolRead | jmdict-codegen/src/main.rs:212-217 | reading the pool at the offset of string `k` gives string `k` back |
| PackLayout.ReadRecord | jmdict-codegen/src/main.rs:227-253 | the record's header fields and 4-byte indices read back as written |
| PackLayout.SlotNames | jmdict-codegen/src/main.rs:236-253 | the `k`-th index written names the `k`-th string of the entry in the combined string slots |
| PackLayout.EntryAt | jmdict-codegen/src/main.rs:224-225 | record `i` starts at its offset and lies inside the entry data |
| PackLayout.SlotAt | jmdict-codegen/src/main.rs:212-217 | every string slot resolves to its interned string |
| PackLayout.PackedRecord | jmdict-codegen/src/main.rs:221-254 | the packed entry data holds each record at its offset |
| PackLayout.PackedStrings | jmdict-codegen/src/main.rs:208-218 | the packed string data holds every interned string at its slot |
| PackLayout.HoldsValid | japandict-core/src/dictionary.rs:22-71 | on such a blob every read of `get_word_entry` is in range, and the indices name the entry's strings |
| PackLayout.HoldsStringsOf | japandict-core/src/dictionary.rs:33-65 | the decoded strings are the entry's strings |
| PackLayout.HoldsDecode | japandict-core/src/dictionary.rs:22-71 | the decoded entry is the entry |
| PackLayout.PackedRoundTrip | jmdict-codegen/src/main.rs:221-254 | decoding packed record `i` gives the entry it encodes |
| Packer.EnglishGlossesMember | jmdict-codegen/src/main.rs:186-190 | exactly the `eng` glosses are kept |
| Packer.EnglishTextsMember | jmdict-codegen/src/main.rs:184-190 | the same over all senses |
| Packer.FirstPosEmpty | jmdict-codegen/src/main.rs:192-199 | no part of speech iff no sense has one |
| Packer.FirstPosFirst | jmdict-codegen/src/main.rs:192-199 | the parts of speech are those of the first sense that has any |
| Packer.CommonFirstPermutes | jmdict-codegen/src/main.rs:141-150 | the common-first order is a permutation |
| Packer.CommonFirstOrdered | jmdict-codegen/src/main.rs:141-150 | no uncommon word precedes a common one |
| Packer.CommonFirstStable | jmdict-codegen/src/main.rs:141-150 | common words, and uncommon words, keep their input order (`sort_by_key` is stable) |
| Packer.WordCount | jmdict-codegen/src/main.rs:152 | a limit of 0 keeps all words; otherwise the smaller of the limit and the word count |
| Packer.InternedDistinct | jmdict-codegen/src/main.rs:127-136 | the interned strings are pairwise distinct |
| Packer.InternedNoDup | jmdict-codegen/src/main.rs:114-136 | a pool kept by `get_or_insert` holds no string twice |
| Packer.Interner.constructor | jmdict-codegen/src/main.rs:115-125 | a pool starts empty |
| Packer.Interner.GetOrInsert | jmdict-codegen/src/main.rs:127-136 | a known string returns its index with the pool unchanged; a new one is appended at the next index; either way `strings[idx] == s` |
| Packer.InternAll | jmdict-codegen/src/main.rs:195-197 | the returned indices name the texts in order; the pool only grows, and every string it gains is named by one of the returned indices |
| Packer.InternForms | jmdict-codegen/src/main.rs:166-173 | the indices name the form texts, and common iff some form is flagged common; every string the pool gains is named by one of the indices |
| Packer.InternEnglish | jmdict-codegen/src/main.rs:186-190 | the indices name exactly the English glosses; every string the pool gains is named by one of them |
| Packer.InternFirstPos | jmdict-codegen/src/main.rs:192-199 | one sense's step of the part-of-speech rule; every string the part-of-speech pool has gained is named by the collected indices |
| Packer.InternSenses | jmdict-codegen/src/main.rs:184-200 | the indices name the English glosses of all senses, and the parts of speech of the first sense that has any; every string either pool gains is named by those indices |
| Packer.CollectRecord | jmdict-codegen/src/main.rs:155-202 | the record built for a word encodes the entry expected from it; the pools only grow, and every string they gain is named by the record |
| Packer.NamedBySnoc | jmdict-codegen/src/main.rs:154-204 | appending a record that names every string its word added keeps every pooled string named by some record |

| Packer.CollectAll | jmdict-codegen/src/main.rs:154-204 | one record per word, each encoding its word over the final pools; no pool holds a string twice, and every pooled string is named by some record |
| Packer.PooledStringsOfWords | jmdict-codegen/src/main.rs:114-204 | with records that encode their words and name every pooled string, each pool holds only strings of that category from the packed words |
| Packer.PackStrings | jmdict-codegen/src/main.rs:208-218 | the packing loop writes every string followed by NUL, recording each start |
| Packer.AppendStrings | jmdict-codegen/src/main.rs:213-217 | one pool's step of it |
| Packer.AppendHeader | jmdict-codegen/src/main.rs:228-233 | the 9-byte header is appended |
| Packer.AppendIndices | jmdict-codegen/src/main.rs:242-244 | the shifted little-endian indices are appended |
| Packer.AppendRecord | jmdict-codegen/src/main.rs:227-253 | one whole record is appended |
| Packer.PackEntries | jmdict-codegen/src/main.rs:221-254 | the entry loop writes every record and records each start |
| Packer.Layout | jmdict-codegen/src/main.rs:207-254 | the blob is `Packed(records, pools)` |
| Packer.Pack | jmdict-codegen/src/main.rs:114-254 | the words are taken common-first up to the limit; each record encodes its word; the pools are duplicate-free and every pooled string is named by some record; the blob is their packing; within size bounds, every entry decodes to its word's expected entry |
| Packer.PackedWords | jmdict-codegen/src/main.rs:221-254 | every packed entry is valid and decodes to its word's entry |
| Tui.QuitKeys | japandict-tui/src/main.rs:132-134 | a key quits iff it is plain `q`, Esc, or Ctrl-C |
| Tui.InsertKeys | japandict-tui/src/main.rs:191-195 | a character is typed iff it comes with Shift alone, or with no modifier and is not `q` |
| Tui.EditLine | japandict-tui/src/main.rs:137-195 | every edit keeps the cursor within the query |
| Tui.EditsSearch | japandict-tui/src/main.rs:167-195 | the query only changes under an arm that then searches |
| Tui.InsertThenDelete | japandict-tui/src/main.rs:182-195 | typing a character and then Backspace restores the line |
| Tui.InsertPlaces | japandict-tui/src/main.rs:191-195 | typing puts the character at the cursor and shifts the rest right |
| Tui.DeleteBeforeRemoves | japandict-tui/src/main.rs:182-188 | Backspace removes the character before the cursor, and does nothing at the start |
| Tui.DeleteAtRemoves | japandict-tui/src/main.rs:176-181 | Ctrl-D removes the character under the cursor, and does nothing at the end |
| Tui.KillsSplit | japandict-tui/src/main.rs:167-175 | Ctrl-K keeps what is before the cursor and Ctrl-U what is after it; together they make up the query |
| Tui.ForwardBackward | japandict-tui/src/main.rs:143-152 | right then left returns to the same place when not at the end |
| Tui.ScrollDownBounded | japandict-tui/src/main.rs:155-200 | scrolling down never passes the last result |
| Tui.ScrollUpBounded | japandict-tui/src/main.rs:160-203 | scrolling up never moves down, and moves up when it can |
| Tui.ScrollStaysInRange | japandict-tui/src/main.rs:155-203 | a scroll position on a result stays on a result |
| Tui.CharIndexAt | japandict-tui/src/main.rs:191-193 | a byte offset that lies on a character boundary gives the character index whose prefix has that many UTF-8 bytes |
| Tui.CharIndexOfPrefix | japandict-tui/src/main.rs:191-193 | the byte length of every prefix is a boundary, at that prefix's index |
| Tui.SecondWideCharPanics | japandict-tui/src/main.rs:191-195 | with the cursor advanced one byte, typing a character of two or more bytes into an empty query succeeds and typing the next character panics |
| Tui.InsertByWidthOnBoundary | japandict-tui/src/main.rs:191-195 | with the cursor advanced by the character's UTF-8 width, typing at a boundary inserts the character and leaves the cursor on the boundary after it |
| Tui.App.constructor | japandict-tui/src/main.rs:103-112 | the empty initial state |
| Tui.App.Search | japandict-tui/src/main.rs:114-125 | a blank query clears the results and the time and keeps the scroll; any other query takes the search results and the time, and scrolls to the top |
| Tui.App.HandleInput | japandict-tui/src/main.rs:127-207 | the key's arm edits the line as `EditLine` says; the quit flag is set by a quit arm and otherwise kept; an arm that searches refreshes the results as `search` does, and any other arm leaves them alone and moves only the scroll |
| Tui.App.Perform | japandict-tui/src/main.rs:130-206 | the same, for a given arm |
| Tui.App.MoveCursor | japandict-tui/src/main.rs:137-152 | the cursor arms move only the cursor |
| Tui.App.ScrollResults | japandict-tui/src/main.rs:155-203 | the scroll arms move only the scroll |
| Tui.App.EditQuery | japandict-tui/src/main.rs:167-195 | the editing arms edit the line and search exactly when they edited |
| Tui.FormatEntry | japandict-tui/src/main.rs:353-379 | the piecewise builder produces `EntryLine` |
| Tui.OnlyFirstGlosses | japandict-tui/src/main.rs:365-368 | glosses after the third never show |
| Tui.EntryLineStarts | japandict-tui/src/main.rs:356-363 | the line starts with the forms |
| Tui.KanaAfterKanji | japandict-tui/src/main.rs:356-360 | with kanji, the kana follow in parentheses |
| Tui.KanaAlone | japandict-tui/src/main.rs:361-363 | without kanji, the kana stand alone |
| Tui.StarAppended | japandict-tui/src/main.rs:374-376 | the line of a common word is the line of the same word, not common, with " ⭐" appended |
| Tui.StarOnlyWhenCommon | japandict-tui/src/main.rs:370-376 | with a part-of-speech list, the line ends in the star iff the word is common |

## Left out

- File and terminal I/O are not modelled. That covers JSON parsing, gzip, writing the generated Rust source, the clap arguments, the readline loop, crossterm events, ratatui drawing, and the terminal event loop. The key event is a parameter.
- Index construction on three threads, and the `OnceLock` globals, are not modelled. The indices are a value built once (`BuildIndices`) and passed to the search as `Option<Indices>`. `None` stands for "not yet built".
- Scores are `f32` in the source. Here they are integers: every weight is a whole number and `partial_cmp` never sees NaN, so the order is the same.
- `Text.Lower`, `Text.ToLower`: `to_lowercase` folds ASCII letters only here. Full Unicode case mapping, including characters whose lowercase form is longer, is not modelled.
- `Text.IsAlphabetic`: `char::is_alphabetic` is approximated by the Latin, kana and CJK ranges.
- Whitespace is the full White_Space list, as `trim` and `split_whitespace` use it.
- `HashMap` iteration order is not modelled. Index maps are Dafny `map`s. Candidate gathering is stated over the set of ids it reaches, which the sort-dedup-truncate step makes order-independent.
- UTF-8 decoding (`from_utf8_unchecked`) is not modelled. The decoder yields bytes, and search works on entries given as character strings.
- `get_word_entry` inside the search is modelled as indexing a sequence of entries.
- `Dictionary.DecodeEntry`: the id slot `id_offset_base + id_idx` is an unbounded sum. In the source it is a `u32` addition, which would overflow only with more than 2^32 strings. The packer cannot produce such a blob (`Fits`).
- `Query.SimpleEditDistance`: the `u8` counter wraps as in a release build. The debug-build overflow panic is not modelled, and neither is the `as i32` cast of byte lengths beyond 2^31.
- `Packer.Interner.GetOrInsert`: the index is an unbounded natural. The `strings.len() as u32` truncation past 2^32 strings is not modelled.
- `Packer.Pack`: the decode round trip is proved under three conditions:
  - both data arrays are below 4 GiB (`Fits`);
  - strings contain no NUL byte;
  - every category count is below 256.
  Outside these, the `as u32` / `as u8` casts (modelled) truncate, and a NUL in a string cuts it short.
- `Features.learner_friendly` exists but nothing sets it, so the model only proves it stays false.
- The search clock is the `elapsed` parameter of `Tui.App.Search`, and `search_dictionary` is the `oracle` parameter of the interface methods.
- `Tui.App.HandleInput`: the query is treated as ASCII. The source's byte cursor is a character index in the application state, so the `String::insert` panic after a multi-byte character is not part of `HandleInput`. It is modelled separately on `ByteLine` and recorded under "## Findings".
- `Tui.StarOnlyWhenCommon` requires a non-empty part-of-speech list. Without one, a last shown gloss that itself ends in " ⭐" makes an uncommon word's line end in the star too. `Tui.StarAppended` states the unconditional relation.
- `Search.SearchDictionary` requires that the indices file only ids of existing entries. That is true of the dictionary's own indices (`SearchIndex.IndicesBelow`). For a non-blank query it states the result through the candidate list that `find_indexed_entries` characterises.
- The web front end and the command-line front end are not part of this model.

## Findings

The search follows the code as written: it scores with the as-written members, and the corrected members state what was evidently intended. `Scoring.EvaluateKanaShort` shows that the two distances agree on inputs below 256 characters. The interface's application state treats queries as ASCII, where the two cursor rules agree; the byte cursor itself is modelled on `Tui.ByteLine`.

| source | as written | input that shows it | evidently intended | confidence | as-written member | corrected member |
|---|---|---|---|---|---|---|
| japandict-core/src/search.rs:234-241 | the mismatch counter `diff` is a `u8`, so in a release build `diff += 1` and the added length difference wrap modulo 256 before the cap at 3 (a debug build panics instead) | 256 × "あ" against 256 × "い": equal byte and character lengths, 256 differing positions, so the counter wraps to 0 and two different strings get distance 0 | the capped count of differing positions: distance 3 | not executed | Query.EditDistanceAsWritten, Query.EditDistanceWraps | Query.EditDistance, Query.EditDistanceZero |
| japandict-core/src/search.rs:210 | the i-adjective rule tests the suffix "„ÅÑ" (U+201E U+00C5 U+00D1), which is the UTF-8 encoding of hiragana い read as Mac Roman text, so no real kanji form ever ends with it | 面白い (kana おもしろい, part of speech adj-i): too long for the length rule, and missed by the adjective rule | an adj-i word whose kanji form ends in い is a simple form | not executed | Scoring.DetectSimpleFormAsWritten, Scoring.SimpleFormMissesAdjective | Scoring.DetectSimpleForm, Scoring.AdjectiveIsSimple |
| japandict-tui/src/main.rs:191-195 | the character arm inserts at the byte offset `cursor_pos` and then moves it by one byte, whatever the character's UTF-8 width | type あ into an empty query: the query is "あ" (3 bytes) and the cursor is 1, inside the character; typing い next makes `String::insert` panic on a non-boundary | the cursor moves by `c.len_utf8()` and stays on a character boundary | not executed | Tui.InsertAsWritten, Tui.SecondWideCharPanics | Tui.InsertByWidth, Tui.InsertByWidthOnBoundary |

=== FILE: bytes.dfy ===
/** Machine-integer helpers shared by the packer and the decoder: bytes,
    the `as u8` / `as u32` truncating casts and little-endian u32 fields. */
module Bytes {

  /** One octet of a packed buffer. */
  type byte = b: int | 0 <= b < 256

  const U8_LIMIT: nat := 0x100
  const U32_LIMIT: nat := 0x1_0000_0000

  /** A value of Rust's `u32`. */
  type u32 = v: int | 0 <= v < 0x1_0000_0000

  /** Rust's `x as u8`: keeps the low eight bits. */
  function AsU8(x: nat): (b: byte)
    ensures x < U8_LIMIT ==> b == x
  {
    x % U8_LIMIT
  }

  /** Rust's `x as u32` on a `usize`: keeps the low thirty-two bits. */
  function AsU32(x: nat): (v: u32)
    ensures x < U32_LIMIT ==> v == x
  {
    x % U32_LIMIT
  }

  /** `256 ^ n`. */
  function Pow256(n: nat): (r: nat)
    ensures r > 0
  {
    if n == 0 then 1 else 0x100 * Pow256(n - 1)
  }

  /** The little-endian value of the `n` bytes of `data` starting at `p`. */
  function LeValue(data: seq<byte>, p: nat, n: nat): (v: nat)
    requires p + n <= |data|
    ensures v < Pow256(n)
    decreases n
  {
    if n == 0 then 0 else data[p] + 0x100 * LeValue(data, p + 1, n - 1)
  }

  /** The `n` low bytes of `v`, least significant first. */
  function LeBytes(v: nat, n: nat): (r: seq<byte>)
    ensures |r| == n
  {
    if n == 0 then [] else [v % 0x100] + LeBytes(v / 0x100, n - 1)
  }

  /** `u32::from_le_bytes` applied to the four bytes of `data` starting at `p`. */
  function LeU32At(data: seq<byte>, p: nat): u32
    requires p + 4 <= |data|
  {
    assert Pow256(4) == U32_LIMIT;
    LeValue(data, p, 4)
  }

  /** `u32::to_le_bytes`: least significant byte first. */
  function ToLeBytes(v: u32): (r: seq<byte>)
    ensures |r| == 4
  {
    LeBytes(v, 4)
  }

  /** Reading back `n` bytes written by `LeBytes` gives the value written, when
      it fits in `n` bytes. */
  lemma {:induction false} LeValueOfBytes(data: seq<byte>, p: nat, n: nat, v: nat)
    requires p + n <= |data| && v < Pow256(n)
    requires data[p..p + n] == LeBytes(v, n)
    ensures LeValue(data, p, n) == v
    decreases n
  {
    if n > 0 {
      assert data[p] == data[p..p + n][0] == v % 0x100;
      assert data[p + 1..p + n] == data[p..p + n][1..] == LeBytes(v / 0x100, n - 1);
      LeValueOfBytes(data, p + 1, n - 1, v / 0x100);
    }
  }

  /** Reading back four bytes written by `ToLeBytes`, wherever they sit in a
      buffer, gives the value that was written. */
  lemma LeRoundTrip(data: seq<byte>, p: nat, v: u32)
    requires p + 4 <= |data| && data[p..p + 4] == ToLeBytes(v)
    ensures LeU32At(data, p) == v
  {
    assert Pow256(4) == U32_LIMIT;
    LeValueOfBytes(data, p, 4, v);
  }
}

=== FILE: dictionary.dfy ===
/** The dictionary store: decoding one packed entry from the flat string pool
    and the flat entry blob that the packer produces. */
module Dictionary {
  import opened Bytes

  /** A decoded entry. `S` is the string type: the decoder yields the raw UTF-8
      bytes of each string (`WordEntry<seq<byte>>`), the search engine works on
      the same entries as character strings (`WordEntry<string>`). */
  datatype WordEntry<S> = WordEntry(
    id: S,
    kanji: seq<S>,
    kana: seq<S>,
    english: seq<S>,
    pos: seq<S>,
    isCommon: bool)

  /** The generated data: the NUL-terminated string pool, the start of every
      string in it, the entry records, the start of every record, and the number
      of kanji, kana, English and part-of-speech strings (the id strings follow
      them in the offset table). */
  datatype Blob = Blob(
    strings: seq<byte>,
    stringOffsets: seq<nat>,
    entries: seq<byte>,
    entryOffsets: seq<nat>,
    kanjiStrings: nat,
    kanaStrings: nat,
    englishStrings: nat,
    posStrings: nat)

  /** Bytes before the first string index of a record: a 4-byte id index, four
      1-byte counts and the 1-byte common flag. */
  const HEADER_SIZE: nat := 9

  /** Position of the first NUL at or after `start`, or the end of the pool. */
  function NulFrom(pool: seq<byte>, start: nat): (end: nat)
    requires start <= |pool|
    ensures start <= end <= |pool|
    ensures forall i :: start <= i < end ==> pool[i] != 0
    ensures end == |pool| || pool[end] == 0
    decreases |pool| - start
  {
    if start == |pool| || pool[start] == 0 then start else NulFrom(pool, start + 1)
  }

  /** The string stored at `start`: every byte up to, not including, the first
      NUL or the end of the pool. */
  function StringAt(pool: seq<byte>, start: nat): (s: seq<byte>)
    requires start <= |pool|
    ensures start + |s| <= |pool| && s == pool[start..start + |s|]
    ensures forall i :: 0 <= i < |s| ==> s[i] != 0
    ensures start + |s| == |pool| || pool[start + |s|] == 0
  {
    pool[start..NulFrom(pool, start)]
  }

  /** `read_string`: scans forward from `offset` to the terminator. */
  method ReadString(pool: seq<byte>, offset: nat) returns (s: seq<byte>)
    requires offset <= |pool|
    ensures s == StringAt(pool, offset)
  {
    var end := offset;
    while end < |pool| && pool[end] != 0
      invariant offset <= end <= |pool|
      invariant NulFrom(pool, offset) == NulFrom(pool, end)
    {
      end := end + 1;
    }
    s := pool[offset..end];
  }

  /** A string slot that resolves: the offset table has it and it points into the pool. */
  predicate SlotOk(b: Blob, slot: nat) {
    slot < |b.stringOffsets| && b.stringOffsets[slot] <= |b.strings|
  }

  function SlotString(b: Blob, slot: nat): seq<byte>
    requires SlotOk(b, slot)
  {
    StringAt(b.strings, b.stringOffsets[slot])
  }

  /** First slot of the id strings: they come after all kanji, kana, English and
      part-of-speech strings. */
  function IdBase(b: Blob): nat {
    b.kanjiStrings + b.kanaStrings + b.englishStrings + b.posStrings
  }

  /** Number of string indices in the record starting at `off`. */
  function IndexCount(data: seq<byte>, off: nat): nat
    requires off + HEADER_SIZE <= |data|
  {
    data[off + 4] as nat + data[off + 5] as nat + data[off + 6] as nat + data[off + 7] as nat
  }

  /** The `k`-th 4-byte string index of the record of entry `index`. */
  function IndexAt(b: Blob, index: nat, k: nat): nat
    requires index < |b.entryOffsets|
    requires b.entryOffsets[index] + HEADER_SIZE + 4 * (k + 1) <= |b.entries|
  {
    LeU32At(b.entries, b.entryOffsets[index] + HEADER_SIZE + 4 * k)
  }

  /** Everything `get_word_entry(index)` reads is in range: the entry offset, the
      header, every 4-byte string index, and every string slot including the id's.
      Outside this the source panics. */
  predicate ValidEntry(b: Blob, index: nat) {
    && index < |b.entryOffsets|
    && var off := b.entryOffsets[index];
    && off + HEADER_SIZE <= |b.entries|
    && off + HEADER_SIZE + 4 * IndexCount(b.entries, off) <= |b.entries|
    && (forall k :: 0 <= k < IndexCount(b.entries, off) ==> SlotOk(b, IndexAt(b, index, k)))
    && SlotOk(b, IdBase(b) + LeU32At(b.entries, off))
  }

  /** The strings named by `count` consecutive string indices of the record of
      entry `index`, starting with its `first`-th index. */
  function Category(b: Blob, index: nat, first: nat, count: nat): (r: seq<seq<byte>>)
    requires ValidEntry(b, index)
    requires first + count <= IndexCount(b.entries, b.entryOffsets[index])
  {
    seq(count, j requires 0 <= j < count => SlotString(b, IndexAt(b, index, first + j)))
  }

  /** The entry `get_word_entry(index)` returns: the header fields, then the
      string indices of the record read in the fixed order kanji, kana, English,
      part of speech (`DecodeLayout`). */
  function DecodeEntry(b: Blob, index: nat): (e: WordEntry<seq<byte>>)
    requires ValidEntry(b, index)
    ensures var d, off := b.entries, b.entryOffsets[index];
            && |e.kanji| == d[off + 4] && |e.kana| == d[off + 5]
            && |e.english| == d[off + 6] && |e.pos| == d[off + 7]
            && (e.isCommon <==> d[off + 8] != 0)
            && e.id == SlotString(b, IdBase(b) + LeU32At(d, off))
  {
    var off := b.entryOffsets[index];
    var d := b.entries;
    var kc, nc, ec, pc := d[off + 4] as nat, d[off + 5] as nat, d[off + 6] as nat, d[off + 7] as nat;
    WordEntry(
      SlotString(b, IdBase(b) + LeU32At(d, off)),
      Category(b, index, 0, kc),
      Category(b, index, kc, nc),
      Category(b, index, kc + nc, ec),
      Category(b, index, kc + nc + ec, pc),
      d[off + 8] != 0)
  }

  /** All strings of an entry in record order: kanji, kana, English, part of speech. */
  function Strings<S>(e: WordEntry<S>): seq<S> {
    e.kanji + e.kana + e.english + e.pos
  }

  /** Where each decoded string comes from: the strings of all four categories,
      in order, are those named by the record's string indices, so the j-th
      string of a category is named by index number (strings of the earlier
      categories) + j, at byte 9 + 4 * that number of the record. */
  lemma DecodeLayout(b: Blob, index: nat, k: nat)
    requires ValidEntry(b, index)
    requires k < IndexCount(b.entries, b.entryOffsets[index])
    ensures |Strings(DecodeEntry(b, index))| == IndexCount(b.entries, b.entryOffsets[index])
    ensures Strings(DecodeEntry(b, index))[k] == SlotString(b, IndexAt(b, index, k))
  {
    var d, off := b.entries, b.entryOffsets[index];
    var kc, nc, ec, pc := d[off + 4] as nat, d[off + 5] as nat, d[off + 6] as nat, d[off + 7] as nat;
    var e := DecodeEntry(b, index);
    if k < kc {
      assert Strings(e)[k] == e.kanji[k];
    } else if k < kc + nc {
      assert Strings(e)[k] == e.kana[k - kc];
    } else if k < kc + nc + ec {
      assert Strings(e)[k] == e.english[k - kc - nc];
    } else {
      assert Strings(e)[k] == e.pos[k - kc - nc - ec];
    }
  }

  /** One of the four loops of `get_word_entry`: reads `count` 4-byte string
      indices starting at the cursor `pos` (the record's `first`-th index),
      pushing the string each one names, and returns the advanced cursor. */
  method ReadStrings(b: Blob, index: nat, first: nat, count: nat, pos: nat) returns (strs: seq<seq<byte>>, next: nat)
    requires ValidEntry(b, index)
    requires first + count <= IndexCount(b.entries, b.entryOffsets[index])
    requires pos == b.entryOffsets[index] + HEADER_SIZE + 4 * first
    ensures strs == Category(b, index, first, count)
    ensures next == pos + 4 * count
  {
    strs, next := [], pos;
    for j := 0 to count
      invariant next == pos + 4 * j
      invariant |strs| == j
      invariant forall t :: 0 <= t < j ==> strs[t] == SlotString(b, IndexAt(b, index, first + t))
    {
      assert next == b.entryOffsets[index] + HEADER_SIZE + 4 * (first + j);
      var idx := LeU32At(b.entries, next);
      assert idx == IndexAt(b, index, first + j);
      var s := ReadString(b.strings, b.stringOffsets[idx]);
      strs := strs + [s];
      next := next + 4;
    }
  }

  /** `get_word_entry`: decodes the header, walks the cursor through the four
      index lists, then resolves the id. */
  method GetWordEntry(b: Blob, index: nat) returns (e: WordEntry<seq<byte>>)
    requires ValidEntry(b, index)
    ensures e == DecodeEntry(b, index)
  {
    var off := b.entryOffsets[index];
    var data := b.entries;
    var idIdx := LeU32At(data, off);
    var kanjiCount: nat, kanaCount: nat := data[off + 4], data[off + 5];
    var englishCount: nat, posCount: nat := data[off + 6], data[off + 7];
    var isCommon := data[off + 8] != 0;

    var pos := off + HEADER_SIZE;
    var kanji, kana, english, posVec;
    kanji, pos := ReadStrings(b, index, 0, kanjiCount, pos);
    kana, pos := ReadStrings(b, index, kanjiCount, kanaCount, pos);
    english, pos := ReadStrings(b, index, kanjiCount + kanaCount, englishCount, pos);
    posVec, pos := ReadStrings(b, index, kanjiCount + kanaCount + englishCount, posCount, pos);

    var id := ReadString(b.strings, b.stringOffsets[IdBase(b) + idIdx]);
    e := WordEntry(id, kanji, kana, english, posVec, isCommon);
  }
}

=== FILE: evaluate.dfy ===
/** Per-entry matching and scoring: the feature record, its fixed integer
    weights, and the per-query-type scans of `evaluate_entry`. */
module Scoring {
  import opened Wrappers
  import opened Text
  import opened Query
  import opened Dictionary

  /** A dictionary entry as the search engine sees it. */
  type Entry = WordEntry<string>

  /** The match and quality signals of one entry for one query.
      `learnerFriendly` exists in the record but nothing sets it. */
  datatype Features = Features(
    exactForm: bool,
    exactReading: bool,
    prefix: bool,
    editDistance: nat,
    hasCommon: bool,
    shorterLemma: bool,
    glossHit: bool,
    firstGloss: bool,
    exactEnglish: bool,
    learnerFriendly: bool,
    simpleForm: bool)

  /** `Features::default()`. */
  const NoFeatures := Features(false, false, false, 0, false, false, false, false, false, false, false)

  datatype SearchResult = SearchResult(entry: Entry, score: int, features: Features)

  /** `score_features`: the fixed weights of every feature. */
  function ScoreFeatures(f: Features): int {
    (if f.exactForm then 100 else 0)
    + (if f.exactReading then 95 else 0)
    + (if f.exactEnglish then 250 else 0)
    + (if f.firstGloss then 200 else 0)
    + (if f.hasCommon then 50 else 0)
    + (if f.prefix then 30 else 0)
    + (if f.glossHit && !f.firstGloss then 10 else 0)
    + (if f.simpleForm then 25 else 0)
    + (if f.shorterLemma then 5 else 0)
    - 2 * f.editDistance
  }

  /** `g` has every signal `f` has and no larger edit distance. */
  predicate Covers(g: Features, f: Features) {
    && (f.exactForm ==> g.exactForm) && (f.exactReading ==> g.exactReading)
    && (f.exactEnglish ==> g.exactEnglish) && (f.firstGloss ==> g.firstGloss)
    && (f.hasCommon ==> g.hasCommon) && (f.prefix ==> g.prefix)
    && (f.glossHit ==> g.glossHit) && (f.simpleForm ==> g.simpleForm)
    && (f.shorterLemma ==> g.shorterLemma) && g.editDistance <= f.editDistance
  }

  /** Gaining a signal never lowers the score; in particular a first-gloss hit,
      which drops the 10-point general gloss bonus, more than makes up for it. */
  lemma ScoreMonotone(f: Features, g: Features)
    requires Covers(g, f)
    ensures ScoreFeatures(f) <= ScoreFeatures(g)
  {
  }

  /** An exact English match in the first clause of the first gloss outranks
      any entry with neither a first-gloss hit nor an exact English match,
      whatever else that entry has. */
  lemma FirstExactEnglishWins(f: Features, g: Features)
    requires f.firstGloss && f.exactEnglish && f.editDistance <= 3 && !g.firstGloss && !g.exactEnglish
    ensures ScoreFeatures(f) > ScoreFeatures(g)
  {
  }

  /** The part-of-speech tag of i-adjectives. */
  const ADJ_I: string := "adj-i"

  /** The hiragana "i" that ends an i-adjective. */
  const HIRAGANA_I: string := "\U{3044}"

  /** The suffix the adjective rule actually tests: the UTF-8 bytes of
      hiragana "i" (E3 81 84) read as Mac Roman text. */
  const MAC_ROMAN_I: string := "\U{201E}\U{C5}\U{D1}"

  /** The length rule of `detect_simple_form`: some kanji form of at most two
      characters or some kana form of at most four. */
  predicate ShortForm(e: Entry) {
    (exists k :: 0 <= k < |e.kanji| && |e.kanji[k]| <= 2) || (exists k :: 0 <= k < |e.kana| && |e.kana[k]| <= 4)
  }

  /** The adjective rule with a given suffix: some part of speech contains
      "adj-i" and some kanji form ends with `suffix`. */
  predicate AdjectiveRule(e: Entry, suffix: string) {
    (exists k :: 0 <= k < |e.pos| && Contains(e.pos[k], ADJ_I))
    && (exists k :: 0 <= k < |e.kanji| && EndsWith(e.kanji[k], suffix))
  }

  /** `detect_simple_form` as written, with the garbled suffix. */
  predicate DetectSimpleFormAsWritten(e: Entry) {
    AdjectiveRule(e, MAC_ROMAN_I) || ShortForm(e)
  }

  /** `detect_simple_form` with the suffix its comment describes: an
      i-adjective written with a kanji form ending in hiragana "i", or a
      short form. */
  predicate DetectSimpleForm(e: Entry) {
    AdjectiveRule(e, HIRAGANA_I) || ShortForm(e)
  }

  /** The shorter-lemma signal: some kanji form of at most two characters or
      some kana form of at most three. */
  predicate ShorterLemma(e: Entry) {
    (exists k :: 0 <= k < |e.kanji| && |e.kanji[k]| <= 2) || (exists k :: 0 <= k < |e.kana| && |e.kana[k]| <= 3)
  }

  /** An entry with the shorter-lemma signal is also a simple form, in both
      versions of the rule. */
  lemma ShorterIsSimple(e: Entry)
    requires ShorterLemma(e)
    ensures DetectSimpleForm(e) && DetectSimpleFormAsWritten(e)
  {
    if !(exists k :: 0 <= k < |e.kanji| && |e.kanji[k]| <= 2) {
      var k :| 0 <= k < |e.kana| && |e.kana[k]| <= 3;
      assert |e.kana[k]| <= 4;
    }
  }

  /** The intended rule accepts every i-adjective with a kanji form ending in
      hiragana "i". */
  lemma AdjectiveIsSimple(e: Entry)
    requires AdjectiveRule(e, HIRAGANA_I)
    ensures DetectSimpleForm(e)
  {
  }

  /** "Omoshiroi" (kanji form of three characters, kana form of five, tagged
      adj-i): the adjective rule as written misses it, the intended one
      accepts it. */
  lemma SimpleFormMissesAdjective()
    ensures var e := WordEntry("1", ["\U{9762}\U{767D}\U{3044}"], ["\U{304A}\U{3082}\U{3057}\U{308D}\U{3044}"], [], [ADJ_I], false);
            !DetectSimpleFormAsWritten(e) && DetectSimpleForm(e)
  {
    var e := WordEntry("1", ["\U{9762}\U{767D}\U{3044}"], ["\U{304A}\U{3082}\U{3057}\U{308D}\U{3044}"], [], [ADJ_I], false);
    assert OccursAt(e.pos[0], ADJ_I, 0);
    assert EndsWith(e.kanji[0], HIRAGANA_I);
    assert !EndsWith(e.kanji[0], MAC_ROMAN_I) by {
      assert e.kanji[0][0] != MAC_ROMAN_I[0];
    }
  }

  // ---------------------------------------------------------------------
  // Kanji and kana scans

  /** What a scan over forms found: an exact (lowercased) match, a prefix
      match before it, and the first small edit distance before it. */
  datatype FormScan = FormScan(exact: bool, prefix: bool, distance: nat)

  /** The kanji loop from form `i` on, `prefix` being what the earlier forms
      set: stops at the first form equal to the query, and notes any form
      that starts with it on the way. */
  function ScanKanji(forms: seq<string>, nq: string, i: nat, prefix: bool): FormScan
    requires i <= |forms|
    decreases |forms| - i
  {
    if i == |forms| then FormScan(false, prefix, 0)
    else if ToLower(forms[i]) == nq then FormScan(true, prefix, 0)
    else ScanKanji(forms, nq, i + 1, prefix || StartsWith(ToLower(forms[i]), nq))
  }

  /** The kana loop of a kana query from form `i` on: like the kanji loop,
      and it also keeps the first edit distance of at most 2. */
  function ScanKana(forms: seq<string>, nq: string, i: nat, prefix: bool, distance: nat): FormScan
    requires i <= |forms|
    decreases |forms| - i
  {
    if i == |forms| then FormScan(false, prefix, distance)
    else
      var lower := ToLower(forms[i]);
      if lower == nq then FormScan(true, prefix, distance)
      else
        var d := EditDistanceAsWritten(lower, nq);
        ScanKana(forms, nq, i + 1, prefix || StartsWith(lower, nq), if d <= 2 && distance == 0 then d else distance)
  }

  /** Some form lowercases to the query. */
  predicate AnyEqual(forms: seq<string>, nq: string) {
    exists k :: 0 <= k < |forms| && ToLower(forms[k]) == nq
  }

  /** Some form lowercases to a string starting with the query. */
  predicate AnyPrefix(forms: seq<string>, nq: string, from: nat) {
    exists k :: from <= k < |forms| && StartsWith(ToLower(forms[k]), nq)
  }

  /** The kanji scan finds an exact form exactly when one exists. */
  lemma {:induction false} ScanKanjiExact(forms: seq<string>, nq: string, i: nat, prefix: bool)
    requires i <= |forms|
    ensures ScanKanji(forms, nq, i, prefix).exact <==> exists k :: i <= k < |forms| && ToLower(forms[k]) == nq
    decreases |forms| - i
  {
    if i < |forms| && ToLower(forms[i]) != nq {
      ScanKanjiExact(forms, nq, i + 1, prefix || StartsWith(ToLower(forms[i]), nq));
    }
  }

  /** A prefix is reported exactly when one was already seen or some form from
      `i` on starts with the query; an exact form, itself a prefix, counts. */
  lemma {:induction false} ScanKanjiHit(forms: seq<string>, nq: string, i: nat, prefix: bool)
    requires i <= |forms|
    ensures var s := ScanKanji(forms, nq, i, prefix);
            s.exact || s.prefix <==> prefix || AnyPrefix(forms, nq, i)
    decreases |forms| - i
  {
    if i < |forms| {
      var lower := ToLower(forms[i]);
      if lower == nq {
        assert StartsWith(lower, nq);
      } else {
        ScanKanjiHit(forms, nq, i + 1, prefix || StartsWith(lower, nq));
        assert AnyPrefix(forms, nq, i) <==> StartsWith(lower, nq) || AnyPrefix(forms, nq, i + 1);
      }
    }
  }

  /** Form `form` gives a kana query `nq` a match signal when compared on
      its own: it starts with the query, or the written distance, with its
      `u8` counter, is 1 or 2 (a wrapped count of 0 records nothing). */
  predicate KanaNear(form: string, nq: string) {
    StartsWith(ToLower(form), nq) || 0 < EditDistanceAsWritten(ToLower(form), nq) <= 2
  }

  /** A kana scan reports something exactly when some kana form is near the
      query. */
  lemma {:induction false} ScanKanaHit(forms: seq<string>, nq: string, i: nat, prefix: bool, distance: nat)
    requires i <= |forms|
    ensures var s := ScanKana(forms, nq, i, prefix, distance);
            s.exact || s.prefix || s.distance != 0 <==>
            prefix || distance != 0 || exists k :: i <= k < |forms| && KanaNear(forms[k], nq)
    decreases |forms| - i
  {
    if i < |forms| {
      var lower := ToLower(forms[i]);
      if lower == nq {
        assert StartsWith(lower, nq);
        assert KanaNear(forms[i], nq);
      } else {
        var d := EditDistanceAsWritten(lower, nq);
        ScanKanaHit(forms, nq, i + 1, prefix || StartsWith(lower, nq), if d <= 2 && distance == 0 then d else distance);
        if exists k :: i <= k < |forms| && KanaNear(forms[k], nq) {
          var k :| i <= k < |forms| && KanaNear(forms[k], nq);
          if k == i {
            assert StartsWith(lower, nq) || 0 < d <= 2;
          }
        }
      }
    }
  }

  /** The distance a kana scan keeps is at most 2. */
  lemma {:induction false} ScanKanaDistance(forms: seq<string>, nq: string, i: nat, prefix: bool, distance: nat)
    requires i <= |forms| && distance <= 2
    ensures ScanKana(forms, nq, i, prefix, distance).distance <= 2
    decreases |forms| - i
  {
    if i < |forms| && ToLower(forms[i]) != nq {
      var lower := ToLower(forms[i]);
      var d := EditDistanceAsWritten(lower, nq);
      ScanKanaDistance(forms, nq, i + 1, prefix || StartsWith(lower, nq), if d <= 2 && distance == 0 then d else distance);
    }
  }

  // ---------------------------------------------------------------------
  // English scan

  /** What one `;`-separated clause of a gloss says about an English query:
      nothing, a whole-word hit somewhere in it, or a hit that stops the scan
      of this gloss (`exact` when the hit is an exact English match). */
  datatype ClauseMatch = NoMatch | WordOnly | Hit(exact: bool)

  /** A word with leading and trailing non-letters removed. */
  function Bare(w: string): string {
    TrimBy(w, NotAlphabetic)
  }

  /** The checks of the clause loop, in source order: the whole trimmed
      clause, "to " and the query, the first word, the word after a leading
      "to", and finally any whole word. */
  function MatchClause(clause: string, nq: string): ClauseMatch {
    var clean := Trim(clause);
    if clean == nq || clean == "to " + nq then Hit(true)
    else
      var words := SplitWhitespace(clean);
      if |words| >= 1 && Bare(words[0]) == nq then Hit(|words| == 1)
      else if |words| >= 2 && words[0] == "to" && Bare(words[1]) == nq then Hit(|words| == 2)
      else if exists k :: 0 <= k < |words| && Bare(words[k]) == nq then WordOnly
      else NoMatch
  }

  /** The English flags of `Features`. */
  datatype EnglishFlags = EnglishFlags(glossHit: bool, exactEnglish: bool, firstGloss: bool)

  const NoFlags := EnglishFlags(false, false, false)

  /** The clauses of a gloss: its lowercased text split at `;`. */
  function Clauses(gloss: string): (cs: seq<string>)
    ensures |cs| >= 1
  {
    Split(ToLower(gloss), ';')
  }

  /** What each clause of each gloss says about the query. */
  function GlossMatches(glosses: seq<string>, nq: string): (mss: seq<seq<ClauseMatch>>)
    ensures |mss| == |glosses|
    ensures forall k :: 0 <= k < |mss| ==> |mss[k]| >= 1
  {
    seq(|glosses|, k requires 0 <= k < |glosses| =>
      var cs := Clauses(glosses[k]);
      seq(|cs|, i requires 0 <= i < |cs| => MatchClause(cs[i], nq)))
  }

  /** The clause loop of one gloss from clause `i` on, over what each clause
      says; `first` tells whether this is the entry's first gloss. */
  function ScanClauses(f: EnglishFlags, ms: seq<ClauseMatch>, first: bool, i: nat): EnglishFlags
    requires i <= |ms|
    decreases |ms| - i
  {
    if i == |ms| then f
    else
      match ms[i]
      case Hit(x) => EnglishFlags(true, f.exactEnglish || x, f.firstGloss || (first && i == 0))
      case WordOnly => ScanClauses(f.(glossHit := true), ms, first, i + 1)
      case NoMatch => ScanClauses(f, ms, first, i + 1)
  }

  /** The gloss loop from gloss `k` on; a first-gloss hit ends it. */
  function ScanGlosses(f: EnglishFlags, mss: seq<seq<ClauseMatch>>, k: nat): EnglishFlags
    requires k <= |mss|
    decreases |mss| - k
  {
    if k == |mss| then f
    else
      var g := ScanClauses(f, mss[k], k == 0, 0);
      if g.firstGloss then g else ScanGlosses(g, mss, k + 1)
  }

  /** Clause `i` of gloss `k` matches the query in some way. */
  predicate ClauseHits(mss: seq<seq<ClauseMatch>>, k: int, i: int) {
    0 <= k < |mss| && 0 <= i < |mss[k]| && mss[k][i] != NoMatch
  }

  /** Clause `i` of gloss `k` is an exact English match. */
  predicate ClauseExact(mss: seq<seq<ClauseMatch>>, k: int, i: int) {
    0 <= k < |mss| && 0 <= i < |mss[k]| && mss[k][i] == Hit(true)
  }

  /** A set first-gloss or exact flag comes with a gloss hit. */
  predicate Consistent(f: EnglishFlags) {
    (f.firstGloss ==> f.glossHit) && (f.exactEnglish ==> f.glossHit)
  }

  lemma {:induction false} ScanClausesHit(f: EnglishFlags, ms: seq<ClauseMatch>, first: bool, i: nat)
    requires i <= |ms| && Consistent(f)
    ensures var g := ScanClauses(f, ms, first, i);
            && Consistent(g)
            && (g.glossHit <==> f.glossHit || exists j :: i <= j < |ms| && ms[j] != NoMatch)
            && (g.firstGloss <==> f.firstGloss || (first && i == 0 && |ms| > 0 && ms[0].Hit?))
    decreases |ms| - i
  {
    if i < |ms| {
      match ms[i]
      case Hit(_) =>
      case WordOnly =>
        ScanClausesHit(f.(glossHit := true), ms, first, i + 1);
      case NoMatch =>
        ScanClausesHit(f, ms, first, i + 1);
    }
  }

  /** The English scan from gloss `k` on reports a gloss hit exactly when
      some clause of a gloss from `k` on matches; and a first-gloss hit
      exactly when it starts at the first gloss and the first clause of that
      gloss gives a stopping hit. */
  lemma {:induction false} ScanGlossesHit(f: EnglishFlags, mss: seq<seq<ClauseMatch>>, k: nat)
    requires k <= |mss| && Consistent(f) && !f.firstGloss
    ensures var g := ScanGlosses(f, mss, k);
            && Consistent(g)
            && (g.glossHit <==> f.glossHit || exists k', i :: k <= k' && ClauseHits(mss, k', i))
            && (g.firstGloss <==> k == 0 && |mss| > 0 && |mss[0]| > 0 && mss[0][0].Hit?)
    decreases |mss| - k
  {
    if k < |mss| {
      ScanClausesHit(f, mss[k], k == 0, 0);
      var g := ScanClauses(f, mss[k], k == 0, 0);
      if exists j :: 0 <= j < |mss[k]| && mss[k][j] != NoMatch {
        var j :| 0 <= j < |mss[k]| && mss[k][j] != NoMatch;
        assert ClauseHits(mss, k, j);
      }
      if !g.firstGloss {
        ScanGlossesHit(g, mss, k + 1);
        if exists k', i :: k <= k' && ClauseHits(mss, k', i) {
          var k', i :| k <= k' && ClauseHits(mss, k', i);
          assert k' == k || (k + 1 <= k' && ClauseHits(mss, k', i));
        }
      }
    }
  }

  /** An exact-English flag always comes from a clause that gave an exact hit. */
  lemma {:induction false} ScanClausesExact(f: EnglishFlags, ms: seq<ClauseMatch>, first: bool, i: nat)
    requires i <= |ms|
    ensures ScanClauses(f, ms, first, i).exactEnglish ==> f.exactEnglish || exists j :: i <= j < |ms| && ms[j] == Hit(true)
    decreases |ms| - i
  {
    if i < |ms| {
      match ms[i]
      case Hit(_) =>
      case WordOnly =>
        ScanClausesExact(f.(glossHit := true), ms, first, i + 1);
      case NoMatch =>
        ScanClausesExact(f, ms, first, i + 1);
    }
  }

  lemma {:induction false} ScanGlossesExact(f: EnglishFlags, mss: seq<seq<ClauseMatch>>, k: nat)
    requires k <= |mss|
    ensures ScanGlosses(f, mss, k).exactEnglish ==> f.exactEnglish || exists k', i :: k <= k' && ClauseExact(mss, k', i)
    decreases |mss| - k
  {
    if k < |mss| {
      var g := ScanClauses(f, mss[k], k == 0, 0);
      ScanClausesExact(f, mss[k], k == 0, 0);
      if g.exactEnglish && !f.exactEnglish {
        var j :| 0 <= j < |mss[k]| && mss[k][j] == Hit(true);
        assert ClauseExact(mss, k, j);
      }
      if !g.firstGloss {
        ScanGlossesExact(g, mss, k + 1);
      }
    }
  }

  // ---------------------------------------------------------------------
  // evaluate_entry

  /** The match features of entry `e` for the normalised query `nq`. */
  function MatchFeatures(e: Entry, nq: string, t: QueryType): Features {
    match t
    case Kanji =>
      var s := ScanKanji(e.kanji, nq, 0, false);
      NoFeatures.(exactForm := s.exact, prefix := s.prefix, exactReading := AnyEqual(e.kana, nq))
    case Kana =>
      var s := ScanKana(e.kana, nq, 0, false, 0);
      NoFeatures.(exactReading := s.exact, prefix := s.prefix, editDistance := s.distance)
    case English =>
      var g := ScanGlosses(NoFlags, GlossMatches(e.english, nq), 0);
      NoFeatures.(glossHit := g.glossHit, exactEnglish := g.exactEnglish, firstGloss := g.firstGloss)
  }

  /** No match signal at all. */
  predicate NoMatchAt(m: Features) {
    !m.exactForm && !m.exactReading && !m.prefix && !m.glossHit && m.editDistance == 0
  }

  /** `evaluate_entry`: nothing for an entry without any match signal;
      otherwise the entry with its full features and their score. */
  function Evaluate(e: Entry, query: string, t: QueryType): Option<SearchResult> {
    var m := MatchFeatures(e, NormalizeQuery(query), t);
    if NoMatchAt(m) then None
    else
      var f := m.(hasCommon := e.isCommon, shorterLemma := ShorterLemma(e), simpleForm := DetectSimpleFormAsWritten(e));
      Some(SearchResult(e, ScoreFeatures(f), f))
  }

  /** A kanji query matches an entry exactly when some kanji form starts with
      the normalised query or some kana form equals it. */
  lemma EvaluateKanji(e: Entry, query: string)
    ensures var nq := NormalizeQuery(query);
            Evaluate(e, query, Kanji).Some? <==> AnyPrefix(e.kanji, nq, 0) || AnyEqual(e.kana, nq)
  {
    ScanKanjiHit(e.kanji, NormalizeQuery(query), 0, false);
  }

  /** A kana query matches an entry exactly when some kana form is near the
      normalised query. */
  lemma EvaluateKana(e: Entry, query: string)
    ensures Evaluate(e, query, Kana).Some? <==>
            exists k :: 0 <= k < |e.kana| && KanaNear(e.kana[k], NormalizeQuery(query))
  {
    var nq := NormalizeQuery(query);
    var sc := ScanKana(e.kana, nq, 0, false, 0);
    ScanKanaHit(e.kana, nq, 0, false, 0);
    assert MatchFeatures(e, nq, Kana) == NoFeatures.(exactReading := sc.exact, prefix := sc.prefix, editDistance := sc.distance);
    assert Evaluate(e, query, Kana).Some? <==> !NoMatchAt(MatchFeatures(e, nq, Kana));
  }

  /** Below 256 characters the `u8` counter does not wrap, and the match rule
      reads as intended: some kana form starts with the query or lies within
      edit distance 2 of it. */
  lemma EvaluateKanaShort(e: Entry, query: string)
    requires |NormalizeQuery(query)| < 256
    requires forall k :: 0 <= k < |e.kana| ==> |e.kana[k]| < 256
    ensures var nq := NormalizeQuery(query);
            Evaluate(e, query, Kana).Some? <==>
            exists k :: 0 <= k < |e.kana| && (StartsWith(ToLower(e.kana[k]), nq) || EditDistance(ToLower(e.kana[k]), nq) <= 2)
  {
    var nq := NormalizeQuery(query);
    EvaluateKana(e, query);
    forall k | 0 <= k < |e.kana|
      ensures KanaNear(e.kana[k], nq) <==> StartsWith(ToLower(e.kana[k]), nq) || EditDistance(ToLower(e.kana[k]), nq) <= 2
    {
      var lower := ToLower(e.kana[k]);
      EditDistanceAgree(lower, nq);
      EditDistanceZero(lower, nq);
      if lower == nq {
        assert StartsWith(lower, nq);
      }
    }
  }

  /** An English query matches an entry exactly when some clause of some
      gloss matches it (`GlossMatches` classifies each clause with
      `MatchClause`). */
  lemma EvaluateEnglish(e: Entry, query: string)
    ensures var mss := GlossMatches(e.english, NormalizeQuery(query));
            Evaluate(e, query, English).Some? <==> exists k, i :: ClauseHits(mss, k, i)
  {
    var nq := NormalizeQuery(query);
    var mss := GlossMatches(e.english, nq);
    var g := ScanGlosses(NoFlags, mss, 0);
    EnglishHit(mss);
    assert MatchFeatures(e, nq, English) == NoFeatures.(glossHit := g.glossHit, exactEnglish := g.exactEnglish, firstGloss := g.firstGloss);
    assert Evaluate(e, query, English).Some? <==> !NoMatchAt(MatchFeatures(e, nq, English));
  }

  /** The whole English scan reports a gloss hit exactly when some clause of
      some gloss matches. */
  lemma EnglishHit(mss: seq<seq<ClauseMatch>>)
    ensures ScanGlosses(NoFlags, mss, 0).glossHit <==> exists k, i :: ClauseHits(mss, k, i)
  {
    ScanGlossesHit(NoFlags, mss, 0);
    if exists k, i :: ClauseHits(mss, k, i) {
      var k, i :| ClauseHits(mss, k, i);
      assert 0 <= k;
    }
  }

  /** For a reported English match, a first-gloss hit comes from the first
      clause of the first gloss, and an exact-English hit from some clause
      that matched exactly. */
  lemma EvaluateEnglishFlags(e: Entry, query: string)
    requires Evaluate(e, query, English).Some?
    ensures var mss := GlossMatches(e.english, NormalizeQuery(query));
            var f := Evaluate(e, query, English).value.features;
            && |mss| > 0
            && (f.firstGloss <==> mss[0][0].Hit?)
            && (f.exactEnglish ==> exists k, i :: ClauseExact(mss, k, i))
  {
    var nq := NormalizeQuery(query);
    var mss := GlossMatches(e.english, nq);
    var g := ScanGlosses(NoFlags, mss, 0);
    ScanGlossesHit(NoFlags, mss, 0);
    ScanGlossesExact(NoFlags, mss, 0);
    assert MatchFeatures(e, nq, English) == NoFeatures.(glossHit := g.glossHit, exactEnglish := g.exactEnglish, firstGloss := g.firstGloss);
    assert !NoMatchAt(MatchFeatures(e, nq, English));
    var k, i :| ClauseHits(mss, k, i);
  }

  /** What a clause must say for the clause loop to count it: the trimmed
      clause is the query or "to " and the query, or some whole word of it,
      stripped of non-letters, is the query. */
  predicate ClauseMentions(clause: string, nq: string) {
    var clean := Trim(clause);
    || clean == nq
    || clean == "to " + nq
    || SomeBareWord(SplitWhitespace(clean), nq)
  }

  /** Some word, stripped of non-letters, is the query. */
  predicate SomeBareWord(words: seq<string>, nq: string) {
    exists k :: 0 <= k < |words| && Bare(words[k]) == nq
  }

  /** The clause rules report a match exactly when the clause mentions the
      query; the first-word and "to"-word checks only decide how. */
  lemma MatchClauseIff(clause: string, nq: string)
    ensures MatchClause(clause, nq) != NoMatch <==> ClauseMentions(clause, nq)
  {
    var clean := Trim(clause);
    WordRulesIff(clean, SplitWhitespace(clean), nq);
  }

  /** The word checks of `MatchClause` over any list of words. */
  lemma WordRulesIff(clean: string, words: seq<string>, nq: string)
    ensures (if clean == nq || clean == "to " + nq then Hit(true)
             else if |words| >= 1 && Bare(words[0]) == nq then Hit(|words| == 1)
             else if |words| >= 2 && words[0] == "to" && Bare(words[1]) == nq then Hit(|words| == 2)
             else if exists k :: 0 <= k < |words| && Bare(words[k]) == nq then WordOnly
             else NoMatch) != NoMatch
            <==> clean == nq || clean == "to " + nq || SomeBareWord(words, nq)
  {
  }

  /** An English query matches an entry exactly when some clause of some
      lowercased gloss mentions the normalised query. */
  lemma EvaluateEnglishClauses(e: Entry, query: string)
    ensures var nq := NormalizeQuery(query);
            Evaluate(e, query, English).Some? <==>
            exists k, i :: 0 <= k < |e.english| && 0 <= i < |Clauses(e.english[k])|
                           && ClauseMentions(Clauses(e.english[k])[i], nq)
  {
    var nq := NormalizeQuery(query);
    var mss := GlossMatches(e.english, nq);
    EvaluateEnglish(e, query);
    if exists k, i :: ClauseHits(mss, k, i) {
      var k, i :| ClauseHits(mss, k, i);
      MatchClauseIff(Clauses(e.english[k])[i], nq);
    }
    if exists k, i :: 0 <= k < |e.english| && 0 <= i < |Clauses(e.english[k])|
                      && ClauseMentions(Clauses(e.english[k])[i], nq) {
      var k, i :| 0 <= k < |e.english| && 0 <= i < |Clauses(e.english[k])|
                  && ClauseMentions(Clauses(e.english[k])[i], nq);
      MatchClauseIff(Clauses(e.english[k])[i], nq);
      assert ClauseHits(mss, k, i);
    }
  }

  /** A reported entry carries its own common flag, the shorter-lemma and
      simple-form signals of its forms, and the score of its features. */
  lemma EvaluateQuality(e: Entry, query: string, t: QueryType)
    requires Evaluate(e, query, t).Some?
    ensures var r := Evaluate(e, query, t).value;
            && r.entry == e && r.features.hasCommon == e.isCommon
            && r.features.shorterLemma == ShorterLemma(e)
            && r.features.simpleForm == DetectSimpleFormAsWritten(e)
            && r.score == ScoreFeatures(r.features)
  {
  }

  /** A reported entry is within edit distance 2, and never flagged
      learner-friendly. */
  lemma EvaluateDistance(e: Entry, query: string, t: QueryType)
    requires Evaluate(e, query, t).Some?
    ensures var f := Evaluate(e, query, t).value.features;
            f.editDistance <= 2 && !f.learnerFriendly
  {
    if t.Kana? {
      ScanKanaDistance(e.kana, NormalizeQuery(query), 0, false, 0);
    }
  }

  // ---------------------------------------------------------------------
  // The loops of evaluate_entry

  /** The kanji loop of a kanji query. */
  method KanjiLoop(forms: seq<string>, nq: string) returns (exact: bool, prefix: bool)
    ensures FormScan(exact, prefix, 0) == ScanKanji(forms, nq, 0, false)
  {
    exact, prefix := false, false;
    var i := 0;
    while i < |forms|
      invariant 0 <= i <= |forms|
      invariant ScanKanji(forms, nq, i, prefix) == ScanKanji(forms, nq, 0, false)
    {
      var lower := ToLower(forms[i]);
      if lower == nq {
        exact := true;
        break;
      }
      if StartsWith(lower, nq) {
        prefix := true;
      }
      i := i + 1;
    }
  }

  /** The kana loop of a kanji query: only an exact reading is looked for. */
  method ReadingLoop(forms: seq<string>, nq: string) returns (exact: bool)
    ensures exact == AnyEqual(forms, nq)
  {
    exact := false;
    var i := 0;
    while i < |forms|
      invariant 0 <= i <= |forms|
      invariant forall k :: 0 <= k < i ==> ToLower(forms[k]) != nq
    {
      if ToLower(forms[i]) == nq {
        exact := true;
        break;
      }
      i := i + 1;
    }
  }

  /** The kana loop of a kana query, with the edit distance. */
  method KanaLoop(forms: seq<string>, nq: string) returns (s: FormScan)
    ensures s == ScanKana(forms, nq, 0, false, 0)
  {
    var exact, prefix, distance := false, false, 0;
    var i := 0;
    while i < |forms|
      invariant 0 <= i <= |forms|
      invariant ScanKana(forms, nq, i, prefix, distance) == ScanKana(forms, nq, 0, false, 0)
    {
      var lower := ToLower(forms[i]);
      if lower == nq {
        exact := true;
        break;
      }
      if StartsWith(lower, nq) {
        prefix := true;
      }
      var d := SimpleEditDistance(lower, nq);
      if d <= 2 && distance == 0 {
        distance := d;
      }
      i := i + 1;
    }
    s := FormScan(exact, prefix, distance);
  }

  /** The clause loop of one gloss, over what each of its clauses says. */
  method ClauseLoop(f: EnglishFlags, ms: seq<ClauseMatch>, first: bool) returns (g: EnglishFlags)
    ensures g == ScanClauses(f, ms, first, 0)
  {
    g := f;
    var i := 0;
    while i < |ms|
      invariant 0 <= i <= |ms|
      invariant ScanClauses(g, ms, first, i) == ScanClauses(f, ms, first, 0)
    {
      var m := ms[i];
      if m.Hit? {
        g := EnglishFlags(true, g.exactEnglish || m.exact, g.firstGloss || (first && i == 0));
        break;
      }
      if m.WordOnly? {
        g := g.(glossHit := true);
      }
      i := i + 1;
    }
  }

  /** The gloss loop of an English query, over what each clause of each
      gloss says. */
  method GlossLoop(mss: seq<seq<ClauseMatch>>) returns (g: EnglishFlags)
    ensures g == ScanGlosses(NoFlags, mss, 0)
  {
    g := NoFlags;
    var k := 0;
    while k < |mss|
      invariant 0 <= k <= |mss|
      invariant ScanGlosses(g, mss, k) == ScanGlosses(NoFlags, mss, 0)
    {
      g := ClauseLoop(g, mss[k], k == 0);
      if g.firstGloss {
        break;
      }
      k := k + 1;
    }
  }

  /** `evaluate_entry`. */
  method EvaluateEntry(e: Entry, query: string, t: QueryType) returns (r: Option<SearchResult>)
    ensures r == Evaluate(e, query, t)
  {
    var nq := NormalizeQuery(query);
    var features := NoFeatures;
    match t {
      case Kanji =>
        var exact, prefix := KanjiLoop(e.kanji, nq);
        var reading := ReadingLoop(e.kana, nq);
        features := features.(exactForm := exact, prefix := prefix, exactReading := reading);
      case Kana =>
        var s := KanaLoop(e.kana, nq);
        features := features.(exactReading := s.exact, prefix := s.prefix, editDistance := s.distance);
      case English =>
        var g := GlossLoop(GlossMatches(e.english, nq));
        features := features.(glossHit := g.glossHit, exactEnglish := g.exactEnglish, firstGloss := g.firstGloss);
    }
    if NoMatchAt(features) {
      return None;
    }
    features := features.(hasCommon := e.isCommon, shorterLemma := ShorterLemma(e), simpleForm := DetectSimpleFormAsWritten(e));
    r := Some(SearchResult(e, ScoreFeatures(features), features));
  }
}

=== FILE: index.dfy ===
/** The inverted indices of the search engine (English gloss text, kanji
    forms and kana forms, each to the ids of the entries filed under it) and
    the candidate lookup over them. */
module SearchIndex {
  import opened Wrappers
  import opened Text
  import opened Query
  import opened Dictionary
  import opened Scoring

  /** A key to the ids of the entries filed under it. */
  type Index = map<string, seq<nat>>

  /** The three indices; the engine's `Option<Indices>` is `None` until they
      have been built. */
  datatype Indices = Indices(english: Index, kanji: Index, kana: Index)

  /** The list of `key`, empty when the key is absent. */
  function Lookup(ix: Index, key: string): seq<nat> {
    if key in ix then ix[key] else []
  }

  /** `index.entry(key).or_default().push(id)`. */
  function Push(ix: Index, key: string, id: nat): Index {
    ix[key := Lookup(ix, key) + [id]]
  }

  /** Filing `id` under every key of `keys`, in order. */
  function PushAll(ix: Index, keys: seq<string>, id: nat): Index
    decreases |keys|
  {
    if keys == [] then ix else Push(PushAll(ix, keys[..|keys| - 1], id), keys[|keys| - 1], id)
  }

  /** `n` copies of `id`. */
  function Copies(id: nat, n: nat): seq<nat> {
    if n == 0 then [] else Copies(id, n - 1) + [id]
  }

  lemma {:induction false} CopiesHas(id: nat, n: nat, x: nat)
    ensures x in Copies(id, n) <==> n > 0 && x == id
  {
    if n > 0 {
      CopiesHas(id, n - 1, x);
    }
  }

  /** Occurrences of `key` in `keys`. */
  function Count(keys: seq<string>, key: string): (c: nat)
    ensures c > 0 <==> key in keys
  {
    if keys == [] then 0
    else
      var init := keys[..|keys| - 1];
      assert keys == init + [keys[|keys| - 1]];
      Count(init, key) + (if keys[|keys| - 1] == key then 1 else 0)
  }

  /** Filing `id` under `keys` appends one copy of `id` to the list of each
      key per occurrence of the key, and touches no other list. */
  lemma {:induction false} PushAllLookup(ix: Index, keys: seq<string>, id: nat, key: string)
    ensures Lookup(PushAll(ix, keys, id), key) == Lookup(ix, key) + Copies(id, Count(keys, key))
    decreases |keys|
  {
    if keys != [] {
      var init, last := keys[..|keys| - 1], keys[|keys| - 1];
      var p := PushAll(ix, init, id);
      PushAllLookup(ix, init, id, key);
      assert PushAll(ix, keys, id) == Push(p, last, id);
      assert Count(keys, key) == Count(init, key) + (if last == key then 1 else 0);
      if last == key {
        var before, c := Lookup(ix, key), Copies(id, Count(init, key));
        assert Lookup(Push(p, last, id), key) == (before + c) + [id];
        assert (before + c) + [id] == before + (c + [id]);
      }
    }
  }

  /** Filing adds exactly the keys filed under. */
  lemma {:induction false} PushAllKeys(ix: Index, keys: seq<string>, id: nat, key: string)
    ensures key in PushAll(ix, keys, id) <==> key in ix || key in keys
    decreases |keys|
  {
    if keys != [] {
      var init, last := keys[..|keys| - 1], keys[|keys| - 1];
      PushAllKeys(ix, init, id, key);
      assert keys == init + [last];
      assert PushAll(ix, keys, id) == Push(PushAll(ix, init, id), last, id);
    }
  }

  lemma {:induction false} PushAllAppend(ix: Index, a: seq<string>, b: seq<string>, id: nat)
    ensures PushAll(ix, a + b, id) == PushAll(PushAll(ix, a, id), b, id)
    decreases |b|
  {
    if b == [] {
      assert a + b == a;
    } else {
      assert (a + b)[..|a + b| - 1] == a + b[..|b| - 1];
      PushAllAppend(ix, a, b[..|b| - 1], id);
    }
  }

  /** `sort_unstable` followed by `dedup` (SortDedupSpec: the distinct
      elements in ascending order). */
  function SortDedup(xs: seq<nat>): seq<nat> {
    if xs == [] then [] else Insert(SortDedup(xs[..|xs| - 1]), xs[|xs| - 1])
  }

  /** `ys` with `x` added in its place, unless it is already there. */
  function Insert(ys: seq<nat>, x: nat): seq<nat> {
    if ys == [] then [x]
    else if x < ys[0] then [x] + ys
    else if x == ys[0] then ys
    else [ys[0]] + Insert(ys[1..], x)
  }

  /** Inserting adds exactly `x` to the elements. */
  lemma {:induction false} InsertElems(ys: seq<nat>, x: nat)
    ensures Elems(Insert(ys, x)) == Elems(ys) + {x}
    decreases |ys|
  {
    if ys != [] {
      ElemsCons(ys[0], ys[1..]);
      assert ys == [ys[0]] + ys[1..];
      if x < ys[0] {
        ElemsCons(x, ys);
      } else if x > ys[0] {
        InsertElems(ys[1..], x);
        ElemsCons(ys[0], Insert(ys[1..], x));
      }
    }
  }

  /** Inserting into an ascending list keeps it ascending; the head is `x`
      or the old head. */
  lemma {:induction false} InsertAscending(ys: seq<nat>, x: nat)
    requires Ascending(ys)
    ensures Ascending(Insert(ys, x))
    ensures Insert(ys, x) != [] && (Insert(ys, x)[0] == x || (ys != [] && Insert(ys, x)[0] == ys[0]))
    decreases |ys|
  {
    if ys != [] {
      if x < ys[0] {
        AscendingCons(x, ys);
      } else if x > ys[0] {
        InsertAscending(ys[1..], x);
        AscendingCons(ys[0], Insert(ys[1..], x));
      }
    }
  }

  /** The result is strictly ascending and holds the elements of the input. */
  lemma {:induction false} SortDedupSpec(xs: seq<nat>)
    ensures Ascending(SortDedup(xs)) && Elems(SortDedup(xs)) == Elems(xs)
    decreases |xs|
  {
    if xs != [] {
      var init := xs[..|xs| - 1];
      SortDedupSpec(init);
      InsertElems(SortDedup(init), xs[|xs| - 1]);
      InsertAscending(SortDedup(init), xs[|xs| - 1]);
      assert xs == init + [xs[|xs| - 1]];
      ElemsAppend(init, [xs[|xs| - 1]]);
    }
  }

  lemma ElemsCons(h: nat, t: seq<nat>)
    ensures Elems([h] + t) == {h} + Elems(t)
  {
    assert forall x :: x in [h] + t <==> x == h || x in t;
  }

  lemma AscendingCons(h: nat, t: seq<nat>)
    requires Ascending(t) && (t == [] || h < t[0])
    ensures Ascending([h] + t)
  {
  }

  function Elems(s: seq<nat>): set<nat> {
    set x | x in s
  }

  /** Strictly ascending: sorted and without duplicates. */
  predicate Ascending(s: seq<nat>) {
    forall i, j :: 0 <= i < j < |s| ==> s[i] < s[j]
  }

  predicate NonDecreasing(s: seq<nat>) {
    forall i, j :: 0 <= i < j < |s| ==> s[i] <= s[j]
  }

  /** A strictly ascending list is determined by its elements. */
  lemma {:induction false} AscendingUnique(a: seq<nat>, b: seq<nat>)
    requires Ascending(a) && Ascending(b) && Elems(a) == Elems(b)
    ensures a == b
    decreases |a|
  {
    AscendingSize(a);
    AscendingSize(b);
    if a != [] {
      assert a[0] in Elems(b) && b[0] in Elems(a);
      assert a[0] == b[0];
      assert Elems(a[1..]) == Elems(a) - {a[0]};
      assert Elems(b[1..]) == Elems(b) - {b[0]};
      AscendingUnique(a[1..], b[1..]);
      assert a == [a[0]] + a[1..] && b == [b[0]] + b[1..];
    }
  }

  lemma {:induction false} AscendingSize(s: seq<nat>)
    requires Ascending(s)
    ensures |Elems(s)| == |s|
    decreases |s|
  {
    if s != [] {
      assert Elems(s) == {s[0]} + Elems(s[1..]);
      AscendingSize(s[1..]);
    }
  }

  // ---------------------------------------------------------------------
  // Building

  /** Which index a key list is for. */
  datatype IndexKind = EnglishIndex | KanjiIndex | KanaIndex

  /** Words of more than one byte. */
  function LongWords(ws: seq<string>): seq<string> {
    if ws == [] then [] else LongWords(ws[..|ws| - 1]) + (if Utf8Len(ws[|ws| - 1]) > 1 then [ws[|ws| - 1]] else [])
  }

  /** Exactly the words longer than one byte are kept. */
  lemma {:induction false} LongWordsHas(ws: seq<string>, w: string)
    ensures w in LongWords(ws) <==> w in ws && Utf8Len(w) > 1
  {
    if ws != [] {
      var init := ws[..|ws| - 1];
      assert w in ws <==> w in init || w == ws[|ws| - 1];
      LongWordsHas(init, w);
    }
  }

  /** The keys of one `;`-clause: the trimmed clause unless it is empty, and
      then its first word when that is longer than one byte. */
  function ClauseKeys(m: string): seq<string> {
    var t := Trim(m);
    if t == [] then []
    else
      var first := FirstWord(t);
      [t] + (if Utf8Len(first) > 1 then [first] else [])
  }

  function AllClauseKeys(ms: seq<string>): seq<string> {
    if ms == [] then [] else AllClauseKeys(ms[..|ms| - 1]) + ClauseKeys(ms[|ms| - 1])
  }

  /** The keys one gloss is filed under: its normalised text, each of its
      words longer than one byte, and the keys of each of its clauses. */
  function GlossKeys(g: string): seq<string> {
    var n := NormalizeQuery(g);
    [n] + LongWords(SplitWhitespace(n)) + AllClauseKeys(Split(n, ';'))
  }

  function EnglishKeys(gs: seq<string>): seq<string> {
    if gs == [] then [] else EnglishKeys(gs[..|gs| - 1]) + GlossKeys(gs[|gs| - 1])
  }

  /** The keys an entry is filed under in each index. */
  function Keys(kind: IndexKind, e: Entry): seq<string> {
    match kind
    case EnglishIndex => EnglishKeys(e.english)
    case KanjiIndex => e.kanji
    case KanaIndex => e.kana
  }

  /** The keys of each entry for one index, as a function value. */
  function KeysOf(kind: IndexKind): Entry -> seq<string> {
    e => Keys(kind, e)
  }

  /** The list of `key` after filing entries `0 .. n-1`: each id once per
      occurrence of `key` among its keys, in id order. */
  function Filed(keysOf: Entry -> seq<string>, words: seq<Entry>, n: nat, key: string): seq<nat>
    requires n <= |words|
  {
    if n == 0 then [] else Filed(keysOf, words, n - 1, key) + Copies(n - 1, Count(keysOf(words[n - 1]), key))
  }

  /** The keys of entries `0 .. n-1`. */
  function KeysIn(keysOf: Entry -> seq<string>, words: seq<Entry>, n: nat): set<string>
    requires n <= |words|
  {
    set id, k | 0 <= id < n && k in keysOf(words[id]) :: k
  }

  /** The index after filing entries `0 .. n-1` of `words`, entry `id` under
      the keys `keysOf` gives it, before any clean-up: every key of those
      entries, mapped to its filed list. */
  function Build(keysOf: Entry -> seq<string>, words: seq<Entry>, n: nat): Index
    requires n <= |words|
  {
    map key | key in KeysIn(keysOf, words, n) :: Filed(keysOf, words, n, key)
  }

  /** Nothing is filed under a key no entry has. */
  lemma {:induction false} FiledAbsent(keysOf: Entry -> seq<string>, words: seq<Entry>, n: nat, key: string)
    requires n <= |words| && key !in KeysIn(keysOf, words, n)
    ensures Filed(keysOf, words, n, key) == []
  {
    if n > 0 {
      var seen := KeysIn(keysOf, words, n);
      assert KeysIn(keysOf, words, n - 1) <= seen;
      assert forall k :: k in keysOf(words[n - 1]) ==> k in seen;
      FiledAbsent(keysOf, words, n - 1, key);
    }
  }

  /** Filing entry `n` under its keys takes the index of entries `0 .. n-1`
      to that of entries `0 .. n`. */
  lemma FileStep(keysOf: Entry -> seq<string>, words: seq<Entry>, n: nat)
    requires n < |words|
    ensures PushAll(Build(keysOf, words, n), keysOf(words[n]), n) == Build(keysOf, words, n + 1)
  {
    var ix, keys := Build(keysOf, words, n), keysOf(words[n]);
    var out, next := PushAll(ix, keys, n), Build(keysOf, words, n + 1);
    forall key
      ensures key in out <==> key in next
      ensures key in out ==> out[key] == next[key]
    {
      PushAllKeys(ix, keys, n, key);
      PushAllLookup(ix, keys, n, key);
      if key !in ix {
        FiledAbsent(keysOf, words, n, key);
      }
      assert key in next <==> key in ix || key in keys by {
        if key in keys {
          assert key in KeysIn(keysOf, words, n + 1) by {
            assert n < n + 1 && key in keysOf(words[n]);
          }
        }
        if key in KeysIn(keysOf, words, n + 1) {
          var id :| 0 <= id < n + 1 && key in keysOf(words[id]);
          if id < n {
            assert key in KeysIn(keysOf, words, n);
          }
        }
      }
    }
  }

  /** The built index holds, for each key, the list `Filed` describes. */
  lemma BuildFiled(keysOf: Entry -> seq<string>, words: seq<Entry>, n: nat, key: string)
    requires n <= |words|
    ensures Lookup(Build(keysOf, words, n), key) == Filed(keysOf, words, n, key)
  {
    if key !in KeysIn(keysOf, words, n) {
      FiledAbsent(keysOf, words, n, key);
    }
  }

  /** A key is present in the built index exactly when some entry has it. */
  lemma BuildKeys(keysOf: Entry -> seq<string>, words: seq<Entry>, n: nat, key: string)
    requires n <= |words|
    ensures key in Build(keysOf, words, n) <==> exists id: nat :: id < n && key in keysOf(words[id])
  {
    if key in Build(keysOf, words, n) {
      var id, k :| 0 <= id < n && k in keysOf(words[id]) && k == key;
    }
  }

  /** The list of a key holds `id` exactly when `key` is among the keys of
      entry `id`. */
  lemma {:induction false} FiledHas(keysOf: Entry -> seq<string>, words: seq<Entry>, n: nat, key: string)
    requires n <= |words|
    ensures forall id: nat :: id in Filed(keysOf, words, n, key) <==> id < n && key in keysOf(words[id])
  {
    if n > 0 {
      var l0, l := Filed(keysOf, words, n - 1, key), Filed(keysOf, words, n, key);
      var c := Count(keysOf(words[n - 1]), key);
      FiledHas(keysOf, words, n - 1, key);
      forall id: nat
        ensures id in l <==> id < n && key in keysOf(words[id])
      {
        CopiesHas(n - 1, c, id);
        if id == n - 1 {
          assert id !in l0;
        }
      }
    }
  }

  /** The list of a key is in non-decreasing id order. */
  lemma {:induction false} FiledOrdered(keysOf: Entry -> seq<string>, words: seq<Entry>, n: nat, key: string)
    requires n <= |words|
    ensures NonDecreasing(Filed(keysOf, words, n, key))
  {
    if n > 0 {
      var l0, c := Filed(keysOf, words, n - 1, key), Count(keysOf(words[n - 1]), key);
      FiledOrdered(keysOf, words, n - 1, key);
      FiledHas(keysOf, words, n - 1, key);
      var more := Copies(n - 1, c);
      forall k | 0 <= k < |more|
        ensures more[k] == n - 1
      {
        CopiesHas(n - 1, c, more[k]);
      }
      forall k | 0 <= k < |l0|
        ensures l0[k] < n - 1
      {
        assert l0[k] in l0;
      }
      AppendOrdered(l0, more, n - 1);
    }
  }

  lemma AppendOrdered(a: seq<nat>, b: seq<nat>, m: nat)
    requires NonDecreasing(a) && forall k :: 0 <= k < |a| ==> a[k] < m
    requires forall k :: 0 <= k < |b| ==> b[k] == m
    ensures NonDecreasing(a + b)
  {
    forall i, j | 0 <= i < j < |a + b|
      ensures (a + b)[i] <= (a + b)[j]
    {
      if j < |a| {
        assert (a + b)[i] == a[i] && (a + b)[j] == a[j];
      } else if i < |a| {
        assert (a + b)[i] == a[i] && (a + b)[j] == b[j - |a|];
      } else {
        assert (a + b)[i] == b[i - |a|] && (a + b)[j] == b[j - |a|];
      }
    }
  }

  /** Every list of the built index holds ids below `n` in non-decreasing
      order, and holds `id` exactly when `key` is among the keys of entry
      `id`. */
  lemma BuildLookup(keysOf: Entry -> seq<string>, words: seq<Entry>, n: nat, key: string)
    requires n <= |words|
    ensures var l := Lookup(Build(keysOf, words, n), key);
            NonDecreasing(l) && forall id: nat :: id in l <==> id < n && key in keysOf(words[id])
  {
    BuildFiled(keysOf, words, n, key);
    FiledHas(keysOf, words, n, key);
    FiledOrdered(keysOf, words, n, key);
  }

  /** The English index after `sort_unstable` and `dedup` of every list. */
  function Dedup(ix: Index): (r: Index)
    ensures r.Keys == ix.Keys
  {
    map key | key in ix :: SortDedup(ix[key])
  }

  /** An index whose lists are those of `ix`, each sorted and deduplicated,
      is `Dedup(ix)`. */
  lemma DedupEqual(ix: Index, out: Index)
    requires out.Keys == ix.Keys && forall key :: key in ix ==> out[key] == SortDedup(ix[key])
    ensures out == Dedup(ix)
  {
  }

  /** Filing `id` under `keys`: one push per key. */
  method FileUnder(ix: Index, keys: seq<string>, id: nat) returns (out: Index)
    ensures out == PushAll(ix, keys, id)
  {
    out := ix;
    for j := 0 to |keys|
      invariant out == PushAll(ix, keys[..j], id)
    {
      assert keys[..j + 1][..j] == keys[..j];
      out := out[keys[j] := (if keys[j] in out then out[keys[j]] else []) + [id]];
    }
    assert keys[..|keys|] == keys;
  }

  /** The gloss loop of `build_english_index` for entry `id`. */
  method FileGlosses(ix: Index, gs: seq<string>, id: nat) returns (out: Index)
    ensures out == PushAll(ix, EnglishKeys(gs), id)
  {
    out := ix;
    for j := 0 to |gs|
      invariant out == PushAll(ix, EnglishKeys(gs[..j]), id)
    {
      GlossesNext(ix, gs, j, id);
      out := FileUnder(out, GlossKeys(gs[j]), id);
    }
    assert gs[..|gs|] == gs;
  }

  lemma {:induction false} GlossesNext(ix: Index, gs: seq<string>, j: nat, id: nat)
    requires j < |gs|
    ensures PushAll(ix, EnglishKeys(gs[..j + 1]), id) == PushAll(PushAll(ix, EnglishKeys(gs[..j]), id), GlossKeys(gs[j]), id)
  {
    assert gs[..j + 1][..j] == gs[..j];
    PushAllAppend(ix, EnglishKeys(gs[..j]), GlossKeys(gs[j]), id);
  }

  /** The clean-up loop of `build_english_index`: every list sorted and
      deduplicated in place. */
  method DedupLists(ix: Index) returns (out: Index)
    ensures out == Dedup(ix)
  {
    out := ix;
    var todo := ix.Keys;
    while todo != {}
      invariant todo <= ix.Keys && out.Keys == ix.Keys
      invariant forall key :: key in ix ==> out[key] == if key in todo then ix[key] else SortDedup(ix[key])
      decreases |todo|
    {
      var key :| key in todo;
      out := out[key := SortDedup(out[key])];
      todo := todo - {key};
    }
    DedupEqual(ix, out);
  }

  /** `build_english_index`: the filing loop, then the clean-up. */
  method BuildEnglishIndex(words: seq<Entry>) returns (ix: Index)
    ensures ix == Dedup(Build(KeysOf(EnglishIndex), words, |words|))
  {
    var filed := FileAll(words, EnglishIndex, KeysOf(EnglishIndex));
    ix := DedupLists(filed);
  }

  /** `build_kanji_index` and `build_kana_index`: every form of every entry,
      lists left as built. */
  method BuildFormIndex(words: seq<Entry>, kind: IndexKind) returns (ix: Index)
    requires !kind.EnglishIndex?
    ensures ix == Build(KeysOf(kind), words, |words|)
  {
    ix := FileAll(words, kind, KeysOf(kind));
  }

  /** The filing loop the three builders share: entry by entry, in id order.
      `keysOf` names the keys of `kind` without unfolding them. */
  method FileAll(words: seq<Entry>, kind: IndexKind, ghost keysOf: Entry -> seq<string>) returns (ix: Index)
    requires forall e {:trigger Keys(kind, e)} :: keysOf(e) == Keys(kind, e)
    ensures ix == Build(keysOf, words, |words|)
  {
    ix := map[];
    assert KeysIn(keysOf, words, 0) == {};
    for id := 0 to |words|
      invariant ix == Build(keysOf, words, id)
    {
      ix := FileEntry(ix, words, kind, keysOf, id);
    }
  }

  /** One round of the filing loop: entry `id` under each of its keys (for
      the English index, gloss by gloss). */
  method FileEntry(ix: Index, words: seq<Entry>, kind: IndexKind, ghost keysOf: Entry -> seq<string>, id: nat)
    returns (out: Index)
    requires forall e {:trigger Keys(kind, e)} :: keysOf(e) == Keys(kind, e)
    requires id < |words| && ix == Build(keysOf, words, id)
    ensures out == Build(keysOf, words, id + 1)
  {
    assert keysOf(words[id]) == Keys(kind, words[id]);
    match kind {
      case EnglishIndex =>
        out := FileGlosses(ix, words[id].english, id);
      case KanjiIndex =>
        out := FileUnder(ix, words[id].kanji, id);
      case KanaIndex =>
        out := FileUnder(ix, words[id].kana, id);
    }
    FileStep(keysOf, words, id);
  }

  /** The indices of a dictionary: the English one cleaned up, the form ones
      as built. */
  function IndicesOf(words: seq<Entry>): Indices {
    Indices(Dedup(Build(KeysOf(EnglishIndex), words, |words|)),
            Build(KeysOf(KanjiIndex), words, |words|), Build(KeysOf(KanaIndex), words, |words|))
  }

  /** `build_search_indices`: the three indices, built one after the other. */
  method BuildIndices(words: seq<Entry>) returns (ix: Indices)
    ensures ix == IndicesOf(words)
  {
    var english := BuildEnglishIndex(words);
    var kanji := BuildFormIndex(words, KanjiIndex);
    var kana := BuildFormIndex(words, KanaIndex);
    ix := Indices(english, kanji, kana);
  }

  /** Every list of the English index is strictly ascending and holds exactly
      the entries filed under its key. */
  lemma EnglishIndexLists(words: seq<Entry>, key: string)
    requires key in IndicesOf(words).english
    ensures var l := IndicesOf(words).english[key];
            Ascending(l) && forall id: nat :: id in l <==> id < |words| && key in EnglishKeys(words[id].english)
  {
    var f := KeysOf(EnglishIndex);
    var l := Build(f, words, |words|)[key];
    BuildLookup(f, words, |words|, key);
    SortDedupSpec(l);
    assert forall id :: id in SortDedup(l) <==> id in Elems(SortDedup(l));
  }

  /** Every list of the kanji and kana indices is in non-decreasing id order
      and holds the entries having the key among their forms, once per
      occurrence; a key is present exactly when some entry has that form. */
  lemma FormIndexLists(words: seq<Entry>, kind: IndexKind, key: string)
    requires !kind.EnglishIndex?
    ensures var ix := Build(KeysOf(kind), words, |words|);
            var forms := (i: nat) requires i < |words| => if kind.KanjiIndex? then words[i].kanji else words[i].kana;
            && NonDecreasing(Lookup(ix, key))
            && (forall id: nat :: id in Lookup(ix, key) <==> id < |words| && key in forms(id))
            && (key in ix <==> exists id: nat :: id < |words| && key in forms(id))
  {
    BuildLookup(KeysOf(kind), words, |words|, key);
    BuildKeys(KeysOf(kind), words, |words|, key);
  }

  /** A gloss is filed under its normalised text, under each word of it
      longer than one byte, and under each non-empty trimmed clause. */
  lemma GlossKeysCover(g: string)
    ensures NormalizeQuery(g) in GlossKeys(g)
    ensures forall w :: w in SplitWhitespace(NormalizeQuery(g)) && Utf8Len(w) > 1 ==> w in GlossKeys(g)
    ensures forall m :: m in Split(NormalizeQuery(g), ';') && Trim(m) != [] ==> Trim(m) in GlossKeys(g)
  {
    var n := NormalizeQuery(g);
    forall w | w in SplitWhitespace(n) && Utf8Len(w) > 1
      ensures w in GlossKeys(g)
    {
      LongWordsHas(SplitWhitespace(n), w);
    }
    forall m | m in Split(n, ';') && Trim(m) != []
      ensures Trim(m) in GlossKeys(g)
    {
      AllClauseKeysHas(Split(n, ';'), m);
    }
  }

  lemma {:induction false} AllClauseKeysHas(ms: seq<string>, m: string)
    requires m in ms && Trim(m) != []
    ensures Trim(m) in AllClauseKeys(ms)
    decreases |ms|
  {
    if ms[|ms| - 1] != m {
      assert m in ms[..|ms| - 1];
      AllClauseKeysHas(ms[..|ms| - 1], m);
    }
  }

  /** Every gloss of an entry contributes its keys. */
  lemma {:induction false} EnglishKeysHas(gs: seq<string>, j: nat, key: string)
    requires j < |gs| && key in GlossKeys(gs[j])
    ensures key in EnglishKeys(gs)
    decreases |gs|
  {
    if j < |gs| - 1 {
      assert gs[..|gs| - 1][j] == gs[j];
      EnglishKeysHas(gs[..|gs| - 1], j, key);
    }
  }

  // ---------------------------------------------------------------------
  // find_indexed_entries

  /** The key matches the query for candidate collection: it starts with it,
      and when `strict`, it is not the query itself. */
  predicate KeyMatches(key: string, nq: string, strict: bool) {
    StartsWith(key, nq) && (strict ==> key != nq)
  }

  /** The ids filed under the matching keys among `keys`. */
  ghost function Hits(ix: Index, keys: set<string>, nq: string, strict: bool): set<nat> {
    set key, id | key in keys && key in ix && KeyMatches(key, nq, strict) && id in ix[key] :: id
  }

  /** The ids `find_indexed_entries` collects before sorting: for English the
      list of the query itself, or when that is missing or empty, the lists of
      every key that strictly extends the query; for kanji and kana the lists
      of every key that starts with the query; nothing without indices. */
  ghost function CandidateSet(nq: string, t: QueryType, ix: Option<Indices>): set<nat> {
    if ix.None? then {}
    else
      match t
      case English =>
        var e := ix.value.english;
        if Lookup(e, nq) != [] then Elems(e[nq]) else Hits(e, e.Keys, nq, true)
      case Kanji => Hits(ix.value.kanji, ix.value.kanji.Keys, nq, false)
      case Kana => Hits(ix.value.kana, ix.value.kana.Keys, nq, false)
  }

  /** `c` is the `cap` smallest elements of `s` in ascending order. */
  ghost predicate SmallestOf(c: seq<nat>, s: set<nat>, cap: nat) {
    && Ascending(c)
    && |c| == Min(|s|, cap)
    && (forall x :: x in c ==> x in s)
    && (forall x, y :: x in s && x !in c && y in c ==> y < x)
  }

  /** There is only one such list. */
  lemma SmallestOfUnique(c: seq<nat>, d: seq<nat>, s: set<nat>, cap: nat)
    requires SmallestOf(c, s, cap) && SmallestOf(d, s, cap)
    ensures c == d
  {
    SmallestOfIncluded(c, d, s, cap);
    SmallestOfIncluded(d, c, s, cap);
    AscendingUnique(c, d);
  }

  lemma SmallestOfIncluded(c: seq<nat>, d: seq<nat>, s: set<nat>, cap: nat)
    requires SmallestOf(c, s, cap) && SmallestOf(d, s, cap)
    ensures Elems(c) <= Elems(d)
  {
    forall x | x in Elems(c)
      ensures x in Elems(d)
    {
      if x !in d {
        // every element of `d` is below `x`, hence also in `c`, so `d` has
        // fewer distinct elements than `c`, though both have the same length
        forall y | y in d
          ensures y in c
        {
        }
        AscendingSize(c);
        AscendingSize(d);
        ProperSubsetSize(Elems(d), Elems(c), x);
        assert false;
      }
    }
  }

  lemma ProperSubsetSize(a: set<nat>, b: set<nat>, x: nat)
    requires a <= b && x in b && x !in a
    ensures |a| < |b|
  {
    assert b == a + (b - a);
  }

  /** A loop over the map's entries (in any order) that extends `c` with the
      list of every matching key. */
  method Gather(ix: Index, nq: string, strict: bool) returns (c: seq<nat>)
    ensures Elems(c) == Hits(ix, ix.Keys, nq, strict)
  {
    c := [];
    var todo := ix.Keys;
    while todo != {}
      invariant todo <= ix.Keys
      invariant Elems(c) == Hits(ix, ix.Keys - todo, nq, strict)
      decreases |todo|
    {
      var key :| key in todo;
      HitsStep(ix, ix.Keys - todo, key, nq, strict);
      assert ix.Keys - (todo - {key}) == (ix.Keys - todo) + {key};
      if KeyMatches(key, nq, strict) {
        ElemsAppend(c, ix[key]);
        c := c + ix[key];
      }
      todo := todo - {key};
    }
  }

  lemma ElemsAppend(a: seq<nat>, b: seq<nat>)
    ensures Elems(a + b) == Elems(a) + Elems(b)
  {
    assert forall x :: x in a + b <==> x in a || x in b;
  }

  lemma HitsStep(ix: Index, done: set<string>, key: string, nq: string, strict: bool)
    requires key in ix
    ensures Hits(ix, done + {key}, nq, strict) ==
            Hits(ix, done, nq, strict) + (if KeyMatches(key, nq, strict) then Elems(ix[key]) else {})
  {
  }

  /** `find_indexed_entries`: the collected ids sorted, deduplicated and cut
      to the first 1000. */
  method FindIndexedEntries(query: string, t: QueryType, ix: Option<Indices>) returns (candidates: seq<nat>)
    ensures SmallestOf(candidates, CandidateSet(NormalizeQuery(query), t, ix), 1000)
    ensures ix.None? ==> candidates == []
  {
    var nq := NormalizeQuery(query);
    var collected: seq<nat> := [];
    if ix.Some? {
      match t {
        case English =>
          var e := ix.value.english;
          if nq in e {
            collected := e[nq];
          }
          if collected == [] {
            collected := Gather(e, nq, true);
          }
        case Kanji =>
          collected := Gather(ix.value.kanji, nq, false);
        case Kana =>
          collected := Gather(ix.value.kana, nq, false);
      }
    }
    assert Elems(collected) == CandidateSet(nq, t, ix);
    candidates := SortDedup(collected);
    SortDedupSpec(collected);
    AscendingSize(candidates);
    if |candidates| > 1000 {
      Truncated(candidates, 1000);
      candidates := candidates[..1000];
    }
  }

  /** Cutting an ascending list keeps its smallest elements. */
  lemma Truncated(s: seq<nat>, n: nat)
    requires Ascending(s) && n <= |s|
    ensures Ascending(s[..n])
    ensures forall x, y :: x in s && x !in s[..n] && y in s[..n] ==> y < x
  {
    forall x, y | x in s && x !in s[..n] && y in s[..n]
      ensures y < x
    {
      var i :| 0 <= i < |s| && s[i] == x;
      var j :| 0 <= j < n && s[..n][j] == y;
    }
  }

  /** Every id filed in `ix` is below `n`. */
  ghost predicate FiledBelow(ix: Index, n: nat) {
    forall key :: key in ix ==> forall id :: id in ix[key] ==> id < n
  }

  /** Every id filed in any of the three indices names one of `n` entries. */
  ghost predicate AllFiledBelow(ix: Indices, n: nat) {
    FiledBelow(ix.english, n) && FiledBelow(ix.kanji, n) && FiledBelow(ix.kana, n)
  }

  lemma BuiltBelow(keysOf: Entry -> seq<string>, words: seq<Entry>)
    ensures FiledBelow(Build(keysOf, words, |words|), |words|)
  {
    forall key | key in Build(keysOf, words, |words|) {
      BuildLookup(keysOf, words, |words|, key);
    }
  }

  /** Sorting and deduplicating keeps every list's elements. */
  lemma DedupBelow(ix: Index, n: nat)
    requires FiledBelow(ix, n)
    ensures FiledBelow(Dedup(ix), n)
  {
    forall key | key in Dedup(ix)
      ensures forall id :: id in Dedup(ix)[key] ==> id < n
    {
      SortDedupSpec(ix[key]);
      assert forall id :: id in SortDedup(ix[key]) ==> id in Elems(SortDedup(ix[key]));
    }
  }

  /** The indices of a dictionary file only ids of its entries. */
  lemma IndicesBelow(words: seq<Entry>)
    ensures AllFiledBelow(IndicesOf(words), |words|)
  {
    BuiltBelow(KeysOf(EnglishIndex), words);
    BuiltBelow(KeysOf(KanjiIndex), words);
    BuiltBelow(KeysOf(KanaIndex), words);
    DedupBelow(Build(KeysOf(EnglishIndex), words, |words|), |words|);
  }

  /** With indices that file only ids below `n`, every candidate is below
      `n`. */
  lemma CandidatesBelow(ix: Indices, n: nat, nq: string, t: QueryType, id: nat)
    requires AllFiledBelow(ix, n) && id in CandidateSet(nq, t, Some(ix))
    ensures id < n
  {
    var f := match t case English => ix.english case Kanji => ix.kanji case Kana => ix.kana;
    if t.English? && Lookup(f, nq) != [] {
      assert id in f[nq];
    } else {
      var key :| key in f && id in f[key];
    }
  }

  /** For kanji and kana queries every candidate is filed under a key that
      starts with the normalised query. */
  lemma CandidatesFromPrefixKeys(nq: string, t: QueryType, ix: Option<Indices>, id: nat)
    requires !t.English? && id in CandidateSet(nq, t, ix)
    ensures var f := if t.Kanji? then ix.value.kanji else ix.value.kana;
            exists key :: key in f && StartsWith(key, nq) && id in f[key]
  {
  }
}

=== FILE: pack_layout.dfy ===
/** The byte layout the packer writes, as functions of the interned string
    pools and the per-word records, and the proof that the decoder reads every
    record back as the entry it stands for. */
module PackLayout {
  import opened Bytes
  import opened Dictionary

  /** One word after interning: its id's index in the id pool, the pool indices
      of its kanji, kana, English and part-of-speech strings, and its common flag. */
  datatype Record = Record(
    id: nat,
    kanji: seq<nat>,
    kana: seq<nat>,
    english: seq<nat>,
    pos: seq<nat>,
    isCommon: bool)

  /** The five interned string lists, each in order of first insertion. */
  datatype Pools = Pools(
    kanji: seq<seq<byte>>,
    kana: seq<seq<byte>>,
    english: seq<seq<byte>>,
    pos: seq<seq<byte>>,
    ids: seq<seq<byte>>)

  /** The concatenation of a list of lists, in order. */
  function Joined<T>(lists: seq<seq<T>>): seq<T> {
    if lists == [] then [] else Joined(lists[..|lists| - 1]) + lists[|lists| - 1]
  }

  /** The pools in the order they are written to the string data. */
  function Categories(p: Pools): seq<seq<seq<byte>>> {
    [p.kanji, p.kana, p.english, p.pos, p.ids]
  }

  /** Every interned string, in string-slot order. */
  function AllStrings(p: Pools): seq<seq<byte>> {
    p.kanji + p.kana + p.english + p.pos + p.ids
  }

  /** Writing the pools one after another writes every interned string in slot order. */
  lemma JoinedCategories(p: Pools)
    ensures Joined(Categories(p)) == AllStrings(p)
  {
    var c := Categories(p);
    assert c[..1][..0] == c[..0] && c[..2][..1] == c[..1] && c[..3][..2] == c[..2];
    assert c[..4][..3] == c[..3] && c[..5][..4] == c[..4] && c[..5] == c;
    assert Joined(c[..1]) == p.kanji;
    assert Joined(c[..2]) == p.kanji + p.kana;
    assert Joined(c[..3]) == p.kanji + p.kana + p.english;
    assert Joined(c[..4]) == p.kanji + p.kana + p.english + p.pos;
  }

  /** `strings_data`: every string followed by a NUL byte, in order. */
  function PoolBytes(strs: seq<seq<byte>>): (data: seq<byte>)
    ensures |strs| <= |data|
  {
    if strs == [] then [] else PoolBytes(strs[..|strs| - 1]) + strs[|strs| - 1] + [0]
  }

  /** `string_offsets`: the start of each string in the data, which is the
      length of the data written before it, cast to u32. */
  function PoolOffsets(strs: seq<seq<byte>>): (offs: seq<u32>)
    ensures |offs| == |strs|
  {
    seq(|strs|, k requires 0 <= k < |strs| => AsU32(|PoolBytes(strs[..k])|))
  }


  /** The little-endian encoding of a list of u32 values, four bytes each. */
  function LeWords(vs: seq<u32>): (data: seq<byte>)
    ensures |data| == 4 * |vs|
  {
    seq(4 * |vs|, i requires 0 <= i < 4 * |vs| => ToLeBytes(vs[i / 4])[i % 4])
  }

  /** First string slot of each category: the sizes of the earlier pools,
      summed as u32 values. */
  function KanaBase(p: Pools): u32 {
    AsU32(|p.kanji|)
  }

  function EnglishBase(p: Pools): u32 {
    AsU32(KanaBase(p) + AsU32(|p.kana|))
  }

  function PosBase(p: Pools): u32 {
    AsU32(EnglishBase(p) + AsU32(|p.english|))
  }

  /** The u32 sums `base + idx` for the indices of one category. */
  function Shifted(ix: seq<nat>, base: u32): (slots: seq<u32>)
    ensures |slots| == |ix|
  {
    seq(|ix|, j requires 0 <= j < |ix| => AsU32(base + ix[j]))
  }


  /** The 9-byte record header: id index, the four counts cast to u8, the common flag. */
  function Header(r: Record): (h: seq<byte>)
    ensures |h| == HEADER_SIZE
  {
    ToLeBytes(AsU32(r.id))
    + [AsU8(|r.kanji|), AsU8(|r.kana|), AsU8(|r.english|), AsU8(|r.pos|), if r.isCommon then 1 else 0]
  }

  /** The string slots a record names, in the order they are written. */
  function Slots(r: Record, p: Pools): seq<u32> {
    Shifted(r.kanji, 0) + Shifted(r.kana, KanaBase(p))
    + Shifted(r.english, EnglishBase(p)) + Shifted(r.pos, PosBase(p))
  }

  /** One entry record: the header, then the shifted indices of each category. */
  function RecordBytes(r: Record, p: Pools): seq<byte> {
    Header(r) + LeWords(Slots(r, p))
  }

  /** `entries_data`: the records one after another. */
  function EntryBlob(rs: seq<Record>, p: Pools): seq<byte> {
    if rs == [] then [] else EntryBlob(rs[..|rs| - 1], p) + RecordBytes(rs[|rs| - 1], p)
  }

  /** `entry_offsets`: the start of each record, which is the length of the
      data written before it, cast to u32. */
  function EntryOffsets(rs: seq<Record>, p: Pools): (offs: seq<u32>)
    ensures |offs| == |rs|
  {
    seq(|rs|, i requires 0 <= i < |rs| => AsU32(|EntryBlob(rs[..i], p)|))
  }


  /** The generated data: string data and offsets, entry data and offsets, and
      the sizes of the first four pools. */
  function Packed(rs: seq<Record>, p: Pools): Blob {
    var all := AllStrings(p);
    Blob(PoolBytes(all), PoolOffsets(all), EntryBlob(rs, p), EntryOffsets(rs, p),
         |p.kanji|, |p.kana|, |p.english|, |p.pos|)
  }

  /** `ix` names `texts` in the pool `strs`. */
  predicate Names(ix: seq<nat>, strs: seq<seq<byte>>, texts: seq<seq<byte>>) {
    && |ix| == |texts|
    && forall j :: 0 <= j < |ix| ==> ix[j] < |strs| && strs[ix[j]] == texts[j]
  }

  /** Record `r` over pools `p` stands for the entry `e`. */
  predicate Encodes(r: Record, p: Pools, e: WordEntry<seq<byte>>) {
    && r.id < |p.ids| && p.ids[r.id] == e.id
    && Names(r.kanji, p.kanji, e.kanji) && Names(r.kana, p.kana, e.kana)
    && Names(r.english, p.english, e.english) && Names(r.pos, p.pos, e.pos)
    && r.isCommon == e.isCommon
  }

  /** Every count of the record fits the u8 it is cast to. */
  predicate SmallCounts(r: Record) {
    |r.kanji| < U8_LIMIT && |r.kana| < U8_LIMIT && |r.english| < U8_LIMIT && |r.pos| < U8_LIMIT
  }

  predicate NulFree(s: seq<byte>) {
    forall i :: 0 <= i < |s| ==> s[i] != 0
  }

  predicate AllNulFree(strs: seq<seq<byte>>) {
    forall k :: 0 <= k < |strs| ==> NulFree(strs[k])
  }

  /** No interned string holds a NUL byte. */
  predicate PoolsNulFree(p: Pools) {
    && AllNulFree(p.kanji) && AllNulFree(p.kana) && AllNulFree(p.english)
    && AllNulFree(p.pos) && AllNulFree(p.ids)
  }

  /** The string in slot `s` is NUL-free when every pool is. */
  lemma SlotNulFree(p: Pools, s: nat)
    requires PoolsNulFree(p) && s < |AllStrings(p)|
    ensures NulFree(AllStrings(p)[s])
  {
    var (a, b, c, d) := (|p.kanji|, |p.kana|, |p.english|, |p.pos|);
    var all := AllStrings(p);
    if s < a {
      assert all[s] == p.kanji[s];
    } else if s < a + b {
      assert all[s] == p.kana[s - a];
    } else if s < a + b + c {
      assert all[s] == p.english[s - a - b];
    } else if s < a + b + c + d {
      assert all[s] == p.pos[s - a - b - c];
    } else {
      assert all[s] == p.ids[s - a - b - c - d];
    }
  }

  /** Both byte buffers are small enough that no offset cast to u32 truncates. */
  predicate Fits(rs: seq<Record>, p: Pools) {
    |PoolBytes(AllStrings(p))| < U32_LIMIT && |EntryBlob(rs, p)| < U32_LIMIT
  }

  lemma {:induction false} PoolBytesPrefix(strs: seq<seq<byte>>, k: nat)
    requires k < |strs|
    ensures PoolBytes(strs[..k]) + strs[k] + [0] <= PoolBytes(strs)
    decreases |strs|
  {
    var init := strs[..|strs| - 1];
    if k < |strs| - 1 {
      assert init[..k] == strs[..k] && init[k] == strs[k];
      PoolBytesPrefix(init, k);
    } else {
      assert strs[..k] == init;
    }
  }

  /** Reading the string data at a string's offset gives back that string,
      provided the string holds no NUL. */
  lemma PoolRead(strs: seq<seq<byte>>, k: nat)
    requires k < |strs| && NulFree(strs[k])
    ensures |PoolBytes(strs[..k])| < |PoolBytes(strs)|
    ensures StringAt(PoolBytes(strs), |PoolBytes(strs[..k])|) == strs[k]
  {
    PoolBytesPrefix(strs, k);
    var d, a, s := PoolBytes(strs), |PoolBytes(strs[..k])|, strs[k];
    assert d[a..a + |s|] == s;
    assert d[a + |s|] == 0;
  }

  /** `w` sits in `d` at position `o`. */
  predicate Within(d: seq<byte>, o: nat, w: seq<byte>) {
    o + |w| <= |d| && forall t :: 0 <= t < |w| ==> d[o + t] == w[t]
  }

  /** Both halves of something that sits in `d` sit in `d`. */
  lemma WithinSplit(d: seq<byte>, o: nat, h: seq<byte>, w: seq<byte>)
    requires Within(d, o, h + w)
    ensures Within(d, o, h) && Within(d, o + |h|, w)
  {
    forall t | 0 <= t < |h| ensures d[o + t] == h[t] {
      assert (h + w)[t] == h[t];
    }
    forall t | 0 <= t < |w| ensures d[o + |h| + t] == w[t] {
      assert (h + w)[|h| + t] == w[t];
    }
  }

  /** A prefix of `d` that ends with `w` places `w` right after the rest. */
  lemma WithinPrefix(d: seq<byte>, pre: seq<byte>, w: seq<byte>)
    requires pre + w <= d
    ensures Within(d, |pre|, w)
  {
    forall t | 0 <= t < |w| ensures d[|pre| + t] == w[t] {
      assert (pre + w)[|pre| + t] == w[t];
    }
  }

  /** Little-endian values read inside something that sits in `d` are read
      the same way from `d`. */
  lemma {:induction false} LeValueWithin(d: seq<byte>, o: nat, w: seq<byte>, j: nat, n: nat)
    requires Within(d, o, w) && j + n <= |w|
    ensures LeValue(d, o + j, n) == LeValue(w, j, n)
    decreases n
  {
    if n > 0 {
      assert d[o + j] == w[j];
      LeValueWithin(d, o, w, j + 1, n - 1);
    }
  }

  lemma WithinRead(d: seq<byte>, o: nat, w: seq<byte>, j: nat)
    requires Within(d, o, w) && j + 4 <= |w|
    ensures LeU32At(d, o + j) == LeU32At(w, j)
  {
    LeValueWithin(d, o, w, j, 4);
  }

  /** A buffer that starts with the encoding of `v` reads back `v` at 0. */
  lemma ReadFirst(t: seq<byte>, rest: seq<byte>, v: u32)
    requires t == ToLeBytes(v)
    ensures LeU32At(t + rest, 0) == v
  {
    assert (t + rest)[0..4] == t;
    LeRoundTrip(t + rest, 0, v);
  }

  /** The `k`-th word of an encoded list reads back as the `k`-th value. */
  lemma LeWordsValue(vs: seq<u32>, k: nat)
    requires k < |vs|
    ensures LeU32At(LeWords(vs), 4 * k) == vs[k]
  {
    var w := LeWords(vs);
    assert w[4 * k..4 * k + 4] == ToLeBytes(vs[k]) by {
      forall t | 0 <= t < 4 ensures w[4 * k + t] == ToLeBytes(vs[k])[t] {
        assert (4 * k + t) / 4 == k && (4 * k + t) % 4 == t;
      }
    }
    LeRoundTrip(w, 4 * k, vs[k]);
  }

  /** The `k`-th word of an encoded list that sits in `d` reads back as the
      `k`-th value. */
  lemma LeWordsRead(d: seq<byte>, o: nat, vs: seq<u32>, k: nat)
    requires Within(d, o, LeWords(vs)) && k < |vs|
    ensures LeU32At(d, o + 4 * k) == vs[k]
  {
    WithinRead(d, o, LeWords(vs), 4 * k);
    LeWordsValue(vs, k);
  }

  lemma {:induction false} EntryBlobPrefix(rs: seq<Record>, p: Pools, i: nat)
    requires i < |rs|
    ensures EntryBlob(rs[..i], p) + RecordBytes(rs[i], p) <= EntryBlob(rs, p)
    decreases |rs|
  {
    var init := rs[..|rs| - 1];
    if i < |rs| - 1 {
      assert init[..i] == rs[..i] && init[i] == rs[i];
      EntryBlobPrefix(init, p, i);
    } else {
      assert rs[..i] == init;
    }
  }

  /** What the decoder reads from a record placed at `o`: the header fields
      and the slot indices. */
  lemma ReadRecord(d: seq<byte>, o: nat, r: Record, p: Pools, k: nat)
    requires SmallCounts(r) && r.id < U32_LIMIT
    requires Within(d, o, RecordBytes(r, p))
    ensures && o + HEADER_SIZE + 4 * |Slots(r, p)| <= |d|
            && LeU32At(d, o) == r.id
            && d[o + 4] == |r.kanji| && d[o + 5] == |r.kana|
            && d[o + 6] == |r.english| && d[o + 7] == |r.pos|
            && (d[o + 8] != 0 <==> r.isCommon)
            && (k < |Slots(r, p)| ==> LeU32At(d, o + HEADER_SIZE + 4 * k) == Slots(r, p)[k])
  {
    var h, w := Header(r), LeWords(Slots(r, p));
    WithinSplit(d, o, h, w);
    ReadFirst(ToLeBytes(AsU32(r.id)), h[4..], AsU32(r.id));
    assert ToLeBytes(AsU32(r.id)) + h[4..] == h;
    WithinRead(d, o, h, 0);
    assert h[4] == AsU8(|r.kanji|) && h[5] == AsU8(|r.kana|) && h[6] == AsU8(|r.english|);
    assert h[7] == AsU8(|r.pos|) && h[8] == if r.isCommon then 1 else 0;
    if k < |Slots(r, p)| {
      LeWordsRead(d, o + HEADER_SIZE, Slots(r, p), k);
    }
  }

  /** Slot `k` of a record that encodes `e` names the `k`-th string of `e`. */
  lemma SlotNames(r: Record, p: Pools, e: WordEntry<seq<byte>>, k: nat)
    requires Encodes(r, p, e) && |AllStrings(p)| < U32_LIMIT
    requires k < |Slots(r, p)|
    ensures |Slots(r, p)| == |Strings(e)|
    ensures Slots(r, p)[k] < |AllStrings(p)| - |p.ids|
    ensures AllStrings(p)[Slots(r, p)[k]] == Strings(e)[k]
  {
    var all := AllStrings(p);
    var (kc, nc, ec) := (|r.kanji|, |r.kana|, |r.english|);
    var (a, b, c) := (|p.kanji|, |p.kana|, |p.english|);
    assert KanaBase(p) == a && EnglishBase(p) == a + b && PosBase(p) == a + b + c;
    if k < kc {
      assert Slots(r, p)[k] == r.kanji[k] && Strings(e)[k] == e.kanji[k];
    } else if k < kc + nc {
      var j := k - kc;
      assert Slots(r, p)[k] == a + r.kana[j] && Strings(e)[k] == e.kana[j];
    } else if k < kc + nc + ec {
      var j := k - kc - nc;
      assert Slots(r, p)[k] == a + b + r.english[j] && Strings(e)[k] == e.english[j];
    } else {
      var j := k - kc - nc - ec;
      assert Slots(r, p)[k] == a + b + c + r.pos[j] && Strings(e)[k] == e.pos[j];
    }
  }

  /** Entry `i` of the packed data is where its record was written. */
  lemma EntryAt(rs: seq<Record>, p: Pools, i: nat)
    requires i < |rs| && Fits(rs, p)
    ensures var b := Packed(rs, p);
            && b.entryOffsets[i] == |EntryBlob(rs[..i], p)|
            && Within(b.entries, b.entryOffsets[i], RecordBytes(rs[i], p))
  {
    EntryBlobPrefix(rs, p, i);
    WithinPrefix(EntryBlob(rs, p), EntryBlob(rs[..i], p), RecordBytes(rs[i], p));
  }

  /** String slot `s` of the packed data resolves to the `s`-th interned string. */
  lemma SlotAt(rs: seq<Record>, p: Pools, s: nat)
    requires Fits(rs, p) && PoolsNulFree(p) && s < |AllStrings(p)|
    ensures SlotOk(Packed(rs, p), s)
    ensures SlotString(Packed(rs, p), s) == AllStrings(p)[s]
  {
    SlotNulFree(p, s);
    PoolRead(AllStrings(p), s);
  }

  /** Entry `i` of blob `b` is record `r` over pools `p`: its header holds the
      record's id index, counts and flag, and its string indices are the
      record's slots. */
  predicate HoldsRecord(b: Blob, i: nat, r: Record, p: Pools) {
    && i < |b.entryOffsets|
    && var off := b.entryOffsets[i];
    && off + HEADER_SIZE + 4 * |Slots(r, p)| <= |b.entries|
    && LeU32At(b.entries, off) == r.id
    && b.entries[off + 4] == |r.kanji| && b.entries[off + 5] == |r.kana|
    && b.entries[off + 6] == |r.english| && b.entries[off + 7] == |r.pos|
    && (b.entries[off + 8] != 0 <==> r.isCommon)
    && forall k :: 0 <= k < |Slots(r, p)| ==> IndexAt(b, i, k) == Slots(r, p)[k]
  }

  /** Every string slot of blob `b` resolves to the interned string it stands
      for, and the category sizes are those of the pools. */
  predicate HoldsStrings(b: Blob, p: Pools) {
    && b.kanjiStrings == |p.kanji| && b.kanaStrings == |p.kana|
    && b.englishStrings == |p.english| && b.posStrings == |p.pos|
    && forall s :: 0 <= s < |AllStrings(p)| ==> SlotOk(b, s) && SlotString(b, s) == AllStrings(p)[s]
  }

  lemma PackedRecord(rs: seq<Record>, p: Pools, i: nat)
    requires i < |rs| && SmallCounts(rs[i]) && rs[i].id < U32_LIMIT && Fits(rs, p)
    ensures HoldsRecord(Packed(rs, p), i, rs[i], p)
  {
    EntryAt(rs, p, i);
    HoldsRecordIntro(Packed(rs, p), i, rs[i], p);
  }

  /** A blob whose entry `i` starts the bytes of record `r` holds `r` there. */
  lemma HoldsRecordIntro(b: Blob, i: nat, r: Record, p: Pools)
    requires i < |b.entryOffsets| && SmallCounts(r) && r.id < U32_LIMIT
    requires Within(b.entries, b.entryOffsets[i], RecordBytes(r, p))
    ensures HoldsRecord(b, i, r, p)
  {
    ReadRecord(b.entries, b.entryOffsets[i], r, p, 0);
    forall k | 0 <= k < |Slots(r, p)| ensures IndexAt(b, i, k) == Slots(r, p)[k] {
      ReadRecord(b.entries, b.entryOffsets[i], r, p, k);
    }
  }

  lemma PackedStrings(rs: seq<Record>, p: Pools)
    requires Fits(rs, p) && PoolsNulFree(p)
    ensures HoldsStrings(Packed(rs, p), p)
  {
    forall s | 0 <= s < |AllStrings(p)|
      ensures SlotOk(Packed(rs, p), s) && SlotString(Packed(rs, p), s) == AllStrings(p)[s]
    {
      SlotAt(rs, p, s);
    }
  }

  /** A blob that holds a record encoding `e` is well formed for the decoder
      at that entry, and its string indices name the strings of `e`. */
  lemma HoldsValid(b: Blob, i: nat, r: Record, p: Pools, e: WordEntry<seq<byte>>)
    requires HoldsRecord(b, i, r, p) && HoldsStrings(b, p)
    requires Encodes(r, p, e) && |AllStrings(p)| < U32_LIMIT
    ensures ValidEntry(b, i)
    ensures IndexCount(b.entries, b.entryOffsets[i]) == |Strings(e)|
    ensures forall k :: 0 <= k < |Strings(e)| ==> SlotString(b, IndexAt(b, i, k)) == Strings(e)[k]
  {
    var off := b.entryOffsets[i];
    assert |Strings(e)| == |Slots(r, p)| == IndexCount(b.entries, off);
    forall k | 0 <= k < |Strings(e)|
      ensures SlotOk(b, IndexAt(b, i, k)) && SlotString(b, IndexAt(b, i, k)) == Strings(e)[k]
    {
      SlotNames(r, p, e, k);
    }
    assert SlotOk(b, IdBase(b) + r.id) by {
      assert IdBase(b) + r.id == |AllStrings(p)| - |p.ids| + r.id;
    }
  }

  /** The strings the decoder reads, in record order, are those of `e`. */
  lemma HoldsStringsOf(b: Blob, i: nat, r: Record, p: Pools, e: WordEntry<seq<byte>>)
    requires HoldsRecord(b, i, r, p) && HoldsStrings(b, p)
    requires Encodes(r, p, e) && |AllStrings(p)| < U32_LIMIT
    ensures ValidEntry(b, i)
    ensures Strings(DecodeEntry(b, i)) == Strings(e)
  {
    HoldsValid(b, i, r, p, e);
    var d := DecodeEntry(b, i);
    forall k | 0 <= k < |Strings(e)|
      ensures Strings(d)[k] == Strings(e)[k]
    {
      DecodeLayout(b, i, k);
    }
  }

  /** A blob that holds a record encoding `e` decodes to `e` at that entry. */
  lemma HoldsDecode(b: Blob, i: nat, r: Record, p: Pools, e: WordEntry<seq<byte>>)
    requires HoldsRecord(b, i, r, p) && HoldsStrings(b, p)
    requires Encodes(r, p, e) && |AllStrings(p)| < U32_LIMIT
    ensures ValidEntry(b, i)
    ensures DecodeEntry(b, i) == e
  {
    HoldsStringsOf(b, i, r, p, e);
    var d := DecodeEntry(b, i);
    assert d.id == e.id by {
      assert IdBase(b) + r.id == |AllStrings(p)| - |p.ids| + r.id;
    }
    SameStrings(d, e);
  }

  /** The round trip: the decoder reads entry `i` of the packed data back as
      the entry its record encodes, as long as no cast truncates and no string
      holds a NUL. */
  lemma PackedRoundTrip(rs: seq<Record>, p: Pools, i: nat, e: WordEntry<seq<byte>>)
    requires i < |rs| && Encodes(rs[i], p, e) && SmallCounts(rs[i])
    requires Fits(rs, p) && PoolsNulFree(p)
    ensures ValidEntry(Packed(rs, p), i)
    ensures DecodeEntry(Packed(rs, p), i) == e
  {
    PackedRecord(rs, p, i);
    PackedStrings(rs, p);
    HoldsDecode(Packed(rs, p), i, rs[i], p, e);
  }

  /** Entries with equal category sizes and equal strings in record order are equal
      in every category. */
  lemma SameStrings(d: WordEntry<seq<byte>>, e: WordEntry<seq<byte>>)
    requires Strings(d) == Strings(e)
    requires |d.kanji| == |e.kanji| && |d.kana| == |e.kana| && |d.english| == |e.english|
    requires d.id == e.id && d.isCommon == e.isCommon
    ensures d == e
  {
    var (kc, nc, ec) := (|d.kanji|, |d.kana|, |d.english|);
    assert d.kanji == Strings(d)[..kc] && e.kanji == Strings(e)[..kc];
    assert d.kana == Strings(d)[kc..kc + nc] && e.kana == Strings(e)[kc..kc + nc];
    assert d.english == Strings(d)[kc + nc..kc + nc + ec] && e.english == Strings(e)[kc + nc..kc + nc + ec];
    assert d.pos == Strings(d)[kc + nc + ec..] && e.pos == Strings(e)[kc + nc + ec..];
  }
}

=== FILE: packer.dfy ===
/** The dictionary generator: orders the JMdict words common-first, interns
    every string a word needs into five pools and turns each word into a
    record of pool indices, then packs the pools and the records into the
    byte layout of `PackLayout`. */
module Packer {
  import opened Wrappers
  import opened Bytes
  import opened Dictionary
  import opened PackLayout

  /** A kanji or kana element of a word (`KanjiEntry` and `KanaEntry` have the
      same fields the generator reads). */
  datatype Form = Form(text: seq<byte>, common: Option<bool>)

  datatype Gloss = Gloss(lang: seq<byte>, text: seq<byte>)

  datatype Sense = Sense(gloss: seq<Gloss>, partOfSpeech: Option<seq<seq<byte>>>)

  /** A parsed JMdict word. */
  datatype Word = Word(id: seq<byte>, kanji: Option<seq<Form>>, kana: seq<Form>, sense: seq<Sense>)

  /** The language tag `"eng"`. */
  const ENG: seq<byte> := [0x65, 0x6E, 0x67]

  /** `common.unwrap_or(false)`. */
  predicate Flagged(f: Form) {
    f.common == Some(true)
  }

  predicate AnyFlagged(fs: seq<Form>) {
    exists i :: 0 <= i < |fs| && Flagged(fs[i])
  }

  /** The kanji elements of a word; a word without kanji has none. */
  function KanjiForms(w: Word): seq<Form> {
    if w.kanji.Some? then w.kanji.value else []
  }

  /** A word is common when one of its kanji or kana elements is flagged. */
  predicate IsCommon(w: Word) {
    AnyFlagged(KanjiForms(w)) || AnyFlagged(w.kana)
  }

  function Texts(fs: seq<Form>): seq<seq<byte>> {
    seq(|fs|, i requires 0 <= i < |fs| => fs[i].text)
  }

  /** The texts of the English glosses of one sense, in order. */
  function EnglishGlosses(gs: seq<Gloss>): seq<seq<byte>> {
    if gs == [] then []
    else EnglishGlosses(gs[..|gs| - 1]) + (if gs[|gs| - 1].lang == ENG then [gs[|gs| - 1].text] else [])
  }

  /** The texts of the English glosses of all senses, sense by sense. */
  function EnglishTexts(ss: seq<Sense>): seq<seq<byte>> {
    if ss == [] then [] else EnglishTexts(ss[..|ss| - 1]) + EnglishGlosses(ss[|ss| - 1].gloss)
  }

  /** The part-of-speech list of a sense; an absent one is empty. */
  function PosOf(s: Sense): seq<seq<byte>> {
    if s.partOfSpeech.Some? then s.partOfSpeech.value else []
  }

  /** The part-of-speech tags a word keeps: a sense contributes its list only
      while nothing has been collected yet. */
  function FirstPos(ss: seq<Sense>): seq<seq<byte>> {
    if ss == [] then []
    else
      var prev := FirstPos(ss[..|ss| - 1]);
      if prev == [] then PosOf(ss[|ss| - 1]) else prev
  }

  /** The entry the decoder should read back for word `w`. */
  function Expected(w: Word): WordEntry<seq<byte>> {
    WordEntry(w.id, Texts(KanjiForms(w)), Texts(w.kana), EnglishTexts(w.sense), FirstPos(w.sense), IsCommon(w))
  }

  /** A gloss text is kept exactly when some English gloss of some sense has it. */
  lemma {:induction false} EnglishTextsMember(ss: seq<Sense>, x: seq<byte>)
    ensures x in EnglishTexts(ss) <==>
            exists i, j :: 0 <= i < |ss| && 0 <= j < |ss[i].gloss| && ss[i].gloss[j].lang == ENG && ss[i].gloss[j].text == x
    decreases |ss|
  {
    if ss != [] {
      var init, last := ss[..|ss| - 1], ss[|ss| - 1];
      EnglishTextsMember(init, x);
      EnglishGlossesMember(last.gloss, x);
      if x in EnglishTexts(init) {
        var i, j :| 0 <= i < |init| && 0 <= j < |init[i].gloss| && init[i].gloss[j].lang == ENG && init[i].gloss[j].text == x;
        assert ss[i] == init[i];
      }
      if exists i, j :: 0 <= i < |ss| && 0 <= j < |ss[i].gloss| && ss[i].gloss[j].lang == ENG && ss[i].gloss[j].text == x {
        var i, j :| 0 <= i < |ss| && 0 <= j < |ss[i].gloss| && ss[i].gloss[j].lang == ENG && ss[i].gloss[j].text == x;
        if i < |init| {
          assert init[i] == ss[i];
        }
      }
    }
  }

  lemma {:induction false} EnglishGlossesMember(gs: seq<Gloss>, x: seq<byte>)
    ensures x in EnglishGlosses(gs) <==> exists j :: 0 <= j < |gs| && gs[j].lang == ENG && gs[j].text == x
    decreases |gs|
  {
    if gs != [] {
      var init := gs[..|gs| - 1];
      EnglishGlossesMember(init, x);
      if exists j :: 0 <= j < |gs| && gs[j].lang == ENG && gs[j].text == x {
        var j :| 0 <= j < |gs| && gs[j].lang == ENG && gs[j].text == x;
        if j < |init| {
          assert init[j] == gs[j];
        }
      }
      if x in EnglishGlosses(init) {
        var j :| 0 <= j < |init| && init[j].lang == ENG && init[j].text == x;
        assert gs[j] == init[j];
      }
    }
  }

  /** A word gets no part-of-speech tags exactly when no sense has any. */
  lemma {:induction false} FirstPosEmpty(ss: seq<Sense>)
    ensures FirstPos(ss) == [] <==> forall i :: 0 <= i < |ss| ==> PosOf(ss[i]) == []
    decreases |ss|
  {
    if ss != [] {
      var init := ss[..|ss| - 1];
      FirstPosEmpty(init);
      assert forall i :: 0 <= i < |init| ==> init[i] == ss[i];
    }
  }

  /** Otherwise it gets the whole list of the first sense that has one. */
  lemma {:induction false} FirstPosFirst(ss: seq<Sense>, i: nat)
    requires i < |ss| && PosOf(ss[i]) != []
    requires forall j :: 0 <= j < i ==> PosOf(ss[j]) == []
    ensures FirstPos(ss) == PosOf(ss[i])
    decreases |ss|
  {
    var init := ss[..|ss| - 1];
    if i < |init| {
      assert init[i] == ss[i];
      FirstPosFirst(init, i);
    } else {
      FirstPosEmpty(init);
      assert forall j :: 0 <= j < |init| ==> init[j] == ss[j];
    }
  }

  /** The words with the given common status, in their original order. */
  function Select(ws: seq<Word>, common: bool): (r: seq<Word>)
    ensures |r| <= |ws|
  {
    if ws == [] then []
    else Select(ws[..|ws| - 1], common) + (if IsCommon(ws[|ws| - 1]) == common then [ws[|ws| - 1]] else [])
  }

  /** `sort_by_key(|w| !is_common(w))`: a stable sort on a boolean key puts the
      common words first and keeps the order within each group. */
  function CommonFirst(ws: seq<Word>): (r: seq<Word>)
    ensures |r| == |ws|
  {
    SelectLength(ws);
    Select(ws, true) + Select(ws, false)
  }

  lemma {:induction false} SelectStatus(ws: seq<Word>, common: bool)
    ensures forall i :: 0 <= i < |Select(ws, common)| ==> IsCommon(Select(ws, common)[i]) == common
    decreases |ws|
  {
    if ws != [] {
      SelectStatus(ws[..|ws| - 1], common);
    }
  }

  lemma {:induction false} SelectSplit(ws: seq<Word>)
    ensures multiset(Select(ws, true)) + multiset(Select(ws, false)) == multiset(ws)
    decreases |ws|
  {
    if ws != [] {
      var init := ws[..|ws| - 1];
      SelectSplit(init);
      assert ws == init + [ws[|ws| - 1]];
    }
  }

  /** Reordering keeps every word, as often as it occurs. */
  lemma CommonFirstPermutes(ws: seq<Word>)
    ensures multiset(CommonFirst(ws)) == multiset(ws)
  {
    SelectSplit(ws);
  }

  /** After reordering no common word follows a word that is not common. */
  lemma CommonFirstOrdered(ws: seq<Word>)
    ensures forall i, j :: 0 <= i < j < |CommonFirst(ws)| && IsCommon(CommonFirst(ws)[j]) ==> IsCommon(CommonFirst(ws)[i])
  {
    SelectStatus(ws, true);
    SelectStatus(ws, false);
    var c := Select(ws, true);
    var r := CommonFirst(ws);
    assert forall i :: 0 <= i < |c| ==> r[i] == c[i];
    assert forall i :: |c| <= i < |r| ==> r[i] == Select(ws, false)[i - |c|];
  }

  /** Within each group the words keep their relative order. */
  lemma CommonFirstStable(ws: seq<Word>)
    ensures Select(CommonFirst(ws), true) == Select(ws, true)
    ensures Select(CommonFirst(ws), false) == Select(ws, false)
  {
    var c, n := Select(ws, true), Select(ws, false);
    SelectStatus(ws, true);
    SelectStatus(ws, false);
    SelectAppend(c, n, true);
    SelectAppend(c, n, false);
    SelectAll(c, true);
    SelectAll(n, false);
    SelectNone(c, false);
    SelectNone(n, true);
  }

  lemma {:induction false} SelectLength(ws: seq<Word>)
    ensures |Select(ws, true)| + |Select(ws, false)| == |ws|
    decreases |ws|
  {
    if ws != [] {
      SelectLength(ws[..|ws| - 1]);
    }
  }

  lemma {:induction false} SelectAppend(a: seq<Word>, b: seq<Word>, common: bool)
    ensures Select(a + b, common) == Select(a, common) + Select(b, common)
    decreases |b|
  {
    if b == [] {
      assert a + b == a;
    } else {
      var init := b[..|b| - 1];
      assert (a + b)[..|a + b| - 1] == a + init;
      SelectAppend(a, init, common);
    }
  }

  lemma {:induction false} SelectAll(ws: seq<Word>, common: bool)
    requires forall i :: 0 <= i < |ws| ==> IsCommon(ws[i]) == common
    ensures Select(ws, common) == ws
    decreases |ws|
  {
    if ws != [] {
      SelectAll(ws[..|ws| - 1], common);
    }
  }

  lemma {:induction false} SelectNone(ws: seq<Word>, common: bool)
    requires forall i :: 0 <= i < |ws| ==> IsCommon(ws[i]) != common
    ensures Select(ws, common) == []
    decreases |ws|
  {
    if ws != [] {
      SelectNone(ws[..|ws| - 1], common);
    }
  }

  /** `word_count`: a positive limit caps the number of words packed, zero
      means no limit. */
  function WordCount(limit: nat, n: nat): (count: nat)
    ensures limit == 0 ==> count == n
    ensures limit > 0 ==> count <= limit && count <= n && (count == limit || count == n)
  {
    if limit > 0 && limit < n then limit else n
  }

  /** The state `get_or_insert` works on: the map from each pooled string to
      its index and the list of pooled strings, each index naming its string. */
  predicate Interned(pool: map<seq<byte>, nat>, strings: seq<seq<byte>>) {
    && (forall s :: s in pool ==> pool[s] < |strings| && strings[pool[s]] == s)
    && (forall i :: 0 <= i < |strings| ==> strings[i] in pool && pool[strings[i]] == i)
  }

  /** A pool never holds the same string twice. */
  lemma InternedDistinct(pool: map<seq<byte>, nat>, strings: seq<seq<byte>>, i: nat, j: nat)
    requires Interned(pool, strings) && i < j < |strings|
    ensures strings[i] != strings[j]
  {
    assert pool[strings[i]] == i && pool[strings[j]] == j;
  }

  /** No string occurs twice in the list. */
  predicate NoDup(strs: seq<seq<byte>>) {
    forall i, j :: 0 <= i < j < |strs| ==> strs[i] != strs[j]
  }

  lemma InternedNoDup(pool: map<seq<byte>, nat>, strings: seq<seq<byte>>)
    requires Interned(pool, strings)
    ensures NoDup(strings)
  {
    forall i, j | 0 <= i < j < |strings| ensures strings[i] != strings[j] {
      InternedDistinct(pool, strings, i, j);
    }
  }

  /** Every slot from `lo` up to `hi` is one of the indices `ix`. */
  predicate Covers(ix: seq<nat>, lo: nat, hi: nat) {
    forall i :: lo <= i < hi ==> i in ix
  }

  /** One of the five string pools with the list of its strings. */
  class Interner {
    var pool: map<seq<byte>, nat>
    var strings: seq<seq<byte>>

    ghost predicate Valid()
      reads this
    {
      Interned(pool, strings)
    }

    constructor ()
      ensures Valid() && pool == map[] && strings == []
    {
      pool := map[];
      strings := [];
    }

    /** `get_or_insert`: the index of `s`, appending `s` when it is new. */
    method GetOrInsert(s: seq<byte>) returns (idx: nat)
      requires Valid()
      modifies this
      ensures Valid()
      ensures idx < |strings| && strings[idx] == s
      ensures s in old(pool) ==> idx == old(pool)[s] && strings == old(strings) && pool == old(pool)
      ensures s !in old(pool) ==> idx == |old(strings)| && strings == old(strings) + [s] && pool == old(pool)[s := idx]
    {
      if s in pool {
        idx := pool[s];
      } else {
        idx := |strings|;
        pool := pool[s := idx];
        strings := strings + [s];
      }
    }
  }

  /** `b` starts with `a`. */
  predicate Extends(a: seq<seq<byte>>, b: seq<seq<byte>>) {
    |a| <= |b| && forall k :: 0 <= k < |a| ==> b[k] == a[k]
  }

  predicate PoolsExtend(p: Pools, q: Pools) {
    && Extends(p.kanji, q.kanji) && Extends(p.kana, q.kana) && Extends(p.english, q.english)
    && Extends(p.pos, q.pos) && Extends(p.ids, q.ids)
  }

  lemma NamesExtend(ix: seq<nat>, a: seq<seq<byte>>, b: seq<seq<byte>>, texts: seq<seq<byte>>)
    requires Names(ix, a, texts) && Extends(a, b)
    ensures Names(ix, b, texts)
  {
  }

  lemma NamesSnoc(ix: seq<nat>, a: seq<seq<byte>>, b: seq<seq<byte>>, texts: seq<seq<byte>>, k: nat)
    requires Names(ix, a, texts) && Extends(a, b) && k < |b|
    ensures Names(ix + [k], b, texts + [b[k]])
  {
    NamesExtend(ix, a, b, texts);
  }

  lemma NamesAppend(ix: seq<nat>, jx: seq<nat>, b: seq<seq<byte>>, texts: seq<seq<byte>>, more: seq<seq<byte>>)
    requires Names(ix, b, texts) && Names(jx, b, more)
    ensures Names(ix + jx, b, texts + more)
  {
    assert forall j :: |ix| <= j < |ix + jx| ==> (ix + jx)[j] == jx[j - |ix|] && (texts + more)[j] == more[j - |ix|];
  }

  /** A record that names its strings in some pools names them in any
      extension of those pools. */
  lemma EncodesExtend(r: Record, p: Pools, q: Pools, e: WordEntry<seq<byte>>)
    requires Encodes(r, p, e) && PoolsExtend(p, q)
    ensures Encodes(r, q, e)
  {
    NamesExtend(r.kanji, p.kanji, q.kanji, e.kanji);
    NamesExtend(r.kana, p.kana, q.kana, e.kana);
    NamesExtend(r.english, p.english, q.english, e.english);
    NamesExtend(r.pos, p.pos, q.pos, e.pos);
  }

  /** Interning every string of `texts` into `it`, in order. */
  method InternAll(it: Interner, texts: seq<seq<byte>>) returns (ix: seq<nat>)
    requires it.Valid()
    modifies it
    ensures it.Valid() && Extends(old(it.strings), it.strings)
    ensures Names(ix, it.strings, texts)
    ensures Covers(ix, |old(it.strings)|, |it.strings|)
    ensures AllNulFree(texts) && AllNulFree(old(it.strings)) ==> AllNulFree(it.strings)
  {
    ix := [];
    for j := 0 to |texts|
      invariant it.Valid() && Extends(old(it.strings), it.strings)
      invariant Names(ix, it.strings, texts[..j])
      invariant Covers(ix, |old(it.strings)|, |it.strings|)
      invariant AllNulFree(texts) && AllNulFree(old(it.strings)) ==> AllNulFree(it.strings)
    {
      ghost var before := it.strings;
      var k := it.GetOrInsert(texts[j]);
      NamesSnoc(ix, before, it.strings, texts[..j], k);
      assert texts[..j + 1] == texts[..j] + [texts[j]];
      ix := ix + [k];
    }
    assert texts[..|texts|] == texts;
  }

  /** The kanji loop and the kana loop of the per-word pass: interns each
      element's text and notes whether any element is flagged common. */
  method InternForms(it: Interner, fs: seq<Form>) returns (ix: seq<nat>, common: bool)
    requires it.Valid()
    modifies it
    ensures it.Valid() && Extends(old(it.strings), it.strings)
    ensures Names(ix, it.strings, Texts(fs))
    ensures Covers(ix, |old(it.strings)|, |it.strings|)
    ensures common == AnyFlagged(fs)
    ensures AllNulFree(Texts(fs)) && AllNulFree(old(it.strings)) ==> AllNulFree(it.strings)
  {
    ix, common := [], false;
    for j := 0 to |fs|
      invariant it.Valid() && Extends(old(it.strings), it.strings)
      invariant Names(ix, it.strings, Texts(fs)[..j])
      invariant Covers(ix, |old(it.strings)|, |it.strings|)
      invariant common <==> exists t :: 0 <= t < j && Flagged(fs[t])
      invariant AllNulFree(Texts(fs)) && AllNulFree(old(it.strings)) ==> AllNulFree(it.strings)
    {
      ghost var before := it.strings;
      assert Texts(fs)[j] == fs[j].text;
      var k := it.GetOrInsert(fs[j].text);
      NamesSnoc(ix, before, it.strings, Texts(fs)[..j], k);
      assert Texts(fs)[..j + 1] == Texts(fs)[..j] + [fs[j].text];
      ix := ix + [k];
      if fs[j].common == Some(true) {
        common := true;
      }
    }
    assert Texts(fs)[..|fs|] == Texts(fs);
  }

  lemma AllNulFreeAppend(a: seq<seq<byte>>, b: seq<seq<byte>>)
    ensures AllNulFree(a + b) <==> AllNulFree(a) && AllNulFree(b)
  {
    assert forall k :: 0 <= k < |a| ==> (a + b)[k] == a[k];
    assert forall k :: 0 <= k < |b| ==> (a + b)[|a| + k] == b[k];
  }

  /** The gloss loop of one sense: interns the text of every English gloss. */
  method InternEnglish(it: Interner, gs: seq<Gloss>) returns (ix: seq<nat>)
    requires it.Valid()
    modifies it
    ensures it.Valid() && Extends(old(it.strings), it.strings)
    ensures Names(ix, it.strings, EnglishGlosses(gs))
    ensures Covers(ix, |old(it.strings)|, |it.strings|)
    ensures AllNulFree(EnglishGlosses(gs)) && AllNulFree(old(it.strings)) ==> AllNulFree(it.strings)
  {
    ix := [];
    for j := 0 to |gs|
      invariant it.Valid() && Extends(old(it.strings), it.strings)
      invariant Names(ix, it.strings, EnglishGlosses(gs[..j]))
      invariant Covers(ix, |old(it.strings)|, |it.strings|)
      invariant AllNulFree(EnglishGlosses(gs[..j])) && AllNulFree(old(it.strings)) ==> AllNulFree(it.strings)
    {
      assert gs[..j + 1][..j] == gs[..j];
      if gs[j].lang == ENG {
        ghost var before := it.strings;
        var k := it.GetOrInsert(gs[j].text);
        NamesSnoc(ix, before, it.strings, EnglishGlosses(gs[..j]), k);
        AllNulFreeAppend(EnglishGlosses(gs[..j]), [gs[j].text]);
        ix := ix + [k];
      }
    }
    assert gs[..|gs|] == gs;
  }

  /** The sense loop: English glosses of every sense, and the part-of-speech
      list of a sense while none has been collected yet. */
  method InternSenses(english: Interner, pos: Interner, ss: seq<Sense>) returns (eix: seq<nat>, pix: seq<nat>)
    requires english != pos && english.Valid() && pos.Valid()
    modifies english, pos
    ensures english.Valid() && pos.Valid()
    ensures Extends(old(english.strings), english.strings) && Extends(old(pos.strings), pos.strings)
    ensures Names(eix, english.strings, EnglishTexts(ss))
    ensures Names(pix, pos.strings, FirstPos(ss))
    ensures Covers(eix, |old(english.strings)|, |english.strings|) && Covers(pix, |old(pos.strings)|, |pos.strings|)
    ensures AllNulFree(EnglishTexts(ss)) && AllNulFree(old(english.strings)) ==> AllNulFree(english.strings)
    ensures AllNulFree(FirstPos(ss)) && AllNulFree(old(pos.strings)) ==> AllNulFree(pos.strings)
  {
    eix, pix := [], [];
    for i := 0 to |ss|
      invariant english.Valid() && pos.Valid()
      invariant Extends(old(english.strings), english.strings) && Extends(old(pos.strings), pos.strings)
      invariant Names(eix, english.strings, EnglishTexts(ss[..i]))
      invariant Names(pix, pos.strings, FirstPos(ss[..i]))
      invariant Covers(eix, |old(english.strings)|, |english.strings|) && Covers(pix, |old(pos.strings)|, |pos.strings|)
      invariant AllNulFree(EnglishTexts(ss[..i])) && AllNulFree(old(english.strings)) ==> AllNulFree(english.strings)
      invariant AllNulFree(FirstPos(ss[..i])) && AllNulFree(old(pos.strings)) ==> AllNulFree(pos.strings)
    {
      assert ss[..i + 1][..i] == ss[..i];
      AllNulFreeAppend(EnglishTexts(ss[..i]), EnglishGlosses(ss[i].gloss));
      ghost var before := english.strings;
      var gix := InternEnglish(english, ss[i].gloss);
      NamesExtend(eix, before, english.strings, EnglishTexts(ss[..i]));
      NamesAppend(eix, gix, english.strings, EnglishTexts(ss[..i]), EnglishGlosses(ss[i].gloss));
      eix := eix + gix;
      pix := InternFirstPos(pos, pix, ss[i], ss[..i], old(pos.strings));
    }
    assert ss[..|ss|] == ss;
  }

  /** The part-of-speech step of the sense loop: the tags of sense `s` are
      interned only while none have been collected from the senses `done`
      before it. */
  method InternFirstPos(pos: Interner, pix: seq<nat>, s: Sense, ghost done: seq<Sense>, ghost start: seq<seq<byte>>)
    returns (out: seq<nat>)
    requires pos.Valid() && Names(pix, pos.strings, FirstPos(done))
    requires AllNulFree(FirstPos(done)) && AllNulFree(start) ==> AllNulFree(pos.strings)
    requires Covers(pix, |start|, |pos.strings|)
    modifies pos
    ensures pos.Valid() && Extends(old(pos.strings), pos.strings)
    ensures Names(out, pos.strings, FirstPos(done + [s]))
    ensures Covers(out, |start|, |pos.strings|)
    ensures AllNulFree(FirstPos(done + [s])) && AllNulFree(start) ==> AllNulFree(pos.strings)
  {
    assert (done + [s])[..|done|] == done;
    out := pix;
    if |pix| == 0 {
      if s.partOfSpeech.Some? {
        var more := InternAll(pos, s.partOfSpeech.value);
        out := pix + more;
      }
    }
  }

  /** No string of the entry holds a NUL byte. */
  predicate EntryNulFree(e: WordEntry<seq<byte>>) {
    NulFree(e.id) && AllNulFree(e.kanji) && AllNulFree(e.kana) && AllNulFree(e.english) && AllNulFree(e.pos)
  }

  /** Every count of the entry fits in the byte it is stored in. */
  predicate SmallEntry(e: WordEntry<seq<byte>>) {
    |e.kanji| < U8_LIMIT && |e.kana| < U8_LIMIT && |e.english| < U8_LIMIT && |e.pos| < U8_LIMIT
  }

  /** The five pools are five different objects. */
  predicate Separate(kanji: Interner, kana: Interner, english: Interner, pos: Interner, ids: Interner) {
    && kanji != kana && kanji != english && kanji != pos && kanji != ids
    && kana != english && kana != pos && kana != ids
    && english != pos && english != ids && pos != ids
  }

  function PoolsOf(kanji: Interner, kana: Interner, english: Interner, pos: Interner, ids: Interner): Pools
    reads kanji, kana, english, pos, ids
  {
    Pools(kanji.strings, kana.strings, english.strings, pos.strings, ids.strings)
  }

  /** The indices of record `r`, category by category in the order of
      `Categories`; the id is one index into the id pool. */
  function RecordSlots(r: Record): seq<seq<nat>> {
    [r.kanji, r.kana, r.english, r.pos, [r.id]]
  }

  /** Every string that `q` holds beyond `p` is named by record `r`. */
  predicate NamesAdded(r: Record, p: Pools, q: Pools) {
    forall c :: 0 <= c < 5 ==> Covers(RecordSlots(r)[c], |Categories(p)[c]|, |Categories(q)[c]|)
  }

  /** Slot `i` of category `c` is named by some record. */
  predicate SlotNamed(rs: seq<Record>, c: nat, i: nat)
    requires c < 5
  {
    exists k :: 0 <= k < |rs| && i in RecordSlots(rs[k])[c]
  }

  /** Every pooled string is named by some record. */
  predicate NamedBy(rs: seq<Record>, p: Pools) {
    forall c: nat, i: nat :: c < 5 && i < |Categories(p)[c]| ==> SlotNamed(rs, c, i)
  }

  /** A record naming the strings of each pool beyond `p` in `q`. */
  lemma NamesAddedOf(r: Record, p: Pools, q: Pools)
    requires Covers(r.kanji, |p.kanji|, |q.kanji|) && Covers(r.kana, |p.kana|, |q.kana|)
    requires Covers(r.english, |p.english|, |q.english|) && Covers(r.pos, |p.pos|, |q.pos|)
    requires Covers([r.id], |p.ids|, |q.ids|)
    ensures NamesAdded(r, p, q)
  {
  }

  /** The pools hold no string twice. */
  predicate PoolsDistinct(p: Pools) {
    NoDup(p.kanji) && NoDup(p.kana) && NoDup(p.english) && NoDup(p.pos) && NoDup(p.ids)
  }

  /** A record that names every string its word added keeps every pooled
      string named. */
  lemma NamedBySnoc(rs: seq<Record>, p: Pools, q: Pools, r: Record)
    requires NamedBy(rs, p) && PoolsExtend(p, q) && NamesAdded(r, p, q)
    ensures NamedBy(rs + [r], q)
  {
    var rs' := rs + [r];
    forall c: nat, i: nat | c < 5 && i < |Categories(q)[c]|
      ensures SlotNamed(rs', c, i)
    {
      if i < |Categories(p)[c]| {
        assert SlotNamed(rs, c, i);
        var k :| 0 <= k < |rs| && i in RecordSlots(rs[k])[c];
        assert rs'[k] == rs[k];
      } else {
        assert Covers(RecordSlots(r)[c], |Categories(p)[c]|, |Categories(q)[c]|);
        assert i in RecordSlots(rs'[|rs|])[c];
      }
    }
  }

  /** The strings of entry `e`, category by category in the order of
      `Categories`. */
  function EntrySlots(e: WordEntry<seq<byte>>): seq<seq<seq<byte>>> {
    [e.kanji, e.kana, e.english, e.pos, [e.id]]
  }

  /** `x` is a string of category `c` of one of the words `ws`. */
  predicate StringOfWords(ws: seq<Word>, c: nat, x: seq<byte>)
    requires c < 5
  {
    exists k :: 0 <= k < |ws| && x in EntrySlots(Expected(ws[k]))[c]
  }

  /** A record encoding `e` points, in each category, at the strings of `e`. */
  lemma EncodesSlots(r: Record, p: Pools, e: WordEntry<seq<byte>>, c: nat, j: nat)
    requires Encodes(r, p, e) && c < 5 && j < |RecordSlots(r)[c]|
    ensures j < |EntrySlots(e)[c]|
    ensures RecordSlots(r)[c][j] < |Categories(p)[c]|
    ensures Categories(p)[c][RecordSlots(r)[c][j]] == EntrySlots(e)[c][j]
  {
  }

  /** When the records encode the words and name every pooled string, each
      pool holds only strings of those words: with `PoolsDistinct`, each pool
      is the words' strings of that category, each once. */
  lemma PooledStringsOfWords(rs: seq<Record>, p: Pools, ws: seq<Word>)
    requires |rs| == |ws| && NamedBy(rs, p)
    requires forall k :: 0 <= k < |rs| ==> Encodes(rs[k], p, Expected(ws[k]))
    ensures forall c: nat, i: nat :: c < 5 && i < |Categories(p)[c]| ==> StringOfWords(ws, c, Categories(p)[c][i])
  {
    forall c: nat, i: nat | c < 5 && i < |Categories(p)[c]|
      ensures StringOfWords(ws, c, Categories(p)[c][i])
    {
      assert SlotNamed(rs, c, i);
      var k :| 0 <= k < |rs| && i in RecordSlots(rs[k])[c];
      var j :| 0 <= j < |RecordSlots(rs[k])[c]| && RecordSlots(rs[k])[c][j] == i;
      EncodesSlots(rs[k], p, Expected(ws[k]), c, j);
      assert Categories(p)[c][i] in EntrySlots(Expected(ws[k]))[c];
    }
  }

  /** The body of the word loop: interns the id, the kanji and kana texts,
      the English glosses and the part-of-speech tags of `w`, and builds the
      record of their indices and the word's common flag. */
  method CollectRecord(w: Word, kanji: Interner, kana: Interner, english: Interner, pos: Interner, ids: Interner)
    returns (r: Record)
    requires Separate(kanji, kana, english, pos, ids)
    requires kanji.Valid() && kana.Valid() && english.Valid() && pos.Valid() && ids.Valid()
    modifies kanji, kana, english, pos, ids
    ensures kanji.Valid() && kana.Valid() && english.Valid() && pos.Valid() && ids.Valid()
    ensures PoolsExtend(old(PoolsOf(kanji, kana, english, pos, ids)), PoolsOf(kanji, kana, english, pos, ids))
    ensures Encodes(r, PoolsOf(kanji, kana, english, pos, ids), Expected(w))
    ensures NamesAdded(r, old(PoolsOf(kanji, kana, english, pos, ids)), PoolsOf(kanji, kana, english, pos, ids))
    ensures EntryNulFree(Expected(w)) && PoolsNulFree(old(PoolsOf(kanji, kana, english, pos, ids)))
            ==> PoolsNulFree(PoolsOf(kanji, kana, english, pos, ids))
  {
    ghost var before := PoolsOf(kanji, kana, english, pos, ids);
    var idIdx := ids.GetOrInsert(w.id);
    assert Covers([idIdx], |before.ids|, |ids.strings|);
    var kanjiIx: seq<nat>, kanjiCommon := [], false;
    if w.kanji.Some? {
      kanjiIx, kanjiCommon := InternForms(kanji, w.kanji.value);
    }
    assert Covers(kanjiIx, |before.kanji|, |kanji.strings|);
    var kanaIx, kanaCommon := InternForms(kana, w.kana);
    assert Covers(kanaIx, |before.kana|, |kana.strings|);
    var englishIx, posIx := InternSenses(english, pos, w.sense);
    r := Record(idIdx, kanjiIx, kanaIx, englishIx, posIx, kanjiCommon || kanaCommon);
    NamesAddedOf(r, before, PoolsOf(kanji, kana, english, pos, ids));
  }

  /** Appending one string to the pool appends it and its NUL to the data and
      its start to the offsets. */
  lemma PoolSnoc(strs: seq<seq<byte>>, s: seq<byte>)
    ensures PoolBytes(strs + [s]) == PoolBytes(strs) + s + [0]
    ensures PoolOffsets(strs + [s]) == PoolOffsets(strs) + [AsU32(|PoolBytes(strs)|)]
  {
    var all := strs + [s];
    assert all[..|strs|] == strs;
    forall k | 0 <= k < |strs| ensures PoolOffsets(all)[k] == PoolOffsets(strs)[k] {
      assert all[..k] == strs[..k];
    }
  }

  /** The string-pool loops: every string of every category, in slot order,
      followed by a NUL, with its start recorded as a u32. */
  method PackStrings(p: Pools) returns (data: seq<byte>, offsets: seq<u32>)
    ensures data == PoolBytes(AllStrings(p)) && offsets == PoolOffsets(AllStrings(p))
  {
    var categories := Categories(p);
    data, offsets := [], [];
    assert categories[..0] == [];
    for c := 0 to |categories|
      invariant data == PoolBytes(Joined(categories[..c])) && offsets == PoolOffsets(Joined(categories[..c]))
    {
      data, offsets := AppendStrings(data, offsets, Joined(categories[..c]), categories[c]);
      assert categories[..c + 1][..c] == categories[..c];
    }
    assert categories[..|categories|] == categories;
    JoinedCategories(p);
  }

  /** The inner loop over one category's strings. */
  method AppendStrings(data: seq<byte>, offsets: seq<u32>, ghost done: seq<seq<byte>>, strs: seq<seq<byte>>)
    returns (data': seq<byte>, offsets': seq<u32>)
    requires data == PoolBytes(done) && offsets == PoolOffsets(done)
    ensures data' == PoolBytes(done + strs) && offsets' == PoolOffsets(done + strs)
  {
    data', offsets' := data, offsets;
    assert done + strs[..0] == done;
    for j := 0 to |strs|
      invariant data' == PoolBytes(done + strs[..j]) && offsets' == PoolOffsets(done + strs[..j])
    {
      PoolSnoc(done + strs[..j], strs[j]);
      assert (done + strs[..j]) + [strs[j]] == done + strs[..j + 1];
      offsets' := offsets' + [AsU32(|data'|)];
      data' := data' + strs[j] + [0];
    }
    assert strs[..|strs|] == strs;
  }

  /** Encoding a concatenation encodes each part in turn. */
  lemma LeWordsAppend(a: seq<u32>, b: seq<u32>)
    ensures LeWords(a + b) == LeWords(a) + LeWords(b)
  {
    var l, r := LeWords(a + b), LeWords(a) + LeWords(b);
    forall i | 0 <= i < |l| ensures l[i] == r[i] {
      if i < 4 * |a| {
        assert (a + b)[i / 4] == a[i / 4];
      } else {
        var t := i - 4 * |a|;
        assert i / 4 == |a| + t / 4 && i % 4 == t % 4;
        assert (a + b)[i / 4] == b[t / 4];
      }
    }
  }

  lemma LeWordsSingle(v: u32)
    ensures LeWords([v]) == ToLeBytes(v)
  {
    forall i | 0 <= i < 4 ensures LeWords([v])[i] == ToLeBytes(v)[i] {
      assert i / 4 == 0 && i % 4 == i;
    }
  }

  /** One of the four index loops of a record: the u32 sum `base + idx` of
      every index, little-endian, appended to `data`. */
  method AppendIndices(data: seq<byte>, ix: seq<nat>, base: u32) returns (out: seq<byte>)
    ensures out == data + LeWords(Shifted(ix, base))
  {
    out := data;
    for j := 0 to |ix|
      invariant out == data + LeWords(Shifted(ix, base)[..j])
    {
      var v := AsU32(base + ix[j]);
      assert Shifted(ix, base)[..j + 1] == Shifted(ix, base)[..j] + [v];
      LeWordsAppend(Shifted(ix, base)[..j], [v]);
      LeWordsSingle(v);
      out := out + ToLeBytes(v);
    }
    assert Shifted(ix, base)[..|ix|] == Shifted(ix, base);
  }

  /** Appending one record appends its bytes to the data and its start to
      the offsets. */
  lemma EntrySnoc(rs: seq<Record>, r: Record, p: Pools)
    ensures EntryBlob(rs + [r], p) == EntryBlob(rs, p) + RecordBytes(r, p)
    ensures EntryOffsets(rs + [r], p) == EntryOffsets(rs, p) + [AsU32(|EntryBlob(rs, p)|)]
  {
    var all := rs + [r];
    assert all[..|rs|] == rs;
    forall i | 0 <= i < |rs| ensures EntryOffsets(all, p)[i] == EntryOffsets(rs, p)[i] {
      assert all[..i] == rs[..i];
    }
  }

  /** The record bytes after the header are the four categories' encoded
      slots one after another. */
  lemma SlotBytes(r: Record, p: Pools)
    ensures LeWords(Slots(r, p)) == LeWords(Shifted(r.kanji, 0)) + LeWords(Shifted(r.kana, KanaBase(p)))
                                    + LeWords(Shifted(r.english, EnglishBase(p))) + LeWords(Shifted(r.pos, PosBase(p)))
  {
    var a, b, c, d := Shifted(r.kanji, 0), Shifted(r.kana, KanaBase(p)), Shifted(r.english, EnglishBase(p)), Shifted(r.pos, PosBase(p));
    LeWordsAppend(a + b + c, d);
    LeWordsAppend(a + b, c);
    LeWordsAppend(a, b);
  }

  /** The header writes of one record: the id index, the four counts cast
      to u8 and the common flag. */
  method AppendHeader(data: seq<byte>, r: Record) returns (out: seq<byte>)
    ensures out == data + Header(r)
  {
    out := data + ToLeBytes(AsU32(r.id));
    out := out + [AsU8(|r.kanji|)];
    out := out + [AsU8(|r.kana|)];
    out := out + [AsU8(|r.english|)];
    out := out + [AsU8(|r.pos|)];
    out := out + [if r.isCommon then 1 else 0];
  }

  /** The body of the entry loop after the offset: the header, then the
      kanji, kana, English and part-of-speech slots, each category shifted by
      the u32 sizes of the pools before it. */
  method AppendRecord(data: seq<byte>, r: Record, p: Pools) returns (out: seq<byte>)
    ensures out == data + RecordBytes(r, p)
  {
    out := AppendHeader(data, r);
    ghost var o1 := out;
    var kanjiBase: u32 := 0;
    var kanaBase := AsU32(|p.kanji|);
    var englishBase := AsU32(kanaBase + AsU32(|p.kana|));
    var posBase := AsU32(englishBase + AsU32(|p.english|));
    out := AppendIndices(out, r.kanji, kanjiBase);
    ghost var o2 := out;
    out := AppendIndices(out, r.kana, kanaBase);
    ghost var o3 := out;
    out := AppendIndices(out, r.english, englishBase);
    ghost var o4 := out;
    out := AppendIndices(out, r.pos, posBase);
    RecordAssembled(data, r, p, o1, o2, o3, o4, out);
  }

  /** The five appends of `AppendRecord` add up to the record's bytes. */
  lemma RecordAssembled(data: seq<byte>, r: Record, p: Pools, o1: seq<byte>, o2: seq<byte>, o3: seq<byte>, o4: seq<byte>, out: seq<byte>)
    requires o1 == data + Header(r)
    requires o2 == o1 + LeWords(Shifted(r.kanji, 0))
    requires o3 == o2 + LeWords(Shifted(r.kana, KanaBase(p)))
    requires o4 == o3 + LeWords(Shifted(r.english, EnglishBase(p)))
    requires out == o4 + LeWords(Shifted(r.pos, PosBase(p)))
    ensures out == data + RecordBytes(r, p)
  {
    SlotBytes(r, p);
    Chain(data, Header(r), LeWords(Shifted(r.kanji, 0)), LeWords(Shifted(r.kana, KanaBase(p))),
          LeWords(Shifted(r.english, EnglishBase(p))), LeWords(Shifted(r.pos, PosBase(p))), o1, o2, o3, o4, out);
  }

  lemma Chain(x: seq<byte>, h: seq<byte>, a: seq<byte>, b: seq<byte>, c: seq<byte>, d: seq<byte>,
              o1: seq<byte>, o2: seq<byte>, o3: seq<byte>, o4: seq<byte>, out: seq<byte>)
    requires o1 == x + h && o2 == o1 + a && o3 == o2 + b && o4 == o3 + c && out == o4 + d
    ensures out == x + (h + (a + b + c + d))
  {
  }

  /** The entry loop: each record's start as a u32, then the record. */
  method PackEntries(rs: seq<Record>, p: Pools) returns (data: seq<byte>, offsets: seq<u32>)
    ensures data == EntryBlob(rs, p) && offsets == EntryOffsets(rs, p)
  {
    data, offsets := [], [];
    for i := 0 to |rs|
      invariant data == EntryBlob(rs[..i], p) && offsets == EntryOffsets(rs[..i], p)
    {
      EntrySnoc(rs[..i], rs[i], p);
      assert rs[..i + 1] == rs[..i] + [rs[i]];
      offsets := offsets + [AsU32(|data|)];
      data := AppendRecord(data, rs[i], p);
    }
    assert rs[..|rs|] == rs;
  }

  /** The `k`-th record over pools `p` stands for the `k`-th word, for each
      record so far. */
  predicate EncodesPrefix(rs: seq<Record>, p: Pools, ws: seq<Word>) {
    |rs| <= |ws| && forall k :: 0 <= k < |rs| ==> Encodes(rs[k], p, Expected(ws[k]))
  }

  /** The first `n` words have NUL-free strings. */
  predicate WordsNulFree(ws: seq<Word>, n: nat) {
    forall k :: 0 <= k < n && k < |ws| ==> EntryNulFree(Expected(ws[k]))
  }

  /** Records of earlier words stay valid as the pools grow. */
  lemma EncodesPrefixSnoc(rs: seq<Record>, p: Pools, q: Pools, ws: seq<Word>, r: Record)
    requires EncodesPrefix(rs, p, ws) && |rs| < |ws| && PoolsExtend(p, q) && Encodes(r, q, Expected(ws[|rs|]))
    ensures EncodesPrefix(rs + [r], q, ws)
  {
    forall k | 0 <= k < |rs| ensures Encodes((rs + [r])[k], q, Expected(ws[k])) {
      EncodesExtend(rs[k], p, q, Expected(ws[k]));
    }
  }

  /** The word loop: interns every word of `ws`, in order, into five fresh
      pools and builds its record. */
  method CollectAll(ws: seq<Word>) returns (records: seq<Record>, pools: Pools)
    ensures |records| == |ws| && EncodesPrefix(records, pools, ws)
    ensures PoolsDistinct(pools) && NamedBy(records, pools)
    ensures WordsNulFree(ws, |ws|) ==> PoolsNulFree(pools)
  {
    var kanji := new Interner();
    var kana := new Interner();
    var english := new Interner();
    var pos := new Interner();
    var ids := new Interner();
    records := [];
    assert Categories(PoolsOf(kanji, kana, english, pos, ids)) == [[], [], [], [], []];
    for i := 0 to |ws|
      invariant kanji.Valid() && kana.Valid() && english.Valid() && pos.Valid() && ids.Valid()
      invariant |records| == i && EncodesPrefix(records, PoolsOf(kanji, kana, english, pos, ids), ws)
      invariant NamedBy(records, PoolsOf(kanji, kana, english, pos, ids))
      invariant WordsNulFree(ws, i) ==> PoolsNulFree(PoolsOf(kanji, kana, english, pos, ids))
    {
      ghost var before := PoolsOf(kanji, kana, english, pos, ids);
      var r := CollectRecord(ws[i], kanji, kana, english, pos, ids);
      EncodesPrefixSnoc(records, before, PoolsOf(kanji, kana, english, pos, ids), ws, r);
      NamedBySnoc(records, before, PoolsOf(kanji, kana, english, pos, ids), r);
      records := records + [r];
    }
    pools := PoolsOf(kanji, kana, english, pos, ids);
    InternedNoDup(kanji.pool, kanji.strings);
    InternedNoDup(kana.pool, kana.strings);
    InternedNoDup(english.pool, english.strings);
    InternedNoDup(pos.pool, pos.strings);
    InternedNoDup(ids.pool, ids.strings);
  }

  /** The two packing passes: the string pool, then the entry records. */
  method Layout(records: seq<Record>, pools: Pools) returns (blob: Blob)
    ensures blob == Packed(records, pools)
  {
    var strings, stringOffsets := PackStrings(pools);
    var entries, entryOffsets := PackEntries(records, pools);
    blob := Blob(strings, stringOffsets, entries, entryOffsets, |pools.kanji|, |pools.kana|, |pools.english|, |pools.pos|);
  }

  /** The generator end to end: orders the words common-first, keeps the first
      `WordCount(limit, |words|)` of them, interns each into the five pools,
      then lays out the string pool and the entry records. Every packed
      entry decodes to the entry its word stands for, provided no string
      holds a NUL, every count fits in a byte and both buffers stay below
      4 GiB. */
  method Pack(words: seq<Word>, limit: nat) returns (blob: Blob, order: seq<Word>, records: seq<Record>, pools: Pools)
    ensures order == CommonFirst(words)[..WordCount(limit, |words|)]
    ensures |records| == |order|
    ensures forall i :: 0 <= i < |records| ==> Encodes(records[i], pools, Expected(order[i]))
    ensures blob == Packed(records, pools)
    ensures PoolsDistinct(pools) && NamedBy(records, pools)
    ensures (forall i :: 0 <= i < |order| ==> EntryNulFree(Expected(order[i]))) ==> PoolsNulFree(pools)
    ensures Fits(records, pools) && (forall i :: 0 <= i < |order| ==> EntryNulFree(Expected(order[i])) && SmallEntry(Expected(order[i])))
            ==> forall i :: 0 <= i < |order| ==> ValidEntry(blob, i) && DecodeEntry(blob, i) == Expected(order[i])
  {
    var sorted := CommonFirst(words);
    order := sorted[..WordCount(limit, |words|)];
    records, pools := CollectAll(order);
    blob := Layout(records, pools);
    if Fits(records, pools) && (forall i :: 0 <= i < |order| ==> EntryNulFree(Expected(order[i])) && SmallEntry(Expected(order[i]))) {
      PackedWords(records, pools, order);
    }
  }

  /** Every record of words whose strings are NUL-free and whose counts fit in
      a byte decodes, once packed, to the entry of its word. */
  lemma PackedWords(rs: seq<Record>, p: Pools, ws: seq<Word>)
    requires |rs| == |ws| && Fits(rs, p) && PoolsNulFree(p)
    requires forall i :: 0 <= i < |ws| ==> Encodes(rs[i], p, Expected(ws[i])) && SmallEntry(Expected(ws[i]))
    ensures forall i :: 0 <= i < |ws| ==> ValidEntry(Packed(rs, p), i) && DecodeEntry(Packed(rs, p), i) == Expected(ws[i])
  {
    forall i | 0 <= i < |ws|
      ensures ValidEntry(Packed(rs, p), i) && DecodeEntry(Packed(rs, p), i) == Expected(ws[i])
    {
      PackedRoundTrip(rs, p, i, Expected(ws[i]));
    }
  }
}

=== FILE: query.dfy ===
/** Query classification, normalisation and the capped "edit distance" of the
    search engine. */
module Query {
  import opened Text
  import opened Bytes

  /** The three kinds of query the engine distinguishes. */
  datatype QueryType = Kanji | Kana | English

  /** The CJK range the engine treats as kanji. */
  predicate IsKanji(c: char) {
    '\U{4E00}' <= c <= '\U{9FAF}'
  }

  /** The hiragana and katakana blocks. */
  predicate IsKana(c: char) {
    ('\U{3040}' <= c <= '\U{309F}') || ('\U{30A0}' <= c <= '\U{30FF}')
  }

  /** `query.chars().any(is_kanji)`. */
  function HasKanji(q: string): (b: bool)
    ensures b <==> exists i :: 0 <= i < |q| && IsKanji(q[i])
  {
    if q == [] then false
    else if IsKanji(q[0]) then true
    else
      var rest := HasKanji(q[1..]);
      assert forall i :: 0 < i < |q| ==> q[i] == q[1..][i - 1];
      rest
  }

  /** `query.chars().any(is_kana)`. */
  function HasKana(q: string): (b: bool)
    ensures b <==> exists i :: 0 <= i < |q| && IsKana(q[i])
  {
    if q == [] then false
    else if IsKana(q[0]) then true
    else
      var rest := HasKana(q[1..]);
      assert forall i :: 0 < i < |q| ==> q[i] == q[1..][i - 1];
      rest
  }

  /** `detect_query_type`: a query with any kanji is a kanji query, else one
      with any kana is a kana query, else it is English. */
  function DetectQueryType(q: string): (t: QueryType)
    ensures t.Kanji? <==> exists i :: 0 <= i < |q| && IsKanji(q[i])
    ensures t.Kana? <==> (forall i :: 0 <= i < |q| ==> !IsKanji(q[i])) && exists i :: 0 <= i < |q| && IsKana(q[i])
    ensures t.English? <==> forall i :: 0 <= i < |q| ==> !IsKanji(q[i]) && !IsKana(q[i])
  {
    var hasKanji := HasKanji(q);
    var hasKana := HasKana(q);
    if hasKanji || hasKana then
      if hasKanji then Kanji else Kana
    else
      English
  }

  /** `normalize_query`: trimmed, then lowercased. */
  function NormalizeQuery(q: string): (r: string)
    ensures r == [] || (!IsWhitespace(r[0]) && !IsWhitespace(r[|r| - 1]))
    ensures forall i :: 0 <= i < |r| ==> !('A' <= r[i] <= 'Z')
    ensures r == [] <==> IsBlank(q)
  {
    ToLower(Trim(q))
  }

  /** A string that neither starts nor ends with whitespace is its own trim. */
  lemma TrimTrimmed(s: string)
    requires s == [] || (!IsWhitespace(s[0]) && !IsWhitespace(s[|s| - 1]))
    ensures Trim(s) == s
  {
    var r := Trim(s);
    var a :| TrimmedAt(s, r, a, IsWhitespace);
    if s != [] {
      assert a == 0;
      assert a + |r| == |s|;
    }
  }

  /** Normalising a normalised query changes nothing. */
  lemma NormalizeIdempotent(q: string)
    ensures NormalizeQuery(NormalizeQuery(q)) == NormalizeQuery(q)
  {
    var r := NormalizeQuery(q);
    TrimTrimmed(r);
    ToLowerIdempotent(Trim(q));
  }

  function Abs(x: int): nat {
    if x < 0 then -x else x
  }

  function Min(x: nat, y: nat): nat {
    if x <= y then x else y
  }

  /** Number of positions below `n` at which `a` and `b` hold different
      characters. */
  function Mismatches(a: string, b: string, n: nat): (m: nat)
    requires n <= |a| && n <= |b|
    ensures m <= n
  {
    if n == 0 then 0 else Mismatches(a, b, n - 1) + (if a[n - 1] != b[n - 1] then 1 else 0)
  }

  lemma {:induction false} MismatchesNone(a: string, b: string, n: nat)
    requires n <= |a| && n <= |b|
    ensures Mismatches(a, b, n) == 0 <==> forall i :: 0 <= i < n ==> a[i] == b[i]
  {
    if n > 0 {
      MismatchesNone(a, b, n - 1);
    }
  }

  lemma {:induction false} MismatchesSymmetric(a: string, b: string, n: nat)
    requires n <= |a| && n <= |b|
    ensures Mismatches(a, b, n) == Mismatches(b, a, n)
  {
    if n > 0 {
      MismatchesSymmetric(a, b, n - 1);
    }
  }

  /** `simple_edit_distance` with its counter kept exact: equal strings are at
      distance 0; strings whose UTF-8 lengths differ by more than 2 bytes at
      distance 3; otherwise the differing positions over the shorter
      character length plus the difference in character length, capped at 3.
      It is not Levenshtein distance: an insertion near the front counts
      every shifted position. */
  function EditDistance(a: string, b: string): (d: nat)
    ensures d <= 3
    ensures a != b && Abs(Utf8Len(a) - Utf8Len(b)) > 2 ==> d == 3
    decreases if |a| < |b| then 1 else 0
  {
    if a == b then 0
    else if Abs(Utf8Len(a) - Utf8Len(b)) > 2 then 3
    else if |a| < |b| then EditDistance(b, a)
    else Min(Mismatches(a, b, |b|) + (|a| - |b|), 3)
  }

  /** Distance 0 means equal strings, and only that. */
  lemma EditDistanceZero(a: string, b: string)
    ensures EditDistance(a, b) == 0 <==> a == b
  {
    if a != b && Abs(Utf8Len(a) - Utf8Len(b)) <= 2 {
      if |a| == |b| {
        MismatchesNone(a, b, |b|);
        assert a != b ==> exists i :: 0 <= i < |a| && a[i] != b[i];
      }
    }
  }

  /** The distance does not depend on the order of its arguments. */
  lemma EditDistanceSymmetric(a: string, b: string)
    ensures EditDistance(a, b) == EditDistance(b, a)
  {
    if a != b && Abs(Utf8Len(a) - Utf8Len(b)) <= 2 && |a| == |b| {
      MismatchesSymmetric(a, b, |a|);
    }
  }

  /** `s` is written with three-byte characters only (all kana and kanji are). */
  predicate ThreeByte(s: string) {
    forall i :: 0 <= i < |s| ==> 0x800 <= s[i] as int < 0x1_0000
  }

  lemma {:induction false} Utf8LenThreeByte(s: string)
    requires ThreeByte(s)
    ensures Utf8Len(s) == 3 * |s|
  {
    if s != [] {
      Utf8LenThreeByte(s[1..]);
    }
  }

  /** Two kana strings one character apart in length are 3 bytes apart, so
      the byte-length shortcut already puts them at distance 3. */
  lemma KanaOneLonger(a: string, b: string)
    requires ThreeByte(a) && ThreeByte(b) && |a| == |b| + 1
    ensures EditDistance(a, b) == 3
  {
    Utf8LenThreeByte(a);
    Utf8LenThreeByte(b);
  }

  /** `simple_edit_distance` as written: `diff` is a `u8`, so in a release
      build both the per-position count and the added length difference wrap
      modulo 256 before the cap is applied. */
  function EditDistanceAsWritten(a: string, b: string): (d: nat)
    ensures d <= 3
    ensures a == b ==> d == 0
    ensures a != b && Abs(Utf8Len(a) - Utf8Len(b)) > 2 ==> d == 3
    decreases if |a| < |b| then 1 else 0
  {
    if a == b then 0
    else if Abs(Utf8Len(a) - Utf8Len(b)) > 2 then 3
    else if |a| < |b| then EditDistanceAsWritten(b, a)
    else Min(AsU8(AsU8(Mismatches(a, b, |b|)) + AsU8(|a| - |b|)), 3)
  }

  /** The distance as written does not depend on the order of its arguments
      either: the wrapped count is taken over the same positions. */
  lemma EditDistanceAsWrittenSymmetric(a: string, b: string)
    ensures EditDistanceAsWritten(a, b) == EditDistanceAsWritten(b, a)
  {
    if a != b && Abs(Utf8Len(a) - Utf8Len(b)) <= 2 && |a| == |b| {
      MismatchesSymmetric(a, b, |a|);
    }
  }

  /** `simple_edit_distance`: the counting loop over the shorter length,
      calling itself with the arguments swapped when `a` is the shorter. The
      counter is a `u8`, so each increment and the added length difference
      wrap modulo 256, as in a release build. */
  method SimpleEditDistance(a: string, b: string) returns (d: nat)
    ensures d == EditDistanceAsWritten(a, b)
    decreases if |a| < |b| then 1 else 0
  {
    if a == b {
      return 0;
    }
    if Abs(Utf8Len(a) - Utf8Len(b)) > 2 {
      return 3;
    }
    if |a| < |b| {
      d := SimpleEditDistance(b, a);
      return;
    }
    var diff: byte := 0;
    for i := 0 to |b|
      invariant diff == AsU8(Mismatches(a, b, i))
    {
      if a[i] != b[i] {
        diff := AsU8(diff + 1);
      }
    }
    diff := AsU8(diff + AsU8(|a| - |b|));
    d := Min(diff, 3);
  }

  /** Below 256 characters the wrapping counter never wraps. */
  lemma EditDistanceAgree(a: string, b: string)
    requires |a| < 256 && |b| < 256
    ensures EditDistanceAsWritten(a, b) == EditDistance(a, b)
  {
    if a != b && Abs(Utf8Len(a) - Utf8Len(b)) <= 2 {
      if |a| < |b| {
        assert Mismatches(b, a, |a|) + (|b| - |a|) <= |b|;
      } else {
        assert Mismatches(a, b, |b|) + (|a| - |b|) <= |a|;
      }
    }
  }

  function Repeat(c: char, n: nat): (s: string)
    ensures |s| == n && forall i :: 0 <= i < n ==> s[i] == c
  {
    seq(n, _ => c)
  }

  lemma {:induction false} MismatchesAll(a: string, b: string, n: nat)
    requires n <= |a| && n <= |b|
    requires forall i :: 0 <= i < n ==> a[i] != b[i]
    ensures Mismatches(a, b, n) == n
  {
    if n > 0 {
      MismatchesAll(a, b, n - 1);
    }
  }

  /** The wrap in action: 256 hiragana "a" against 256 hiragana "i" have equal
      byte and character lengths and differ at all 256 positions, so the u8
      counter returns to 0 and the written code reports distance 0 for two
      different strings. */
  lemma EditDistanceWraps()
    ensures var a, b := Repeat('\U{3042}', 256), Repeat('\U{3044}', 256);
            a != b && EditDistanceAsWritten(a, b) == 0 && EditDistance(a, b) == 3
  {
    WrapsAt(Repeat('\U{3042}', 256), Repeat('\U{3044}', 256));
  }

  /** Any two three-byte strings of 256 characters that differ everywhere. */
  lemma WrapsAt(a: string, b: string)
    requires ThreeByte(a) && ThreeByte(b) && |a| == |b| == 256
    requires forall i :: 0 <= i < 256 ==> a[i] != b[i]
    ensures a != b && EditDistanceAsWritten(a, b) == 0 && EditDistance(a, b) == 3
  {
    assert a[0] != b[0];
    Utf8LenThreeByte(a);
    Utf8LenThreeByte(b);
    MismatchesAll(a, b, 256);
    assert AsU8(256) == 0;
  }
}

=== FILE: search.dfy ===
/** `search_dictionary`: candidates from the indices (or a bounded scan of
    the dictionary when there are none), evaluation, ranking and the cut to
    the first fifty. */
module Search {
  import opened Wrappers
  import opened Text
  import opened Query
  import opened Dictionary
  import opened Scoring
  import opened SearchIndex

  /** Entries the fallback scan looks at, at most. */
  const SCAN_LIMIT: nat := 5000
  /** Matches after which the fallback scan stops. */
  const SCAN_HITS: nat := 200
  /** Entries returned, at most. */
  const MAX_RESULTS: nat := 50
  /** Stand-in length of an entry without forms in the ranking. */
  const NO_FORM_LEN: nat := 100

  /** The result of one evaluation as a list of zero or one results. */
  function Found(r: Option<SearchResult>): seq<SearchResult> {
    if r.Some? then [r.value] else []
  }

  /** `evaluate_entry` with the query and its type fixed, as a function value;
      the functions below take such an `eval`. */
  function EvalOf(query: string, t: QueryType): Entry -> Option<SearchResult> {
    e => Evaluate(e, query, t)
  }

  /** The results of the candidates, in candidate order, matches only. */
  function EvaluateAll(eval: Entry -> Option<SearchResult>, words: seq<Entry>, ids: seq<nat>): seq<SearchResult>
    requires forall k :: 0 <= k < |ids| ==> ids[k] < |words|
  {
    if ids == [] then []
    else EvaluateAll(eval, words, ids[..|ids| - 1]) + Found(eval(words[ids[|ids| - 1]]))
  }

  /** The fallback scan after looking at entries `0 .. n-1`: it stops adding
      once it holds SCAN_HITS matches. */
  function Scan(eval: Entry -> Option<SearchResult>, words: seq<Entry>, n: nat): seq<SearchResult>
    requires n <= |words|
  {
    if n == 0 then []
    else
      var before := Scan(eval, words, n - 1);
      if |before| >= SCAN_HITS then before else before + Found(eval(words[n - 1]))
  }

  /** The number of entries the fallback scan may look at. */
  function ScanRange(words: seq<Entry>): nat {
    Min(|words|, SCAN_LIMIT)
  }

  /** The unsorted results: those of the candidates, or of the fallback scan
      when there are no candidates. */
  function Collected(eval: Entry -> Option<SearchResult>, words: seq<Entry>, cands: seq<nat>): seq<SearchResult>
    requires forall k :: 0 <= k < |cands| ==> cands[k] < |words|
  {
    if cands != [] then EvaluateAll(eval, words, cands) else Scan(eval, words, ScanRange(words))
  }

  // ---------------------------------------------------------------------
  // Ranking

  /** The shortest UTF-8 length among the kanji and kana forms, or
      NO_FORM_LEN for an entry without forms. */
  function MinFormLen(e: Entry): nat {
    var forms := e.kanji + e.kana;
    if forms == [] then NO_FORM_LEN else MinLen(forms)
  }

  function MinLen(forms: seq<string>): nat
    requires forms != []
  {
    if |forms| == 1 then Utf8Len(forms[0]) else Min(Utf8Len(forms[0]), MinLen(forms[1..]))
  }

  /** The first kanji form, else the first kana form, else "". */
  function FirstForm(e: Entry): string {
    if e.kanji != [] then e.kanji[0] else if e.kana != [] then e.kana[0] else ""
  }

  /** `str::cmp`: byte-wise order of the UTF-8 encodings, which is the order
      of code points. */
  predicate StrLess(a: string, b: string) {
    if a == [] then b != []
    else if b == [] then false
    else if a[0] != b[0] then a[0] < b[0]
    else StrLess(a[1..], b[1..])
  }

  lemma {:induction false} StrLessIrreflexive(a: string)
    ensures !StrLess(a, a)
  {
    if a != [] {
      StrLessIrreflexive(a[1..]);
    }
  }

  lemma {:induction false} StrLessTransitive(a: string, b: string, c: string)
    requires StrLess(a, b) && StrLess(b, c)
    ensures StrLess(a, c)
  {
    if a != [] && b != [] && c != [] && a[0] == b[0] == c[0] {
      StrLessTransitive(a[1..], b[1..], c[1..]);
    }
  }

  lemma {:induction false} StrLessTotal(a: string, b: string)
    ensures a == b || StrLess(a, b) || StrLess(b, a)
  {
    if a != [] && b != [] && a[0] == b[0] {
      StrLessTotal(a[1..], b[1..]);
      if a[1..] == b[1..] {
        assert a == [a[0]] + a[1..] && b == [b[0]] + b[1..];
      }
    }
  }

  /** The comparator of the sort: `a` strictly ahead of `b` — higher score,
      then common before not common, then shorter shortest form, then the
      first form in string order. */
  predicate Ahead(a: SearchResult, b: SearchResult) {
    || a.score > b.score
    || (a.score == b.score && a.entry.isCommon && !b.entry.isCommon)
    || (a.score == b.score && a.entry.isCommon == b.entry.isCommon
        && MinFormLen(a.entry) < MinFormLen(b.entry))
    || (a.score == b.score && a.entry.isCommon == b.entry.isCommon
        && MinFormLen(a.entry) == MinFormLen(b.entry) && StrLess(FirstForm(a.entry), FirstForm(b.entry)))
  }

  /** The comparator says "equal": the sort keeps such results in input
      order. */
  predicate Tied(a: SearchResult, b: SearchResult) {
    !Ahead(a, b) && !Ahead(b, a)
  }

  lemma AheadAsymmetric(a: SearchResult, b: SearchResult)
    ensures !(Ahead(a, b) && Ahead(b, a))
  {
    if a.score == b.score && a.entry.isCommon == b.entry.isCommon && MinFormLen(a.entry) == MinFormLen(b.entry) {
      var x, y := FirstForm(a.entry), FirstForm(b.entry);
      if StrLess(x, y) && StrLess(y, x) {
        StrLessTransitive(x, y, x);
        StrLessIrreflexive(x);
      }
    }
  }

  /** Not being behind is transitive, so the comparator is a total preorder
      and sorting by it is well defined. */
  lemma NotBehindTransitive(a: SearchResult, b: SearchResult, c: SearchResult)
    requires !Ahead(b, a) && !Ahead(c, b)
    ensures !Ahead(c, a)
  {
    var x, y, z := FirstForm(a.entry), FirstForm(b.entry), FirstForm(c.entry);
    if a.score == b.score == c.score && a.entry.isCommon == b.entry.isCommon == c.entry.isCommon
       && MinFormLen(a.entry) == MinFormLen(b.entry) == MinFormLen(c.entry) && StrLess(z, x) {
      StrLessTotal(x, y);
      StrLessTotal(y, z);
      if StrLess(y, x) && StrLess(z, y) {
        StrLessTransitive(z, y, x);
      } else if StrLess(y, x) {
        StrLessTransitive(y, x, z);
        StrLessIrreflexive(z);
        assert false;
      } else {
        StrLessTransitive(z, x, y);
      }
    }
  }

  /** `rs` in ranking order: nothing is ahead of an earlier result. */
  predicate Ranked(rs: seq<SearchResult>) {
    forall i, j :: 0 <= i < j < |rs| ==> !Ahead(rs[j], rs[i])
  }

  /** `x` placed after every result it is not ahead of: the step of a stable
      insertion sort. */
  function Place(rs: seq<SearchResult>, x: SearchResult): (r: seq<SearchResult>)
    ensures multiset(r) == multiset(rs) + multiset{x}
    ensures |r| == |rs| + 1
  {
    if rs == [] then [x]
    else if Ahead(x, rs[0]) then [x] + rs
    else
      var rest := Place(rs[1..], x);
      assert rs == [rs[0]] + rs[1..];
      [rs[0]] + rest
  }

  /** `sort_by` with the comparator: a stable sort. */
  function Rank(rs: seq<SearchResult>): (r: seq<SearchResult>)
    ensures multiset(r) == multiset(rs)
    ensures |r| == |rs|
  {
    if rs == [] then []
    else
      var init := rs[..|rs| - 1];
      assert rs == init + [rs[|rs| - 1]];
      Place(Rank(init), rs[|rs| - 1])
  }

  lemma {:induction false} PlaceRanked(rs: seq<SearchResult>, x: SearchResult)
    requires Ranked(rs)
    ensures Ranked(Place(rs, x))
    decreases |rs|
  {
    var r := Place(rs, x);
    if rs == [] {
    } else if Ahead(x, rs[0]) {
      forall i, j | 0 <= i < j < |r|
        ensures !Ahead(r[j], r[i])
      {
        if i == 0 {
          // r[j] is rs[j - 1], not ahead of rs[0], which x is ahead of
          AheadAsymmetric(x, rs[0]);
          if j > 1 {
            assert !Ahead(rs[j - 1], rs[0]);
            NotBehindTransitive(x, rs[0], rs[j - 1]);
          }
        }
      }
    } else {
      var rest := Place(rs[1..], x);
      PlaceRanked(rs[1..], x);
      PlaceElems(rs[1..], x);
      forall i, j | 0 <= i < j < |r|
        ensures !Ahead(r[j], r[i])
      {
        if i == 0 {
          assert r[j] == rest[j - 1];
          assert rest[j - 1] == x || rest[j - 1] in rs[1..];
        }
      }
    }
  }

  lemma PlaceElems(rs: seq<SearchResult>, x: SearchResult)
    ensures forall y :: y in Place(rs, x) <==> y == x || y in rs
  {
    assert forall y :: y in Place(rs, x) <==> y in multiset(Place(rs, x));
  }

  /** The sort puts the results in ranking order. */
  lemma {:induction false} RankRanked(rs: seq<SearchResult>)
    ensures Ranked(Rank(rs))
  {
    if rs != [] {
      RankRanked(rs[..|rs| - 1]);
      PlaceRanked(Rank(rs[..|rs| - 1]), rs[|rs| - 1]);
    }
  }

  /** Where `Place` puts `x`. */
  function PlacePos(rs: seq<SearchResult>, x: SearchResult): nat {
    if rs == [] || Ahead(x, rs[0]) then 0 else 1 + PlacePos(rs[1..], x)
  }

  /** `Place` puts `x` at `PlacePos`, keeps the results before it and shifts
      those after it by one. */
  lemma {:induction false} PlacePosSpec(rs: seq<SearchResult>, x: SearchResult)
    ensures var r, p := Place(rs, x), PlacePos(rs, x);
            && p <= |rs| && r[p] == x
            && (forall i :: 0 <= i < p ==> r[i] == rs[i])
            && (forall i :: p < i < |r| ==> r[i] == rs[i - 1])
    decreases |rs|
  {
    if rs != [] && !Ahead(x, rs[0]) {
      PlacePosSpec(rs[1..], x);
    }
  }

  /** Among results tied under the comparator, the sort keeps input order:
      the result placed by the last step lands after every result it is
      tied with. */
  lemma {:induction false} PlaceAfterTied(rs: seq<SearchResult>, x: SearchResult, i: nat)
    requires Ranked(rs) && i < |rs| && Tied(rs[i], x)
    ensures i < PlacePos(rs, x)
    decreases |rs|
  {
    if i > 0 {
      NotBehindTransitive(rs[0], rs[i], x);
      assert rs[1..][i - 1] == rs[i];
      PlaceAfterTied(rs[1..], x, i - 1);
    }
  }

  /** The results of `rs` that satisfy `p`, in their order in `rs`. */
  function Filter(rs: seq<SearchResult>, p: SearchResult -> bool): seq<SearchResult> {
    if rs == [] then [] else (if p(rs[0]) then [rs[0]] else []) + Filter(rs[1..], p)
  }

  lemma FilterCons(y: SearchResult, rest: seq<SearchResult>, p: SearchResult -> bool)
    ensures Filter([y] + rest, p) == (if p(y) then [y] else []) + Filter(rest, p)
  {
    assert ([y] + rest)[1..] == rest;
  }

  lemma {:induction false} FilterSnoc(rs: seq<SearchResult>, x: SearchResult, p: SearchResult -> bool)
    ensures Filter(rs + [x], p) == Filter(rs, p) + (if p(x) then [x] else [])
    decreases |rs|
  {
    if rs != [] {
      assert (rs + [x])[1..] == rs[1..] + [x];
      FilterSnoc(rs[1..], x, p);
    }
  }

  lemma {:induction false} FilterNone(rs: seq<SearchResult>, p: SearchResult -> bool)
    requires forall j :: 0 <= j < |rs| ==> !p(rs[j])
    ensures Filter(rs, p) == []
    decreases |rs|
  {
    if rs != [] {
      FilterNone(rs[1..], p);
    }
  }

  /** The results tied with `t`, as a filter. */
  function TiedTo(t: SearchResult): SearchResult -> bool {
    y => Tied(y, t)
  }

  /** A result placed in front of a ranked list is tied with no result of
      the list when it is tied with `t`, so no result of the list is. */
  lemma NoneTiedBehind(rs: seq<SearchResult>, x: SearchResult, t: SearchResult)
    requires Ranked(rs) && rs != [] && Ahead(x, rs[0]) && Tied(x, t)
    ensures forall j :: 0 <= j < |rs| ==> !TiedTo(t)(rs[j])
  {
    forall j | 0 <= j < |rs|
      ensures !Tied(rs[j], t)
    {
      if Tied(rs[j], t) {
        // then x is not ahead of rs[j], which is not ahead of rs[0]
        AheadAsymmetric(rs[0], rs[0]);
        NotBehindTransitive(rs[j], t, x);
        NotBehindTransitive(rs[0], rs[j], x);
        assert false;
      }
    }
  }

  /** One step of `Place` when `x` goes behind the first result. */
  lemma PlaceBehind(rs: seq<SearchResult>, x: SearchResult)
    requires rs != [] && !Ahead(x, rs[0])
    ensures Place(rs, x) == [rs[0]] + Place(rs[1..], x)
  {
  }

  /** Inserting `x` into a ranked list appends it to the results tied with
      `t` when it is tied with `t` itself, and leaves them alone otherwise:
      `x` lands after every result it ties with. */
  lemma {:induction false} TiedWithPlace(rs: seq<SearchResult>, x: SearchResult, t: SearchResult)
    requires Ranked(rs)
    ensures var p := TiedTo(t);
            Filter(Place(rs, x), p) == Filter(rs, p) + (if p(x) then [x] else [])
    decreases |rs|
  {
    var p := TiedTo(t);
    if rs == [] {
    } else if Ahead(x, rs[0]) {
      if p(x) {
        NoneTiedBehind(rs, x, t);
        FilterNone(rs, p);
      }
      FilterCons(x, rs, p);
    } else {
      TiedWithPlace(rs[1..], x, t);
      PlaceBehind(rs, x);
      FilterCons(rs[0], Place(rs[1..], x), p);
      FilterCons(rs[0], rs[1..], p);
      assert rs == [rs[0]] + rs[1..];
    }
  }

  /** The sort is stable: for any `t`, the results tied with `t` come out in
      the order they went in. */
  lemma {:induction false} RankStable(rs: seq<SearchResult>, t: SearchResult)
    ensures Filter(Rank(rs), TiedTo(t)) == Filter(rs, TiedTo(t))
    decreases |rs|
  {
    if rs != [] {
      var init, last := rs[..|rs| - 1], rs[|rs| - 1];
      RankStable(init, t);
      RankRanked(init);
      TiedWithPlace(Rank(init), last, t);
      assert rs == init + [last];
      FilterSnoc(init, last, TiedTo(t));
    }
  }

  /** The entries of the first MAX_RESULTS ranked results. */
  function TopEntries(ranked: seq<SearchResult>): (es: seq<Entry>)
    ensures |es| == Min(|ranked|, MAX_RESULTS)
    ensures forall k :: 0 <= k < |es| ==> es[k] == ranked[k].entry
  {
    seq(Min(|ranked|, MAX_RESULTS), k requires 0 <= k < Min(|ranked|, MAX_RESULTS) => ranked[k].entry)
  }

  /** What `search_dictionary` returns for a non-blank query, given the
      candidate list. */
  function Answer(words: seq<Entry>, query: string, cands: seq<nat>): seq<Entry>
    requires forall k :: 0 <= k < |cands| ==> cands[k] < |words|
  {
    TopEntries(Rank(Collected(EvalOf(query, DetectQueryType(query)), words, cands)))
  }

  // ---------------------------------------------------------------------
  // Loops

  /** `evaluate_entry` on one entry, stated through `eval`. */
  method Judge(e: Entry, query: string, t: QueryType, ghost eval: Entry -> Option<SearchResult>)
    returns (r: Option<SearchResult>)
    requires forall x {:trigger Evaluate(x, query, t)} :: eval(x) == Evaluate(x, query, t)
    ensures r == eval(e)
  {
    r := EvaluateEntry(e, query, t);
  }

  /** The candidate loop of `search_dictionary`. */
  method EvaluateCandidates(words: seq<Entry>, query: string, t: QueryType, cands: seq<nat>,
                            ghost eval: Entry -> Option<SearchResult>)
    returns (results: seq<SearchResult>)
    requires forall k :: 0 <= k < |cands| ==> cands[k] < |words|
    requires forall x {:trigger Evaluate(x, query, t)} :: eval(x) == Evaluate(x, query, t)
    ensures results == EvaluateAll(eval, words, cands)
  {
    results := [];
    for k := 0 to |cands|
      invariant results == EvaluateAll(eval, words, cands[..k])
    {
      assert cands[..k + 1][..k] == cands[..k];
      var r := Judge(words[cands[k]], query, t, eval);
      if r.Some? {
        results := results + [r.value];
      }
    }
    assert cands[..|cands|] == cands;
  }

  /** The fallback loop of `search_dictionary`: at most SCAN_LIMIT entries,
      stopping as soon as SCAN_HITS have matched. */
  method ScanEntries(words: seq<Entry>, query: string, t: QueryType, ghost eval: Entry -> Option<SearchResult>)
    returns (results: seq<SearchResult>)
    requires forall x {:trigger Evaluate(x, query, t)} :: eval(x) == Evaluate(x, query, t)
    ensures results == Scan(eval, words, ScanRange(words))
  {
    results := [];
    var i := 0;
    while i < ScanRange(words)
      invariant i <= ScanRange(words) && results == Scan(eval, words, i) && |results| < SCAN_HITS
    {
      var r := Judge(words[i], query, t, eval);
      if r.Some? {
        results := results + [r.value];
        if |results| >= SCAN_HITS {
          ScanFull(eval, words, i + 1, ScanRange(words));
          return;
        }
      }
      i := i + 1;
    }
  }

  /** Once the scan holds SCAN_HITS results, looking further adds nothing. */
  lemma {:induction false} ScanFull(eval: Entry -> Option<SearchResult>, words: seq<Entry>, i: nat, n: nat)
    requires i <= n <= |words| && |Scan(eval, words, i)| >= SCAN_HITS
    ensures Scan(eval, words, n) == Scan(eval, words, i)
    decreases n - i
  {
    if i < n {
      ScanFull(eval, words, i, n - 1);
    }
  }

  /** `search_dictionary`. The indices, when present, file only ids of the
      dictionary's entries (IndicesBelow: true of the dictionary's own
      indices); for a non-blank query the result is determined by the
      candidate list `find_indexed_entries` characterises. */
  method SearchDictionary(query: string, words: seq<Entry>, ix: Option<Indices>) returns (out: seq<Entry>)
    requires ix.Some? ==> AllFiledBelow(ix.value, |words|)
    ensures IsBlank(query) ==> out == []
    ensures !IsBlank(query) ==>
      forall cands :: SmallestOf(cands, CandidateSet(NormalizeQuery(query), DetectQueryType(query), ix), 1000) ==>
        (forall k :: 0 <= k < |cands| ==> cands[k] < |words|) && out == Answer(words, query, cands)
  {
    if IsBlank(query) {
      return [];
    }
    var t := DetectQueryType(query);
    ghost var eval := EvalOf(query, t);
    var cands := FindIndexedEntries(query, t, ix);
    CandidatesInRange(words, query, t, ix, cands);
    var results;
    if cands != [] {
      results := EvaluateCandidates(words, query, t, cands, eval);
    } else {
      results := ScanEntries(words, query, t, eval);
    }
    out := TopEntries(Rank(results));
    forall other | SmallestOf(other, CandidateSet(NormalizeQuery(query), t, ix), 1000)
      ensures other == cands
    {
      SmallestOfUnique(other, cands, CandidateSet(NormalizeQuery(query), t, ix), 1000);
    }
  }

  lemma CandidatesInRange(words: seq<Entry>, query: string, t: QueryType, ix: Option<Indices>, cands: seq<nat>)
    requires ix.Some? ==> AllFiledBelow(ix.value, |words|)
    requires SmallestOf(cands, CandidateSet(NormalizeQuery(query), t, ix), 1000)
    ensures forall k :: 0 <= k < |cands| ==> cands[k] < |words|
  {
    forall k | 0 <= k < |cands|
      ensures cands[k] < |words|
    {
      assert cands[k] in cands;
      CandidatesBelow(ix.value, |words|, NormalizeQuery(query), t, cands[k]);
    }
  }

  // ---------------------------------------------------------------------
  // Properties of the answer

  /** Every candidate result is the evaluation of one of the candidates. */
  lemma {:induction false} EvaluateAllFrom(eval: Entry -> Option<SearchResult>, words: seq<Entry>, ids: seq<nat>, r: SearchResult)
    requires forall k :: 0 <= k < |ids| ==> ids[k] < |words|
    requires r in EvaluateAll(eval, words, ids)
    ensures exists k :: 0 <= k < |ids| && eval(words[ids[k]]) == Some(r)
    decreases |ids|
  {
    var init := ids[..|ids| - 1];
    if r in EvaluateAll(eval, words, init) {
      EvaluateAllFrom(eval, words, init, r);
      var k :| 0 <= k < |init| && eval(words[init[k]]) == Some(r);
      assert ids[k] == init[k];
    } else {
      assert eval(words[ids[|ids| - 1]]) == Some(r);
    }
  }

  /** At most one result per candidate. */
  lemma {:induction false} EvaluateAllSize(eval: Entry -> Option<SearchResult>, words: seq<Entry>, ids: seq<nat>)
    requires forall k :: 0 <= k < |ids| ==> ids[k] < |words|
    ensures |EvaluateAll(eval, words, ids)| <= |ids|
  {
    if ids != [] {
      EvaluateAllSize(eval, words, ids[..|ids| - 1]);
    }
  }

  /** The scan holds at most SCAN_HITS results, each the evaluation of an
      entry it looked at; and while it holds fewer, every matching entry it
      looked at is in it. */
  lemma {:induction false} ScanContents(eval: Entry -> Option<SearchResult>, words: seq<Entry>, n: nat)
    requires n <= |words|
    ensures |Scan(eval, words, n)| <= SCAN_HITS
    ensures forall r :: r in Scan(eval, words, n) ==> exists i :: 0 <= i < n && eval(words[i]) == Some(r)
    ensures |Scan(eval, words, n)| < SCAN_HITS ==>
              forall i :: 0 <= i < n && eval(words[i]).Some? ==> eval(words[i]).value in Scan(eval, words, n)
  {
    if n > 0 {
      ScanContents(eval, words, n - 1);
      var before := Scan(eval, words, n - 1);
      forall r | r in Scan(eval, words, n)
        ensures exists i :: 0 <= i < n && eval(words[i]) == Some(r)
      {
        if r in before {
          var i :| 0 <= i < n - 1 && eval(words[i]) == Some(r);
        } else {
          assert eval(words[n - 1]) == Some(r);
        }
      }
    }
  }

  /** Every collected result is the evaluation of an entry: of a candidate
      when there are candidates, else of one of the first SCAN_LIMIT
      entries. */
  lemma CollectedFrom(eval: Entry -> Option<SearchResult>, words: seq<Entry>, cands: seq<nat>, r: SearchResult)
    requires forall k :: 0 <= k < |cands| ==> cands[k] < |words|
    requires r in Collected(eval, words, cands)
    ensures exists i :: 0 <= i < |words| && eval(words[i]) == Some(r)
              && (if cands != [] then i in cands else i < SCAN_LIMIT)
  {
    if cands != [] {
      EvaluateAllFrom(eval, words, cands, r);
      var k :| 0 <= k < |cands| && eval(words[cands[k]]) == Some(r);
      assert cands[k] in cands;
    } else {
      ScanContents(eval, words, ScanRange(words));
    }
  }

  /** So is every ranked result. */
  lemma RankedFrom(eval: Entry -> Option<SearchResult>, words: seq<Entry>, cands: seq<nat>, r: SearchResult)
    requires forall k :: 0 <= k < |cands| ==> cands[k] < |words|
    requires r in Rank(Collected(eval, words, cands))
    ensures exists i :: 0 <= i < |words| && eval(words[i]) == Some(r)
              && (if cands != [] then i in cands else i < SCAN_LIMIT)
  {
    assert r in multiset(Rank(Collected(eval, words, cands)));
    CollectedFrom(eval, words, cands, r);
  }

  /** The answer to a non-blank query: at most MAX_RESULTS entries, the
      entries of the first ranked results, which are the collected results
      in ranking order; each collected result is the evaluation of a
      dictionary entry (RankedFrom). */
  lemma AnswerProperties(words: seq<Entry>, query: string, cands: seq<nat>)
    requires forall k :: 0 <= k < |cands| ==> cands[k] < |words|
    ensures var collected := Collected(EvalOf(query, DetectQueryType(query)), words, cands);
            var ranked := Rank(collected);
            var out := Answer(words, query, cands);
            && |out| <= MAX_RESULTS
            && Ranked(ranked)
            && multiset(ranked) == multiset(collected)
            && (forall k :: 0 <= k < |out| ==> out[k] == ranked[k].entry)
  {
    RankRanked(Collected(EvalOf(query, DetectQueryType(query)), words, cands));
  }

  /** With candidates there are at most as many results as candidates (so at
      most 1000); without, at most SCAN_HITS. */
  lemma CollectedSize(eval: Entry -> Option<SearchResult>, words: seq<Entry>, cands: seq<nat>)
    requires forall k :: 0 <= k < |cands| ==> cands[k] < |words|
    ensures |Collected(eval, words, cands)| <= if cands != [] then |cands| else SCAN_HITS
  {
    if cands != [] {
      EvaluateAllSize(eval, words, cands);
    } else {
      ScanContents(eval, words, ScanRange(words));
    }
  }
}

=== FILE: text.dfy ===
/** The string operations of Rust's `str` that the search engine relies on,
    stated over `string` (a sequence of Unicode scalar values). */
module Text {

  /** Unicode White_Space, the set `char::is_whitespace`, `str::trim` and
      `str::split_whitespace` use. */
  predicate IsWhitespace(c: char) {
    || ('\t' <= c <= '\r') || c == ' ' || c == '\U{85}' || c == '\U{A0}' || c == '\U{1680}'
    || ('\U{2000}' <= c <= '\U{200A}') || c == '\U{2028}' || c == '\U{2029}'
    || c == '\U{202F}' || c == '\U{205F}' || c == '\U{3000}'
  }

  /** `char::is_alphabetic`, restricted to Latin letters (ASCII, Latin-1 and Latin
      Extended-A/B), hiragana, katakana and the CJK ideograph block. */
  predicate IsAlphabetic(c: char) {
    || ('a' <= c <= 'z') || ('A' <= c <= 'Z')
    || c == '\U{AA}' || c == '\U{B5}' || c == '\U{BA}'
    || ('\U{C0}' <= c <= '\U{D6}') || ('\U{D8}' <= c <= '\U{F6}') || ('\U{F8}' <= c <= '\U{24F}')
    || ('\U{3041}' <= c <= '\U{3096}') || ('\U{30A1}' <= c <= '\U{30FA}')
    || ('\U{4E00}' <= c <= '\U{9FFF}')
  }

  predicate NotAlphabetic(c: char) {
    !IsAlphabetic(c)
  }

  /** Number of bytes of `c` in UTF-8. */
  function CharUtf8Len(c: char): (n: nat)
    ensures 1 <= n <= 4
    ensures n == 1 <==> c as int < 0x80
  {
    if c as int < 0x80 then 1
    else if c as int < 0x800 then 2
    else if c as int < 0x1_0000 then 3
    else 4
  }

  /** `str::len`: the length of `s` in UTF-8 bytes, as opposed to `|s|`, its
      number of characters (`s.chars().count()`). */
  function Utf8Len(s: string): (n: nat)
    ensures |s| <= n <= 4 * |s|
  {
    if s == [] then 0 else CharUtf8Len(s[0]) + Utf8Len(s[1..])
  }

  /** Case mapping of one character (ASCII letters only). */
  function Lower(c: char): (d: char)
    ensures IsWhitespace(d) <==> IsWhitespace(c)
    ensures !('A' <= d <= 'Z')
    ensures 'A' <= c <= 'Z' || d == c
  {
    if 'A' <= c <= 'Z' then (c as int + 32) as char else c
  }

  /** `str::to_lowercase`, character by character. */
  function ToLower(s: string): (r: string)
    ensures |r| == |s|
    ensures forall i :: 0 <= i < |s| ==> r[i] == Lower(s[i])
  {
    if s == [] then [] else [Lower(s[0])] + ToLower(s[1..])
  }

  lemma {:induction false} ToLowerIdempotent(s: string)
    ensures ToLower(ToLower(s)) == ToLower(s)
  {
    var t := ToLower(s);
    assert forall i :: 0 <= i < |t| ==> ToLower(t)[i] == t[i];
  }

  /** Removes the leading characters that satisfy `strip`. */
  function TrimStartBy(s: string, strip: char -> bool): (r: string)
    ensures |r| <= |s| && r == s[|s| - |r|..]
    ensures r == [] || !strip(r[0])
    ensures forall i :: 0 <= i < |s| - |r| ==> strip(s[i])
    decreases |s|
  {
    if s != [] && strip(s[0]) then
      var r := TrimStartBy(s[1..], strip);
      assert forall i :: 1 <= i < |s| ==> s[1..][i - 1] == s[i];
      r
    else s
  }

  /** Removes the trailing characters that satisfy `strip`. */
  function TrimEndBy(s: string, strip: char -> bool): (r: string)
    ensures |r| <= |s| && r == s[..|r|]
    ensures r == [] || !strip(r[|r| - 1])
    ensures forall i :: |r| <= i < |s| ==> strip(s[i])
    decreases |s|
  {
    if s != [] && strip(s[|s| - 1]) then TrimEndBy(s[..|s| - 1], strip) else s
  }

  /** `str::trim_matches(strip)`: the longest inner slice of `s` that neither
      starts nor ends with a character satisfying `strip`. */
  function TrimBy(s: string, strip: char -> bool): (r: string)
    ensures |r| <= |s|
    ensures r == [] || (!strip(r[0]) && !strip(r[|r| - 1]))
    ensures exists a :: TrimmedAt(s, r, a, strip)
  {
    TrimmedParts(s, strip);
    TrimEndBy(TrimStartBy(s, strip), strip)
  }

  /** The two trims together cut stripped characters only, at both ends. */
  lemma TrimmedParts(s: string, strip: char -> bool)
    ensures var t := TrimStartBy(s, strip);
            TrimmedAt(s, TrimEndBy(t, strip), |s| - |t|, strip)
  {
    TrimmedAtIntro(s, TrimStartBy(s, strip), TrimEndBy(TrimStartBy(s, strip), strip), strip);
  }

  lemma TrimmedAtIntro(s: string, t: string, r: string, strip: char -> bool)
    requires |t| <= |s| && t == s[|s| - |t|..] && forall i :: 0 <= i < |s| - |t| ==> strip(s[i])
    requires |r| <= |t| && r == t[..|r|] && forall i :: |r| <= i < |t| ==> strip(t[i])
    ensures TrimmedAt(s, r, |s| - |t|, strip)
  {
    var a := |s| - |t|;
    assert r == s[a..a + |r|];
    forall i | a + |r| <= i < |s|
      ensures strip(s[i])
    {
      assert s[i] == t[i - a];
    }
  }

  /** `r` is `s` with `a` stripped characters removed in front and only stripped
      characters removed behind. */
  ghost predicate TrimmedAt(s: string, r: string, a: int, strip: char -> bool) {
    && 0 <= a <= |s| - |r| && r == s[a..a + |r|]
    && (forall i :: 0 <= i < a ==> strip(s[i]))
    && (forall i :: a + |r| <= i < |s| ==> strip(s[i]))
  }

  /** `str::trim`. */
  function Trim(s: string): string {
    TrimBy(s, IsWhitespace)
  }

  /** `s.trim().is_empty()`. */
  predicate IsBlank(s: string) {
    Trim(s) == []
  }

  /** A string is blank exactly when every character of it is whitespace. */
  lemma BlankIffAllWhitespace(s: string)
    ensures IsBlank(s) <==> forall i :: 0 <= i < |s| ==> IsWhitespace(s[i])
  {
    var r := Trim(s);
    var a :| TrimmedAt(s, r, a, IsWhitespace);
    if r != [] {
      assert s[a] == r[0];
    }
  }

  /** Trimming twice is trimming once. */
  lemma TrimIdempotent(s: string, strip: char -> bool)
    ensures TrimBy(TrimBy(s, strip), strip) == TrimBy(s, strip)
  {
    var r := TrimBy(s, strip);
    var r2 := TrimBy(r, strip);
    var a :| TrimmedAt(r, r2, a, strip);
    if r != [] {
      assert !strip(r[0]) && !strip(r[|r| - 1]);
      assert a == 0 && a + |r2| == |r|;
    }
  }

  /** `str::starts_with`. */
  predicate StartsWith(s: string, prefix: string) {
    |prefix| <= |s| && s[..|prefix|] == prefix
  }

  /** `str::ends_with`. */
  predicate EndsWith(s: string, suffix: string) {
    |suffix| <= |s| && s[|s| - |suffix|..] == suffix
  }

  /** `str::contains` with a string pattern. */
  predicate Contains(s: string, sub: string) {
    exists i | 0 <= i <= |s| - |sub| :: OccursAt(s, sub, i)
  }

  predicate OccursAt(s: string, sub: string, i: int) {
    0 <= i <= |s| - |sub| && s[i..i + |sub|] == sub
  }

  /** The summed length of `parts`. */
  function TotalLen(parts: seq<string>): nat {
    if parts == [] then 0 else |parts[0]| + TotalLen(parts[1..])
  }

  /** `parts.join(sep)`: the parts with `sep` between neighbours. */
  function Join(parts: seq<string>, sep: string): (r: string)
    ensures |parts| > 0 ==> StartsWith(r, parts[0])
    ensures |parts| > 0 ==> EndsWith(r, parts[|parts| - 1])
  {
    if |parts| == 0 then []
    else if |parts| == 1 then parts[0]
    else parts[0] + sep + Join(parts[1..], sep)
  }

  /** A join is as long as its parts plus one separator between each pair of
      neighbours. */
  lemma {:induction false} JoinLength(parts: seq<string>, sep: string)
    requires parts != []
    ensures |Join(parts, sep)| == TotalLen(parts) + (|parts| - 1) * |sep|
    decreases |parts|
  {
    if |parts| > 1 {
      JoinLength(parts[1..], sep);
    }
  }

  /** `str::split(sep)`: the pieces between occurrences of `sep`
      (SplitNoSeparator, SplitJoin). */
  function Split(s: string, sep: char): (parts: seq<string>)
    ensures |parts| >= 1
  {
    if s == [] then [[]]
    else
      var rest := Split(s[1..], sep);
      if s[0] == sep then [[]] + rest else [[s[0]] + rest[0]] + rest[1..]
  }

  /** No piece contains the separator. */
  lemma {:induction false} SplitNoSeparator(s: string, sep: char)
    ensures forall k, i :: 0 <= k < |Split(s, sep)| && 0 <= i < |Split(s, sep)[k]| ==> Split(s, sep)[k][i] != sep
    decreases |s|
  {
    if s != [] {
      var parts, rest := Split(s, sep), Split(s[1..], sep);
      SplitNoSeparator(s[1..], sep);
      forall k, i | 0 <= k < |parts| && 0 <= i < |parts[k]|
        ensures parts[k][i] != sep
      {
        if s[0] == sep {
          assert k > 0 && parts[k] == rest[k - 1];
          assert rest[k - 1][i] != sep;
        } else if k > 0 {
          assert parts[k] == rest[k];
          assert rest[k][i] != sep;
        } else if i > 0 {
          assert parts[0][i] == rest[0][i - 1];
          assert rest[0][i - 1] != sep;
        } else {
          assert parts[0][0] == s[0];
        }
      }
    }
  }

  /** Joining the pieces back with the separator gives the original string. */
  lemma {:induction false} SplitJoin(s: string, sep: char)
    ensures Join(Split(s, sep), [sep]) == s
    decreases |s|
  {
    if s != [] {
      SplitJoin(s[1..], sep);
      SplitJoinStep(s, sep);
    }
  }

  lemma SplitJoinStep(s: string, sep: char)
    requires s != [] && Join(Split(s[1..], sep), [sep]) == s[1..]
    ensures Join(Split(s, sep), [sep]) == s
  {
    if s[0] == sep {
      SplitJoinAtSeparator(s, sep);
    } else {
      SplitJoinInPart(s, sep);
    }
  }

  lemma SplitJoinAtSeparator(s: string, sep: char)
    requires s != [] && s[0] == sep && Join(Split(s[1..], sep), [sep]) == s[1..]
    ensures Join(Split(s, sep), [sep]) == s
  {
    var rest := Split(s[1..], sep);
    JoinCons([], rest, [sep]);
    assert s == [sep] + s[1..];
  }

  lemma SplitJoinInPart(s: string, sep: char)
    requires s != [] && s[0] != sep && Join(Split(s[1..], sep), [sep]) == s[1..]
    ensures Join(Split(s, sep), [sep]) == s
  {
    var rest := Split(s[1..], sep);
    JoinHead(s[0], rest, [sep], s[1..]);
    assert s == [s[0]] + s[1..];
  }

  lemma JoinCons(x: string, rest: seq<string>, sep: string)
    requires rest != []
    ensures Join([x] + rest, sep) == x + sep + Join(rest, sep)
  {
    assert ([x] + rest)[1..] == rest;
  }

  /** Putting `c` in front of the first part puts it in front of the join. */
  lemma JoinHead(c: char, parts: seq<string>, sep: string, t: string)
    requires parts != [] && Join(parts, sep) == t
    ensures Join([[c] + parts[0]] + parts[1..], sep) == [c] + t
  {
    if |parts| > 1 {
      var tail := Join(parts[1..], sep);
      JoinCons([c] + parts[0], parts[1..], sep);
      assert ([c] + parts[0]) + sep + tail == [c] + (parts[0] + sep + tail);
    }
  }

  /** The longest prefix of `s` without whitespace. */
  function LeadingWord(s: string): (w: string)
    ensures |w| <= |s| && w == s[..|w|]
    ensures forall i :: 0 <= i < |w| ==> !IsWhitespace(w[i])
    ensures |w| == |s| || IsWhitespace(s[|w|])
  {
    if s == [] || IsWhitespace(s[0]) then [] else [s[0]] + LeadingWord(s[1..])
  }

  /** The characters of `s` that are not whitespace, in order. */
  function NonWhitespace(s: string): string {
    if s == [] then []
    else if IsWhitespace(s[0]) then NonWhitespace(s[1..])
    else [s[0]] + NonWhitespace(s[1..])
  }

  function Concat(parts: seq<string>): string {
    if parts == [] then [] else parts[0] + Concat(parts[1..])
  }

  lemma {:induction false} NonWhitespaceAppend(a: string, b: string)
    ensures NonWhitespace(a + b) == NonWhitespace(a) + NonWhitespace(b)
  {
    if a != [] {
      assert (a + b)[1..] == a[1..] + b;
      NonWhitespaceAppend(a[1..], b);
    } else {
      assert a + b == b;
    }
  }

  lemma {:induction false} NonWhitespaceOfWord(w: string)
    requires forall i :: 0 <= i < |w| ==> !IsWhitespace(w[i])
    ensures NonWhitespace(w) == w
  {
    if w != [] {
      NonWhitespaceOfWord(w[1..]);
    }
  }

  /** `str::split_whitespace`: the maximal runs of non-whitespace characters,
      in order; together they hold every non-whitespace character of `s`.
      Where the words are cut is stated by `SplitWhitespaceSkip`,
      `SplitWhitespaceWord` and `SplitWhitespaceSingle` below. */
  function SplitWhitespace(s: string): (words: seq<string>)
    ensures forall k :: 0 <= k < |words| ==> words[k] != []
    ensures forall k, i :: 0 <= k < |words| && 0 <= i < |words[k]| ==> !IsWhitespace(words[k][i])
    ensures Concat(words) == NonWhitespace(s)
    ensures s != [] && !IsWhitespace(s[0]) ==> words != [] && words[0] == LeadingWord(s)
    decreases |s|
  {
    if s == [] then []
    else if IsWhitespace(s[0]) then SplitWhitespace(s[1..])
    else
      var w := LeadingWord(s);
      var words := [w] + SplitWhitespace(s[|w|..]);
      assert s == w + s[|w|..];
      NonWhitespaceAppend(w, s[|w|..]);
      NonWhitespaceOfWord(w);
      assert words[1..] == SplitWhitespace(s[|w|..]);
      words
  }

  /** The leading word of a word followed by whitespace is that word. */
  lemma {:induction false} LeadingWordOf(w: string, rest: string)
    requires forall i :: 0 <= i < |w| ==> !IsWhitespace(w[i])
    requires rest == [] || IsWhitespace(rest[0])
    ensures LeadingWord(w + rest) == w
  {
    if w != [] {
      assert (w + rest)[1..] == w[1..] + rest;
      LeadingWordOf(w[1..], rest);
    } else {
      assert w + rest == rest;
    }
  }

  /** Leading whitespace yields no word. */
  lemma SplitWhitespaceSkip(c: char, r: string)
    requires IsWhitespace(c)
    ensures SplitWhitespace([c] + r) == SplitWhitespace(r)
  {
    assert ([c] + r)[1..] == r;
  }

  /** A whitespace-free word followed by whitespace is cut off as one word,
      and splitting goes on after the whitespace. */
  lemma SplitWhitespaceWord(w: string, c: char, r: string)
    requires w != [] && forall i :: 0 <= i < |w| ==> !IsWhitespace(w[i])
    requires IsWhitespace(c)
    ensures SplitWhitespace(w + [c] + r) == [w] + SplitWhitespace(r)
  {
    var s := w + [c] + r;
    assert s == w + ([c] + r);
    LeadingWordOf(w, [c] + r);
    assert s[|w|..] == [c] + r;
    SplitWhitespaceSkip(c, r);
  }

  /** A whitespace-free string is one word. */
  lemma SplitWhitespaceSingle(w: string)
    requires w != [] && forall i :: 0 <= i < |w| ==> !IsWhitespace(w[i])
    ensures SplitWhitespace(w) == [w]
  {
    LeadingWordOf(w, []);
    assert w + [] == w;
    assert w[|w|..] == [];
  }

  /** `s.split_whitespace().next()`, as a possibly empty string. */
  function FirstWord(s: string): (w: string)
    ensures w == [] <==> SplitWhitespace(s) == []
  {
    var words := SplitWhitespace(s);
    if words == [] then [] else words[0]
  }
}

=== FILE: tui.dfy ===
/** The terminal interface's line editor: the query being typed, the cursor
    in it, the scroll position in the result list and the quit flag, updated
    key by key, and the one-line rendering of a result. The application
    state takes queries to be ASCII, one character per byte, so the source's
    byte cursor is a character index there; `ByteLine` models the byte
    cursor of the character arm as the source keeps it. */
module Tui {
  import opened Wrappers
  import opened Text
  import opened Query
  import opened Dictionary
  import opened Scoring

  // ---------------------------------------------------------------------
  // Keys

  datatype KeyCode = Char(c: char) | Esc | Left | Right | Up | Down | Backspace | PageUp | PageDown | OtherKey

  /** The modifier set of a key event, as far as the key table tells sets
      apart: empty, exactly Shift, exactly Control, or any other set. */
  datatype Modifiers = NoModifiers | ShiftOnly | ControlOnly | OtherModifiers

  datatype KeyEvent = KeyEvent(code: KeyCode, modifiers: Modifiers)

  /** The arms of `handle_input`. */
  datatype Command =
    | Quit | Home | End | Forward | Backward | NextResult | PrevResult
    | KillToEnd | KillToStart | DeleteAt | DeleteBefore | Insert(c: char)
    | NextPage | PrevPage | Ignore

  /** The arm a key selects; the first arm that matches wins, so a plain `q`
      quits rather than being typed. */
  function CommandOf(key: KeyEvent): Command {
    match (key.code, key.modifiers)
    case (Char('q'), NoModifiers) => Quit
    case (Esc, _) => Quit
    case (Char('c'), ControlOnly) => Quit
    case (Char('a'), ControlOnly) => Home
    case (Char('e'), ControlOnly) => End
    case (Char('f'), ControlOnly) | (Right, _) => Forward
    case (Char('b'), ControlOnly) | (Left, _) => Backward
    case (Char('n'), ControlOnly) | (Down, _) => NextResult
    case (Char('p'), ControlOnly) | (Up, _) => PrevResult
    case (Char('k'), ControlOnly) => KillToEnd
    case (Char('u'), ControlOnly) => KillToStart
    case (Char('d'), ControlOnly) => DeleteAt
    case (Backspace, _) | (Char('h'), ControlOnly) => DeleteBefore
    case (Char(c), NoModifiers) => Insert(c)
    case (Char(c), ShiftOnly) => Insert(c)
    case (PageDown, _) => NextPage
    case (PageUp, _) => PrevPage
    case _ => Ignore
  }

  /** Exactly plain `q`, Esc with any modifiers and Ctrl-C quit. */
  lemma QuitKeys(key: KeyEvent)
    ensures CommandOf(key) == Quit <==>
      key == KeyEvent(Char('q'), NoModifiers) || key.code == Esc || key == KeyEvent(Char('c'), ControlOnly)
  {
  }

  /** A character is typed exactly when it comes with Shift alone, or with no
      modifier and is not `q`. */
  lemma InsertKeys(key: KeyEvent, ch: char)
    ensures CommandOf(key) == Insert(ch) <==>
      key.code == Char(ch) && (key.modifiers == ShiftOnly || (key.modifiers == NoModifiers && ch != 'q'))
  {
  }

  // ---------------------------------------------------------------------
  // The edited line

  /** The query and the cursor position in it. */
  datatype Line = Line(query: string, cursor: nat)

  /** What a command does to the query and the cursor. */
  function EditLine(cmd: Command, l: Line): (r: Line)
    requires l.cursor <= |l.query|
    ensures r.cursor <= |r.query|
  {
    var q, c := l.query, l.cursor;
    match cmd
    case Home => Line(q, 0)
    case End => Line(q, |q|)
    case Forward => if c < |q| then Line(q, c + 1) else l
    case Backward => if c > 0 then Line(q, c - 1) else l
    case KillToEnd => Line(q[..c], c)
    case KillToStart => Line(q[c..], 0)
    case DeleteAt => if c < |q| then Line(q[..c] + q[c + 1..], c) else l
    case DeleteBefore => if c > 0 then Line(q[..c - 1] + q[c..], c - 1) else l
    case Insert(ch) => Line(q[..c] + [ch] + q[c..], c + 1)
    case _ => l
  }

  /** Whether the command runs a search after editing. */
  predicate Searches(cmd: Command, l: Line) {
    match cmd
    case KillToEnd => true
    case KillToStart => true
    case DeleteAt => l.cursor < |l.query|
    case DeleteBefore => l.cursor > 0
    case Insert(_) => true
    case _ => false
  }

  /** The query changes only under a command that then searches: every
      edit of the query refreshes the results. */
  lemma EditsSearch(cmd: Command, l: Line)
    requires l.cursor <= |l.query|
    ensures !Searches(cmd, l) ==> EditLine(cmd, l).query == l.query
  {
  }

  /** Typing a character and deleting the one before the cursor restores the
      line. */
  lemma InsertThenDelete(ch: char, l: Line)
    requires l.cursor <= |l.query|
    ensures EditLine(DeleteBefore, EditLine(Insert(ch), l)) == l
  {
    var q, c := l.query, l.cursor;
    var r := q[..c] + [ch] + q[c..];
    assert r[..c] == q[..c] && r[c + 1..] == q[c..];
    assert q[..c] + q[c..] == q;
  }

  /** Typing puts the character at the cursor, keeps what was before it and
      shifts what was after it by one. */
  lemma InsertPlaces(ch: char, l: Line)
    requires l.cursor <= |l.query|
    ensures var r := EditLine(Insert(ch), l);
            && |r.query| == |l.query| + 1 && r.cursor == l.cursor + 1 && r.query[l.cursor] == ch
            && (forall i :: 0 <= i < l.cursor ==> r.query[i] == l.query[i])
            && (forall i :: l.cursor <= i < |l.query| ==> r.query[i + 1] == l.query[i])
  {
  }

  /** Backspace removes the character before the cursor and moves onto its
      place; at the start of the line it does nothing. */
  lemma DeleteBeforeRemoves(l: Line)
    requires l.cursor <= |l.query|
    ensures var r := EditLine(DeleteBefore, l);
            && (l.cursor == 0 ==> r == l)
            && (l.cursor > 0 ==>
                  && |r.query| == |l.query| - 1 && r.cursor == l.cursor - 1
                  && (forall i :: 0 <= i < r.cursor ==> r.query[i] == l.query[i])
                  && (forall i :: r.cursor <= i < |r.query| ==> r.query[i] == l.query[i + 1]))
  {
  }

  /** Ctrl-D removes the character under the cursor and leaves the cursor;
      at the end of the line it does nothing. */
  lemma DeleteAtRemoves(l: Line)
    requires l.cursor <= |l.query|
    ensures var r := EditLine(DeleteAt, l);
            && (l.cursor == |l.query| ==> r == l)
            && (l.cursor < |l.query| ==>
                  && |r.query| == |l.query| - 1 && r.cursor == l.cursor
                  && (forall i :: 0 <= i < r.cursor ==> r.query[i] == l.query[i])
                  && (forall i :: r.cursor <= i < |r.query| ==> r.query[i] == l.query[i + 1]))
  {
  }

  /** Ctrl-K keeps what is before the cursor and Ctrl-U what is after it, so
      the two pieces make up the query. */
  lemma KillsSplit(l: Line)
    requires l.cursor <= |l.query|
    ensures EditLine(KillToEnd, l).query + EditLine(KillToStart, l).query == l.query
    ensures EditLine(KillToEnd, l).cursor == |EditLine(KillToEnd, l).query|
    ensures EditLine(KillToStart, l).cursor == 0
  {
    assert l.query[..l.cursor] + l.query[l.cursor..] == l.query;
  }

  /** Moving right and then left returns to the same place unless the cursor
      was already at the end. */
  lemma ForwardBackward(l: Line)
    requires l.cursor < |l.query|
    ensures EditLine(Backward, EditLine(Forward, l)) == l
  {
  }

  // ---------------------------------------------------------------------
  // Scrolling

  /** `len.saturating_sub(1)`: the position of the last result. */
  function LastPosition(count: nat): nat {
    if count == 0 then 0 else count - 1
  }

  /** What a command does to the scroll position over `count` results. */
  function Scrolled(cmd: Command, scroll: nat, count: nat): nat {
    match cmd
    case NextResult => if scroll < LastPosition(count) then scroll + 1 else scroll
    case PrevResult => if scroll > 0 then scroll - 1 else scroll
    case NextPage => Min(scroll + 10, LastPosition(count))
    case PrevPage => if scroll >= 10 then scroll - 10 else 0
    case _ => scroll
  }

  /** Scrolling down never goes past the last result, and a page down never
      ends past it. */
  lemma ScrollDownBounded(cmd: Command, scroll: nat, count: nat)
    requires cmd == NextResult || cmd == NextPage
    ensures Scrolled(cmd, scroll, count) > scroll ==> Scrolled(cmd, scroll, count) <= LastPosition(count)
    ensures cmd == NextPage ==> Scrolled(cmd, scroll, count) <= LastPosition(count)
  {
  }

  /** Scrolling up never moves down. */
  lemma ScrollUpBounded(cmd: Command, scroll: nat, count: nat)
    requires cmd == PrevResult || cmd == PrevPage
    ensures Scrolled(cmd, scroll, count) <= scroll
    ensures scroll > 0 ==> Scrolled(cmd, scroll, count) < scroll
  {
  }

  /** A scroll position on a result stays on a result. */
  lemma ScrollStaysInRange(cmd: Command, scroll: nat, count: nat)
    requires scroll <= LastPosition(count)
    ensures Scrolled(cmd, scroll, count) <= LastPosition(count)
  {
  }

  // ---------------------------------------------------------------------
  // The byte cursor

  /** The query with the cursor as the source keeps it: a byte offset into
      the UTF-8 encoding of the query. */
  datatype ByteLine = ByteLine(query: string, cursor: nat)

  /** The character index at byte offset `b` of `q`, when `b` lies on a
      character boundary (`str::is_char_boundary`); `None` inside a
      character or past the end. */
  function CharIndexAt(q: string, b: nat): (k: Option<nat>)
    ensures k.Some? ==> k.value <= |q| && Utf8Len(q[..k.value]) == b
  {
    if b == 0 then Some(0)
    else if q == [] || b < CharUtf8Len(q[0]) then None
    else match CharIndexAt(q[1..], b - CharUtf8Len(q[0]))
      case None => None
      case Some(k) =>
        assert q[..k + 1][1..] == q[1..][..k];
        Some(k + 1)
  }

  /** The byte offset of every character index is a boundary at that index. */
  lemma {:induction false} CharIndexOfPrefix(q: string, k: nat)
    requires k <= |q|
    ensures CharIndexAt(q, Utf8Len(q[..k])) == Some(k)
    decreases k
  {
    if k > 0 {
      assert q[..k][1..] == q[1..][..k - 1];
      CharIndexOfPrefix(q[1..], k - 1);
    }
  }

  lemma {:induction false} Utf8LenSnoc(s: string, c: char)
    ensures Utf8Len(s + [c]) == Utf8Len(s) + CharUtf8Len(c)
    decreases |s|
  {
    if s != [] {
      assert (s + [c])[1..] == s[1..] + [c];
      Utf8LenSnoc(s[1..], c);
    }
  }

  /** The character arm as written: `String::insert` at the byte cursor, then
      the cursor moves one byte on. `None` where `insert` panics because the
      cursor is not on a character boundary. */
  function InsertAsWritten(l: ByteLine, c: char): Option<ByteLine> {
    match CharIndexAt(l.query, l.cursor)
    case None => None
    case Some(k) => Some(ByteLine(l.query[..k] + [c] + l.query[k..], l.cursor + 1))
  }

  /** The character arm with the cursor moved on by `c.len_utf8()`. */
  function InsertByWidth(l: ByteLine, c: char): Option<ByteLine> {
    match CharIndexAt(l.query, l.cursor)
    case None => None
    case Some(k) => Some(ByteLine(l.query[..k] + [c] + l.query[k..], l.cursor + CharUtf8Len(c)))
  }

  /** As written, typing a character of two or more bytes into an empty
      query leaves the cursor inside it, so the next character typed panics:
      Japanese input stops at its second character. */
  lemma SecondWideCharPanics(c: char, d: char)
    requires CharUtf8Len(c) > 1
    ensures InsertAsWritten(ByteLine([], 0), c) == Some(ByteLine([c], 1))
    ensures InsertAsWritten(ByteLine([c], 1), d) == None
  {
    var e: string := [];
    assert e[..0] + [c] + e[0..] == [c];
    assert [c][1..] == [];
  }

  /** Moving the cursor by the character's width keeps it on the boundary
      after the typed character, so typing never panics. */
  lemma InsertByWidthOnBoundary(l: ByteLine, c: char, k: nat)
    requires CharIndexAt(l.query, l.cursor) == Some(k)
    ensures var r := InsertByWidth(l, c);
            && r.Some? && r.value.query == l.query[..k] + [c] + l.query[k..]
            && CharIndexAt(r.value.query, r.value.cursor) == Some(k + 1)
  {
    var q := l.query[..k] + [c] + l.query[k..];
    assert q[..k + 1] == l.query[..k] + [c];
    Utf8LenSnoc(l.query[..k], c);
    CharIndexOfPrefix(q, k + 1);
  }

  // ---------------------------------------------------------------------
  // The application state

  /** The interface state. `search_dictionary` is a parameter `oracle` of
      the operations that search, and the time a search took a parameter
      `elapsed`. */
  class App {
    var query: string
    var cursorPos: nat
    var results: seq<Entry>
    var searchTime: Option<nat>
    var scroll: nat
    var shouldQuit: bool

    /** The cursor is within the query. */
    ghost predicate Valid()
      reads this
    {
      cursorPos <= |query|
    }

    /** `App::new`: empty query, no results, nothing scrolled. */
    constructor ()
      ensures Valid()
      ensures query == [] && cursorPos == 0 && results == [] && searchTime == None
      ensures scroll == 0 && !shouldQuit
    {
      query := [];
      cursorPos := 0;
      results := [];
      searchTime := None;
      scroll := 0;
      shouldQuit := false;
    }

    /** `search`: a blank query clears the results and the time and keeps the
        scroll position; any other query takes the oracle's results and
        scrolls back to the top. */
    method Search(oracle: string -> seq<Entry>, elapsed: nat)
      modifies this
      ensures query == old(query) && cursorPos == old(cursorPos) && shouldQuit == old(shouldQuit)
      ensures IsBlank(query) ==> results == [] && searchTime == None && scroll == old(scroll)
      ensures !IsBlank(query) ==> results == oracle(query) && searchTime == Some(elapsed) && scroll == 0
    {
      if IsBlank(query) {
        results := [];
        searchTime := None;
        return;
      }
      results := oracle(query);
      searchTime := Some(elapsed);
      scroll := 0;
    }

    /** `handle_input`: the arm the key selects edits the line, scrolls or
        quits; every arm that changes the query then searches. */
    method HandleInput(key: KeyEvent, oracle: string -> seq<Entry>, elapsed: nat)
      requires Valid()
      modifies this
      ensures Valid()
      ensures Line(query, cursorPos) == EditLine(CommandOf(key), Line(old(query), old(cursorPos)))
      ensures shouldQuit == (old(shouldQuit) || CommandOf(key) == Quit)
      ensures Searches(CommandOf(key), Line(old(query), old(cursorPos))) ==>
        if IsBlank(query) then results == [] && searchTime == None && scroll == old(scroll)
        else results == oracle(query) && searchTime == Some(elapsed) && scroll == 0
      ensures !Searches(CommandOf(key), Line(old(query), old(cursorPos))) ==>
        && results == old(results) && searchTime == old(searchTime)
        && scroll == Scrolled(CommandOf(key), old(scroll), |old(results)|)
    {
      Perform(CommandOf(key), oracle, elapsed);
    }

    /** The body of the arm for `cmd`. */
    method Perform(cmd: Command, oracle: string -> seq<Entry>, elapsed: nat)
      requires Valid()
      modifies this
      ensures Valid()
      ensures Line(query, cursorPos) == EditLine(cmd, Line(old(query), old(cursorPos)))
      ensures shouldQuit == (old(shouldQuit) || cmd == Quit)
      ensures Searches(cmd, Line(old(query), old(cursorPos))) ==>
        if IsBlank(query) then results == [] && searchTime == None && scroll == old(scroll)
        else results == oracle(query) && searchTime == Some(elapsed) && scroll == 0
      ensures !Searches(cmd, Line(old(query), old(cursorPos))) ==>
        && results == old(results) && searchTime == old(searchTime)
        && scroll == Scrolled(cmd, old(scroll), |old(results)|)
    {
      match cmd {
        case Quit =>
          shouldQuit := true;
        case Home | End | Forward | Backward =>
          MoveCursor(cmd);
        case NextResult | PrevResult | NextPage | PrevPage =>
          ScrollResults(cmd);
        case KillToEnd | KillToStart | DeleteAt | DeleteBefore | Insert(_) =>
          EditQuery(cmd, oracle, elapsed);
        case Ignore =>
      }
    }

    /** The cursor-movement arms. */
    method MoveCursor(cmd: Command)
      requires Valid() && (cmd.Home? || cmd.End? || cmd.Forward? || cmd.Backward?)
      modifies this
      ensures Valid() && query == old(query)
      ensures cursorPos == EditLine(cmd, Line(old(query), old(cursorPos))).cursor
      ensures results == old(results) && searchTime == old(searchTime)
      ensures scroll == old(scroll) && shouldQuit == old(shouldQuit)
    {
      match cmd {
        case Home =>
          cursorPos := 0;
        case End =>
          cursorPos := |query|;
        case Forward =>
          if cursorPos < |query| {
            cursorPos := cursorPos + 1;
          }
        case Backward =>
          if cursorPos > 0 {
            cursorPos := cursorPos - 1;
          }
      }
    }

    /** The result-navigation and page arms. */
    method ScrollResults(cmd: Command)
      requires cmd.NextResult? || cmd.PrevResult? || cmd.NextPage? || cmd.PrevPage?
      modifies this
      ensures scroll == Scrolled(cmd, old(scroll), |results|)
      ensures query == old(query) && cursorPos == old(cursorPos) && results == old(results)
      ensures searchTime == old(searchTime) && shouldQuit == old(shouldQuit)
    {
      match cmd {
        case NextResult =>
          if scroll < LastPosition(|results|) {
            scroll := scroll + 1;
          }
        case PrevResult =>
          if scroll > 0 {
            scroll := scroll - 1;
          }
        case NextPage =>
          scroll := Min(scroll + 10, LastPosition(|results|));
        case PrevPage =>
          scroll := if scroll >= 10 then scroll - 10 else 0;
      }
    }

    /** The editing and typing arms: each edits the line and, when it did,
        searches. */
    method EditQuery(cmd: Command, oracle: string -> seq<Entry>, elapsed: nat)
      requires Valid()
      requires cmd.KillToEnd? || cmd.KillToStart? || cmd.DeleteAt? || cmd.DeleteBefore? || cmd.Insert?
      modifies this
      ensures Valid() && shouldQuit == old(shouldQuit)
      ensures Line(query, cursorPos) == EditLine(cmd, Line(old(query), old(cursorPos)))
      ensures Searches(cmd, Line(old(query), old(cursorPos))) ==>
        if IsBlank(query) then results == [] && searchTime == None && scroll == old(scroll)
        else results == oracle(query) && searchTime == Some(elapsed) && scroll == 0
      ensures !Searches(cmd, Line(old(query), old(cursorPos))) ==>
        results == old(results) && searchTime == old(searchTime) && scroll == old(scroll)
    {
      match cmd {
        case KillToEnd =>
          query := query[..cursorPos];
          Search(oracle, elapsed);
        case KillToStart =>
          query := query[cursorPos..];
          cursorPos := 0;
          Search(oracle, elapsed);
        case DeleteAt =>
          if cursorPos < |query| {
            query := query[..cursorPos] + query[cursorPos + 1..];
            Search(oracle, elapsed);
          }
        case DeleteBefore =>
          if cursorPos > 0 {
            cursorPos := cursorPos - 1;
            query := query[..cursorPos] + query[cursorPos + 1..];
            Search(oracle, elapsed);
          }
        case Insert(c) =>
          query := query[..cursorPos] + [c] + query[cursorPos..];
          cursorPos := cursorPos + 1;
          Search(oracle, elapsed);
      }
    }
  }

  // ---------------------------------------------------------------------
  // Rendering a result

  /** The marker of a common word: a space and a star. */
  const STAR: string := " \U{2B50}"

  /** The kanji joined by ", " with the kana in parentheses after them; with
      no kanji, the kana alone. */
  function FormsPart(e: Entry): string {
    if e.kanji != [] then
      Join(e.kanji, ", ") + (if e.kana != [] then " (" + Join(e.kana, ", ") + ")" else "")
    else if e.kana != [] then Join(e.kana, ", ")
    else ""
  }

  /** At most the first three glosses. */
  function Shown(glosses: seq<string>): seq<string> {
    glosses[..Min(|glosses|, 3)]
  }

  function GlossPart(e: Entry): string {
    if e.english != [] then " \U{2014} " + Join(Shown(e.english), "; ") else ""
  }

  function PosPart(e: Entry): string {
    if e.pos != [] then " [" + Join(e.pos, ", ") + "]" else ""
  }

  /** The line `format_entry` renders. */
  function EntryLine(e: Entry): string {
    FormsPart(e) + GlossPart(e) + PosPart(e) + (if e.isCommon then STAR else "")
  }

  /** `format_entry`: the line built piece by piece. */
  method FormatEntry(e: Entry) returns (output: string)
    ensures output == EntryLine(e)
  {
    output := [];
    if e.kanji != [] {
      output := output + Join(e.kanji, ", ");
      if e.kana != [] {
        output := output + (" (" + Join(e.kana, ", ") + ")");
      }
    } else if e.kana != [] {
      output := output + Join(e.kana, ", ");
    }
    assert output == FormsPart(e);
    ghost var forms := output;
    if e.english != [] {
      var glosses := Join(e.english[..Min(|e.english|, 3)], "; ");
      output := output + " \U{2014} ";
      output := output + glosses;
      Reassociate(forms, " \U{2014} ", glosses);
    }
    assert output == forms + GlossPart(e);
    if e.pos != [] {
      output := output + (" [" + Join(e.pos, ", ") + "]");
    }
    if e.isCommon {
      output := output + STAR;
    }
  }

  lemma Reassociate(a: string, b: string, c: string)
    ensures (a + b) + c == a + (b + c)
  {
  }

  /** Glosses after the third never show: the line is that of the entry cut
      to its first three glosses. */
  lemma OnlyFirstGlosses(e: Entry)
    ensures EntryLine(e) == EntryLine(e.(english := Shown(e.english)))
  {
    assert Shown(Shown(e.english)) == Shown(e.english);
  }

  /** The line starts with the forms. */
  lemma EntryLineStarts(e: Entry)
    ensures StartsWith(EntryLine(e), FormsPart(e))
  {
    var f, g, p := FormsPart(e), GlossPart(e), PosPart(e);
    PrefixOfAppend(f, f, g);
    PrefixOfAppend(f + g, f, p);
    PrefixOfAppend(f + g + p, f, if e.isCommon then STAR else "");
  }

  lemma PrefixOfAppend(a: string, p: string, b: string)
    requires StartsWith(a, p)
    ensures StartsWith(a + b, p)
  {
    assert (a + b)[..|p|] == a[..|p|];
  }

  /** With kanji present, the kana follow them in parentheses. */
  lemma KanaAfterKanji(e: Entry)
    requires e.kanji != [] && e.kana != []
    ensures StartsWith(EntryLine(e), Join(e.kanji, ", ") + (" (" + Join(e.kana, ", ") + ")"))
  {
    EntryLineStarts(e);
  }

  /** With no kanji, the kana stand alone, without parentheses. */
  lemma KanaAlone(e: Entry)
    requires e.kanji == []
    ensures StartsWith(EntryLine(e), Join(e.kana, ", "))
  {
    EntryLineStarts(e);
  }

  /** The star is appended to the line exactly for common words. */
  lemma StarAppended(e: Entry)
    ensures EntryLine(e.(isCommon := true)) == EntryLine(e.(isCommon := false)) + STAR
  {
    var e0 := e.(isCommon := false);
    SameBody(e.(isCommon := true), e0);
    assert EntryLine(e0) == FormsPart(e0) + GlossPart(e0) + PosPart(e0) + [];
  }

  /** The line before the star depends only on the strings of the entry. */
  lemma SameBody(e0: Entry, e1: Entry)
    requires e0.kanji == e1.kanji && e0.kana == e1.kana && e0.english == e1.english && e0.pos == e1.pos
    ensures FormsPart(e0) + GlossPart(e0) + PosPart(e0) == FormsPart(e1) + GlossPart(e1) + PosPart(e1)
  {
  }

  /** When the line has a part-of-speech list, it ends in the star exactly
      when the word is common. */
  lemma StarOnlyWhenCommon(e: Entry)
    requires e.pos != []
    ensures EndsWith(EntryLine(e), STAR) <==> e.isCommon
  {
    var base := FormsPart(e) + GlossPart(e) + PosPart(e);
    if e.isCommon {
      SuffixOfAppend(base, STAR);
    } else {
      var tail := " [" + Join(e.pos, ", ") + "]";
      assert EntryLine(e) == FormsPart(e) + GlossPart(e) + tail + [];
      LastOfAppend(FormsPart(e) + GlossPart(e), tail);
      NotStarEnding(EntryLine(e));
    }
  }

  lemma SuffixOfAppend(a: string, b: string)
    ensures EndsWith(a + b, b)
  {
    assert (a + b)[|a|..] == b;
  }

  /** A string whose last character is `]` does not end in the star. */
  lemma NotStarEnding(s: string)
    requires s != [] && s[|s| - 1] == ']'
    ensures !EndsWith(s, STAR)
  {
    if |STAR| <= |s| {
      assert s[|s| - |STAR|..][|STAR| - 1] == s[|s| - 1];
    }
  }

  lemma LastOfAppend(a: string, b: string)
    requires b != []
    ensures (a + b)[|a + b| - 1] == b[|b| - 1]
  {
  }
}

=== FILE: wrappers.dfy ===
/** Rust's `Option`. */
module Wrappers {

  datatype Option<T> = None | Some(value: T)
}
